=== FILE: README.md ===
# Token placement for a Dune board renderer, in Dafny

The repository renders the board of an online Dune game. Its two map
packages are `truthsayer` and the older `arrakis`. This project models the
core of each package:

- **Solvers** (`opti.py`) score a candidate placement and build new ones for
  a genetic search. There is one problem for a single token and one for
  several tokens that share a region.
- **Map helpers** (`poly.py`) prepare the board. They pair the flat
  coordinate lists of the map's `<area>` elements into polygons. They tell
  which sectors or regions lie under which location, which locations
  neighbour each other, and where the centres, the storm circle and random
  points inside a polygon are.
- **Processors** (`processor.py`) run one render round over a game state.
  They find the tokens that have no position yet, draw the storm, faction
  symbols and battle wheels, ask the solver for every pending token, delete
  stale drawings and write the player texts.

Two oracles stand in for the libraries the code calls:

- `Geometry.Shapely` covers shapely's areas, intersections, containment,
  centroids and bounds.
- `Geometry.Maths` covers `math.cos`, `sin`, `sqrt` and `pi`.

Their few axioms (`Valid`, `ValidTrig`, `ValidSqrt`) are hypotheses of the
contracts that need them. Every `random.random()` draw, sample and
`randint` is a parameter. The search driver `genetic` is the oracle
`Placement.Solvers`, which maps a problem to the state it returns.

Other modelling choices:

- Python dicts whose iteration order matters are insertion-ordered
  association lists (`Dicts`).
- A raised exception is the `Failure` case of `Wrappers.Result`, tagged with
  the Python exception class.

The modules follow the files:

| file | modules |
|---|---|
| `opti.py` | `Opti`, `MultiOpti`, `ArrakisOpti`, plus the pairing helpers `Flat` and `IndexPairs` |
| `poly.py` | `Poly`, `ArrakisPoly` |
| truthsayer's `processor.py` | `Processor`, `Pending`, `Decorations`, `Dispatch`, `Placement`, `Removal`, `Process` |
| arrakis' `processor.py` | `ArrakisScan`, `ArrakisRender` |

## Model

| member | source | states |
|---|---|---|
| Geometry.Distance | truthsayer/opti.py:27-28 | the distance is non-negative and its square is the squared Euclidean distance of the two points |
| Geometry.PolygonOf | truthsayer/processor.py:84 | the polygon has one vertex per integer pair, each the pair read as a real point |
| Geometry.RotationKeepsLength | truthsayer/opti.py:12-13 | rotating an offset by a cosine/sine pair on the unit circle keeps its length |
| Opti.RotateAboutPoint | truthsayer/opti.py:11-14 | the centre is a fixed point, and under the Pythagorean identity the rotated point stays at the same distance from the centre |
| Opti.ShiftFromPoint | truthsayer/opti.py:17-24 | near the centre's column the result keeps x and puts y at x plus the shift, the literal `px + delta`; otherwise x moves by the shift and the cross product with the centre ray equals oy·(px-ox), so the point leaves the ray by the `+ oy` term |
| Opti.ShiftRadialWhenCentreOnAxis | truthsayer/opti.py:21-23 | when the centre lies on the x axis the shifted point stays on the line through the centre and the point |
| Opti.ShiftAmount | truthsayer/opti.py:39 | the signed shift lies within plus or minus the distance to the centroid, and its sign follows the sign draw |
| Opti.Mutant | truthsayer/opti.py:31-40 | below one half the point is rotated about the centroid by 2π times the draw and keeps its distance; otherwise it is shifted by `ShiftAmount`, x moving by at most the distance and staying put in the vertical case |
| Opti.AvoidPenalty | truthsayer/opti.py:62-64 | the cubic overlap penalty is non-negative and zero without avoid zones |
| Opti.Heuristic | truthsayer/opti.py:58-73 | a state that is not nearly contained scores at least its avoid penalty; a nearly contained one scores at most its avoid penalty |
| Opti.HeuristicSignWithoutAvoidZones | truthsayer/opti.py:66-72 | without avoid zones the score of a nearly contained state is at most 0 and that of any other state at least 0 |
| Opti.ContainedStatesRankFirst | truthsayer/opti.py:92-94 | without avoid zones, `value` ranks every nearly contained state at or above every other state |
| Opti.Crossover | truthsayer/opti.py:75-82 | the child takes x from one parent and y from the other, chosen by the draw |
| Opti.CrossoverSelf | truthsayer/opti.py:75-82 | crossing a state with itself gives it back |
| Opti.Mutate | truthsayer/opti.py:84-85 | below 0.5 the choice draw rotates the point about the target's centroid by 2π times the first draw, keeping its distance; otherwise it shifts the point along the line through the centroid, leaving x alone on a nearly vertical line and moving x by at most the distance to the centroid |
| Opti.InitialState | truthsayer/opti.py:87-90 | the initial point lies inside the target and inside its bounds; it exists exactly when some draw is accepted |
| Opti.Value | truthsayer/opti.py:92-94 | a nearly-contained state scores at least minus its avoid penalty and any other state at most that; without avoid zones, zero separates the two |
| MultiOpti.Shortfall | truthsayer/opti.py:125-130 | the missing area of a token that is not nearly contained is non-negative under the geometry axioms |
| MultiOpti.TokenTerm | truthsayer/opti.py:122-130 | a token's own cost, its avoid penalty plus its shortfall, is non-negative |
| MultiOpti.RowCollisions | truthsayer/opti.py:134-139 | the collisions of token j with later tokens are non-negative |
| MultiOpti.CostFrom | truthsayer/opti.py:118-139 | the outer loop's cost from token j on is non-negative |
| MultiOpti.Heuristic | truthsayer/opti.py:115-140 | the multi-token heuristic is never negative |
| MultiOpti.PairCollisionsAppend | truthsayer/opti.py:134-139 | the collision sum over a concatenation of pair lists is the sum over each list |
| MultiOpti.RowIsPairs | truthsayer/opti.py:134-139 | the inner loop sums the collisions of exactly the pairs (j, k), k > j |
| MultiOpti.CostSplits | truthsayer/opti.py:118-139 | the cost from token j on is the per-token terms from j on plus the collisions of every pair enumerated from row j |
| MultiOpti.HeuristicSplits | truthsayer/opti.py:115-140 | the heuristic is the sum of the per-token terms plus the collision of every unordered token pair, each pair counted once |
| MultiOpti.OneTokenHasNoCollision | truthsayer/opti.py:134-139 | with one token the heuristic is that token's own term |
| MultiOpti.SetBlock | truthsayer/opti.py:149-150 | writing block j sets both of its coordinates and leaves every other entry alone |
| MultiOpti.SetBlockKeepsOthers | truthsayer/opti.py:149-150 | writing one block leaves every other block as it was |
| MultiOpti.Crossover | truthsayer/opti.py:142-157 | the child keeps the mother's length; each block comes from the father if its index is sampled and from the mother otherwise; at least one block is inherited |
| MultiOpti.Mutate | truthsayer/opti.py:159-168 | unsampled blocks are unchanged and a sampled block is the `mutant` of its original centre |
| MultiOpti.InitialState | truthsayer/opti.py:170-176 | with no tokens the call raises AttributeError ("centrod"); otherwise a state exists exactly when enough draws are accepted, and it holds 2N coordinates, block j being the j-th accepted point, inside the target |
| MultiOpti.Value | truthsayer/opti.py:178-180 | under the geometry axioms the value is never positive |
| ArrakisOpti.TranslationIsShift | arrakis/opti.py:27-31 | a translation move, added to the centroid, lands where `shiftFromPoint` would put the point |
| ArrakisOpti.Rotations | arrakis/opti.py:24-26 | there are 24 rotation moves, move i being the rotation by iπ/12 about the centroid, each keeping the distance to it |
| ArrakisOpti.TranslationMoves | arrakis/opti.py:27-31 | there are ten translation moves, one per fixed x offset, each a `shiftFromPoint` of the point |
| ArrakisOpti.Actions | arrakis/opti.py:18-32 | there are 34 moves when the point is more than a pixel right of the centroid and 24 otherwise, the rotations coming first |
| ArrakisOpti.Mutate | arrakis/opti.py:71-76 | the mutated point is the centroid plus one of the moves: a rotation keeping the distance, or a translation |
| Flat.Unflatten | truthsayer/poly.py:36-41 | pairing gives ⌊n/2⌋ vertices, vertex j being entries 2j and 2j+1 |
| Flat.Flatten | truthsayer/opti.py:172-175 | flattening writes 2·n entries, x before y, block j being pair j |
| Flat.FlattenUnflatten | truthsayer/poly.py:36-41 | pairing then flattening gives the coordinates back, less a trailing odd one |
| Flat.FlattenUnflattenEven | truthsayer/poly.py:36-41 | on an even-length coordinate list the pairing loses nothing |
| Flat.UnflattenFlatten | truthsayer/opti.py:172-175 | flattening then pairing is the identity |
| IndexPairs.Row | truthsayer/opti.py:134 | the inner loop visits (j, k) … (j, n-1) in order |
| IndexPairs.PairsFromExact | truthsayer/opti.py:118-134 | from row j on, exactly the pairs j ≤ a < b < n are enumerated, in strictly increasing order |
| IndexPairs.PairsMembership | truthsayer/opti.py:118-134 | (j, k) is enumerated if and only if j < k < n |
| IndexPairs.PairsStrictlySorted | truthsayer/opti.py:118-134 | the enumeration is strictly increasing, so no pair repeats |
| IndexPairs.PairsOfOne | truthsayer/opti.py:134 | a single token has no pair |
| Poly.ExtractArea | truthsayer/poly.py:35-47 | a poly area stores under its title the paired vertices, which flatten back to its coordinates less a trailing odd one; a circle stores its first two coordinates and fails with IndexError with fewer; no other name changes, and other shapes change nothing |
| Poly.Extract | truthsayer/poly.py:23-48 | fails with IndexError exactly when a circle area has fewer than two coordinates; otherwise the polygon names are exactly the "poly" titles, each holding the paired vertices of the last area with that title, and the circle names exactly the "circle" titles, each holding the centre of the last such area |
| Poly.ExtractFrom | truthsayer/poly.py:30-47 | the only error of the area loop is IndexError |
| Poly.ExtractSucceeds | truthsayer/poly.py:30-47 | the area loop succeeds exactly when every circle area has a centre |
| Poly.ExtractPolygons | truthsayer/poly.py:30-42 | after the loop the polygon names are the earlier ones plus the "poly" titles; a title holds its last area's vertices and every other name keeps its polygon |
| Poly.ExtractCircles | truthsayer/poly.py:30-47 | after the loop the circle names are the earlier ones plus the "circle" titles; a title holds its last area's centre and every other name keeps its centre |
| Poly.AddOnce | truthsayer/poly.py:76-77 | the list holds exactly the old members and the new one, without duplicates |
| Poly.RecordSector | truthsayer/poly.py:70-77 | after one sector, the table lists it under exactly the locations it hits and keeps everything listed before |
| Poly.CollectHits | truthsayer/poly.py:65-78 | each location's list holds exactly the hitting sectors, each once; a location is a key exactly when some sector hits it |
| Poly.FirstMissing | truthsayer/poly.py:83-91 | none exactly when every name outside `skip` has a polygon; otherwise the first such name without one |
| Poly.FirstMissingAt | truthsayer/poly.py:100-102 | a name without a polygon after names that all have one is the first missing name |
| Poly.FindIntersections | truthsayer/poly.py:65-78 | KeyError exactly when there are sectors and some sector or location has no polygon, naming a missing one, a location when the first sector has its polygon but a location does not; otherwise each location lists exactly the sectors sharing more than `threshold` area with it, each once, and is a key exactly when some sector does |
| Poly.KeepNeighbours | truthsayer/poly.py:83-94 | the kept pairs are exactly the neighbouring pairs of the input, and a strictly sorted input stays sorted |
| Poly.NeighbourIndices | truthsayer/poly.py:81-95 | exactly the index pairs i < j of non-skipped, intersecting locations, strictly increasing |
| Poly.NeighbourPairs | truthsayer/poly.py:83-95 | the name pairs are those of `NeighbourIndices`, in the same order, non-skipped and intersecting |
| Poly.FindNeighboring | truthsayer/poly.py:81-95 | KeyError on the first non-skipped location without a polygon exactly when there is one; otherwise the name pairs of `NeighbourIndices`, in the same order |
| Poly.FindCenters | truthsayer/poly.py:98-106 | KeyError on the first non-skipped location without a polygon exactly when there is one; otherwise exactly the non-skipped locations get a centre, which is their polygon's centroid |
| Poly.Seats | truthsayer/poly.py:111-115 | the lookup succeeds exactly when every seat is a circle of the map, giving the seat centres in order |
| Poly.SumDistances | truthsayer/poly.py:120-121 | the sum of distances is non-negative |
| Poly.OffsetsFromSums | truthsayer/poly.py:116-118 | the summed offsets of the points from a centre are the coordinate sums less n times the centre, so the mean of the sums cancels them |
| Poly.StormOf | truthsayer/poly.py:116-123 | the signed offsets of the six seats from the centre cancel, and the radius is their mean distance from it |
| Poly.FindStorm | truthsayer/poly.py:109-123 | `findStorm` succeeds exactly when all six seat circles exist, and then gives their storm circle |
| Poly.ScaleWithin | truthsayer/poly.py:130 | a unit draw scales a length to within [0, length] |
| Poly.UniformInBounds | truthsayer/poly.py:128-130 | a candidate drawn from unit draws lies inside the bounds |
| Poly.Accepted | truthsayer/poly.py:129-132 | every accepted candidate lies inside the polygon, and under the axioms inside its bounds |
| Poly.CollectTakesFirstAccepted | truthsayer/poly.py:129-132 | the sampling loop returns the points it had followed by the accepted draws, cut at `number`, when enough draws are accepted, and runs out of draws otherwise |
| Poly.GenerateRandom | truthsayer/poly.py:126-136 | a positive request returns the first `number` accepted draws, all inside the polygon, exactly when enough draws are accepted; a request for none or fewer raises AttributeError at the misspelled `centrod` |
| Poly.CentroidFlagIgnored | truthsayer/poly.py:126-136 | the `centroid` argument has no effect |
| ArrakisPoly.PairCoords | arrakis/poly.py:25-32 | the pairing loop yields ⌊n/2⌋ vertices, vertex j being entries 2j and 2j+1, and flattens back to the coordinates less a trailing odd one |
| ArrakisPoly.Partition | arrakis/poly.py:42-48 | an empty polygon name raises IndexError; otherwise the names starting with 'R' become regions and the rest locations, and nothing is lost |
| ArrakisPoly.TouchTable | arrakis/poly.py:49-60 | each location lists only regions whose polygons intersect it, once each, and every such region; a location is a key exactly when some region touches it |
| ArrakisPoly.TableCompleteByClass | arrakis/poly.py:42-60 | over the split lists, every region touching a location is listed under it |
| ArrakisPoly.TableByClass | arrakis/poly.py:42-60 | a table built over the split lists lists, under each location, exactly the regions touching it, each once, and has exactly the touched locations as keys |
| ArrakisPoly.FindIntersections | arrakis/poly.py:41-61 | `findIntersections` raises IndexError exactly on an empty name; otherwise every location lists exactly the regions touching it |
| Processor.Radius | truthsayer/processor.py:39-46 | a leader gets half the leader diameter and a troop half the troop diameter; any other name fails |
| Processor.StormPosition | truthsayer/processor.py:155-169 | the marker uses the storm file at scale 0.5 and angle 20·(position-6.5)-90; it lies on the circle of radius r+7 about the map centre |
| Processor.Wheel | truthsayer/processor.py:171-172 | the dial angle is zero exactly at value -1.25 and positive above it |
| Processor.WheelStrictlyIncreasing | truthsayer/processor.py:171-172 | the dial turns strictly with the value, 360/21 degrees per unit |
| Processor.SingleKind | truthsayer/processor.py:116-120 | the single-token label is "troop_token" for a troop, else "leader" for a leader, else none |
| Processor.MultiKind | truthsayer/processor.py:139-145 | the multi-token label is "leader_token" for a leader, else "troop_token" for a troop, else none |
| Processor.LabelsDisagreeOnDualTokens | truthsayer/processor.py:116-145 | a name that is both a leader and a troop is labelled "troop_token" by one path and "leader_token" by the other |
| Pending.VisualKeys | truthsayer/processor.py:192 | taking the keys of a drawing fails exactly for a number or string drawing |
| Pending.Enqueue | truthsayer/processor.py:193-197 | the token becomes pending at the given area and region with the given amount; every other pending token keeps its amount, and no level repeats a key |
| Pending.ScanTokens | truthsayer/processor.py:191-197 | exactly the region's tokens not yet drawn are added, with their amounts |
| Pending.ScanRegions | truthsayer/processor.py:186-197 | exactly the undrawn tokens of every region holding a dict are added |
| Pending.ScanArea | truthsayer/processor.py:178-197 | for an area that is not a point area, the pass raises AttributeError exactly when the area holds no region table, or holds tokens while its drawing has no keys; on success the area's drawing is refreshed (a spice point area takes its value), other drawings are unchanged, and exactly the area's pending tokens are queued with their amounts |
| Pending.ScanPending | truthsayer/processor.py:176-197 | the scan raises AttributeError exactly when some walked area cannot be walked; otherwise every managed area present gets its refreshed drawing, other drawings are unchanged, and exactly the pending tokens of the managed areas are queued with their amounts |
| Placement.Target | truthsayer/processor.py:84-94 | the target is the area polygon, intersected with the region polygon unless the region is "whole"; a missing polygon raises KeyError |
| Placement.AvoidZones | truthsayer/processor.py:100-106 | one disk per drawn token, centred on its position with its radius; an unknown token kind fails |
| Placement.RegionTable | truthsayer/processor.py:96-101 | the region's token table, empty when the area or region is missing; a string or number drawing, or a storm field in the region's place, raises AttributeError at `keys()`; the storm marker or a copied region dict without the region gives an empty table; a copied amount dict in the region's place raises TypeError unless empty |
| Placement.StoreTable | truthsayer/processor.py:96-99 | the write sets the region's table, keeps the area's other regions and changes no other area |
| Placement.StoreTableGrows | truthsayer/processor.py:121-127 | storing a table that keeps the region's old tokens loses no drawn token |
| Placement.SingleInstance | truthsayer/processor.py:110-113 | the single-token problem has the target, the avoid disks and the token's radius, and exists exactly when all three can be computed |
| Placement.PlaceSingle | truthsayer/processor.py:110-128 | the token is drawn at the solver's point with its label and amount; only its area changes and no drawn token is lost |
| Placement.Radii | truthsayer/processor.py:132 | one radius per name, in order; an unknown name fails |
| Placement.MultiInstance | truthsayer/processor.py:131-134 | the multi-token problem has the target, the avoid disks and the radii |
| Placement.WriteBack | truthsayer/processor.py:136-152 | name i is drawn with its multi-path label, its amount and the position of block i of the state; a state shorter than 2N raises IndexError; other tokens are unchanged |
| Placement.PlaceMultiple | truthsayer/processor.py:131-153 | every name is drawn from its block of the solver's state; only the area changes and no drawn token is lost |
| Placement.PlaceJob | truthsayer/processor.py:236-247 | every token handed to a call is drawn with its amount |
| Placement.PlaceAll | truthsayer/processor.py:231-248 | every token of every call is drawn, no drawn token is lost, and only the calls' areas change |
| Dispatch.RegionJobs | truthsayer/processor.py:233-247 | a region with several pending tokens makes one multi call, and one with at most one makes a single call per token |
| Dispatch.Jobs | truthsayer/processor.py:231-248 | every call of a well-keyed queue is well formed |
| Dispatch.RegionJobsCover | truthsayer/processor.py:236-247 | one region's calls hand out exactly its entries, in order |
| Dispatch.JobsCoverEntries | truthsayer/processor.py:231-248 | the calls hand out exactly the entries of `to_place`, in order |
| Dispatch.EntriesHeld | truthsayer/processor.py:231-248 | under distinct keys the entries are exactly the pending tokens with their amounts |
| Dispatch.JobsPlaceQueued | truthsayer/processor.py:176-248 | the calls place exactly the tokens the scan queued, with their amounts |
| Dispatch.JobAreasManaged | truthsayer/processor.py:177-248 | every call is for a managed area |
| Decorations.DrawStorm | truthsayer/processor.py:198-201 | with a storm position the marker is drawn, which needs a number and the storm file; without one nothing changes |
| Processor.Center | truthsayer/processor.py:62-66 | the storm ring is centred on the map centre, 7 units outside the configured radius |
| Decorations.FactionFile | truthsayer/processor.py:203-204 | the file of a faction's symbol; a missing symbol or file raises KeyError |
| Decorations.DrawFactions | truthsayer/processor.py:202-206 | every player seat shows its faction's symbol file; other drawings are unchanged |
| Decorations.DrawWheelValue | truthsayer/processor.py:207-211 | a wheel's value becomes its dial angle; other drawings are unchanged |
| Decorations.DrawWheelLeader | truthsayer/processor.py:212-217 | a wheel's leader is drawn from the leader's file; a name without a file or a number raises KeyError, a region dict TypeError; other drawings are unchanged |
| Decorations.PlayerLabels | truthsayer/processor.py:222-225 | a player's faction name and user name, with a KeyError when either is missing |
| Decorations.PutLabels | truthsayer/processor.py:226-227 | both label keys are set and nothing else changes |
| Decorations.DrawWheelPlayer | truthsayer/processor.py:220-229 | a wheel's player gets its faction name and user name as labels, and both references; a number raises KeyError, a region dict TypeError, a missing label KeyError; other drawings are unchanged |
| Decorations.DrawWheels | truthsayer/processor.py:207-217 | the step succeeds exactly when every present wheel value is a number and every present leader has a file; then each value shows its dial angle, each leader its file, and only the four wheel keys change |
| Decorations.PlayerLabelKeysDistinct | truthsayer/processor.py:218-229 | the four player label keys are distinct |
| Decorations.FixedKeysDistinct | truthsayer/processor.py:198-229 | the storm key, the four wheel keys and the four label keys are pairwise distinct, so no later step overwrites an earlier one |
| Decorations.RefsExact | truthsayer/processor.py:218-229 | the references hold exactly the label keys of the wheels that have a player, each pointing at its wheel |
| Decorations.DrawPlayers | truthsayer/processor.py:218-229 | the step succeeds exactly when every present wheel player has both labels; then each player's two label keys show its faction name and user name, the references are those of `Refs`, and only the four label keys change |
| Decorations.Decorate | truthsayer/processor.py:198-229 | the decorations succeed exactly when the storm, every seat, the wheels and the players succeed; then the storm marker (unless a seat is named "storm"), each seat's symbol (unless its key is a wheel or label key), the dials, leaders and labels are shown, and only the storm, the seats and the wheel keys change |
| Removal.Classify | truthsayer/processor.py:252-274 | battle cards are kept; point areas, the storm, dials, leaders and player labels are dropped when their area is gone; every other drawing is walked |
| Removal.Iterate | truthsayer/processor.py:274 | iterating a drawing raises TypeError exactly when it is a number (a wheel angle or a copied number) |
| Removal.Gather | truthsayer/processor.py:274-287 | the loop raises AttributeError ("keys") exactly when some walked object's area value, or its region's value, is not a dict; otherwise every gathered deletion is in the walked area and names a region or token that is gone, and every walked object whose area, region or token is gone is gathered |
| Removal.GatherSkipsTexts | truthsayer/processor.py:274-276 | a loop over strings gathers nothing |
| Removal.NoTokenRemovals | truthsayer/processor.py:274-287 | whatever the drawing, the token loop gathers nothing to delete |
| Removal.DropExactly | truthsayer/processor.py:250-273 | with this round's references, a drawing is dropped exactly when it is stale |
| Removal.StaleLabelsStay | truthsayer/processor.py:269-274 | a wheel player's label from an earlier round is walked, not dropped, when its wheel has no player now |
| Removal.StaleKeys | truthsayer/processor.py:252-287 | the scan fails with TypeError exactly when a walked drawing is a number; otherwise it lists exactly the keys classified Drop |
| Removal.RemoveAll | truthsayer/processor.py:289-290 | the listed keys disappear and every other drawing is kept as it was |
| Removal.Sweep | truthsayer/processor.py:250-292 | the removal keeps exactly the drawings not classified Drop, unchanged |
| Removal.PlayerTextSplits | truthsayer/processor.py:297 | for a user name without a line break, the text's first line is the user name and the rest is the faction name |
| Removal.WriteTexts | truthsayer/processor.py:294-302 | every player gets the text of its user name and faction name, and nothing else changes; a missing name raises KeyError |
| Process.QueuedDrawn | truthsayer/processor.py:176-292 | every queued token is drawn and survives the removal |
| Process.StaleGone | truthsayer/processor.py:250-292 | every stale drawing is deleted |
| Process.Untouched | truthsayer/processor.py:174-303 | a drawing that no phase writes and that is not stale passes through unchanged |
| Process.LaterPhasesKeep | truthsayer/processor.py:231-292 | the solver calls and the removal scan change no drawing outside the managed areas and the dropped keys |
| Process.DecorationsSurvive | truthsayer/processor.py:198-292 | what the decorations draw is still drawn at the end of the round at every key no later phase rewrites |
| Process.Render | truthsayer/processor.py:174-303 | a round fails if a managed area cannot be walked; on success the areas, factions and user names are unchanged, every queued token is drawn, every stale drawing is gone, unwritten drawings are kept, every player has its text, and the storm marker, seat symbols, dials, leaders and labels stay drawn at every key the solver calls and the removal scan leave alone |
| ArrakisScan.Unseen | arrakis/processor.py:66-67 | exactly the keys not already seen |
| ArrakisScan.Pin | arrakis/processor.py:68-71 | the listed tokens are put at the point and the other tokens are unchanged |
| ArrakisScan.PinArea | arrakis/processor.py:65-71 | pinning keeps the drawing's region keys and fails only with KeyError |
| ArrakisScan.PinAreaSpec | arrakis/processor.py:65-71 | pinning succeeds exactly when every token to draw has its region in the drawing; the fresh tokens are then at the point and the rest unchanged |
| ArrakisScan.Append | arrakis/processor.py:72-76 | appending queues exactly the given tokens at the area and region, and keeps the queue well keyed |
| ArrakisScan.Enqueue | arrakis/processor.py:65-76 | exactly the area's fresh tokens are queued, region by region |
| ArrakisScan.ScanArea | arrakis/processor.py:62-76 | an area not in the game is passed over; only a point area can fail, with KeyError; on success only that area's drawing changes, it exists and keeps its region keys, a point area queues nothing, and any other area queues exactly its tokens not yet drawn |
| ArrakisScan.ScanStep | arrakis/processor.py:61-76 | one area fails exactly when it is a point area with a fresh token whose region is not drawn |
| ArrakisScan.Scan | arrakis/processor.py:60-76 | the scan fails with KeyError exactly when some point area cannot be pinned; otherwise the undrawn tokens of the point areas are added at their point, every other drawn position is kept, and exactly the undrawn tokens of the other areas are queued |
| ArrakisRender.RegionJob | arrakis/processor.py:80-85 | a region with exactly one queued token makes a single call for it; any other makes a multi call for all of them |
| ArrakisRender.RegionJobEntries | arrakis/processor.py:80-85 | a region's call draws exactly its queued tokens |
| ArrakisRender.Jobs | arrakis/processor.py:78-85 | every call is for a queued area and one of its queued regions |
| ArrakisRender.JobsCoverQueue | arrakis/processor.py:78-85 | the calls draw exactly the queued tokens |
| ArrakisRender.JobAreas | arrakis/processor.py:68-85 | every call is for an area the scan passed that is not a point area |
| ArrakisRender.Store | arrakis/processor.py:42 | the write sets one region's table and changes nothing else |
| ArrakisRender.Avoid | arrakis/processor.py:28-32 | one disk per drawn token with that token's radius; an unknown kind fails |
| ArrakisRender.OneInstance | arrakis/processor.py:36-39 | the single problem has the target, the avoid disks and the radius |
| ArrakisRender.PlaceOne | arrakis/processor.py:36-43 | the token is drawn at the solver's point; only its area changes and no position is lost |
| ArrakisRender.ManyInstance | arrakis/processor.py:46-49 | the multi problem has the target, the avoid disks and the radii |
| ArrakisRender.WriteBlocks | arrakis/processor.py:51-54 | each name holds the block of its last occurrence; a short state raises IndexError; other tokens are kept |
| ArrakisRender.PlaceMany | arrakis/processor.py:46-55 | every name is drawn from its block; only the area changes and no position is lost |
| ArrakisRender.PlaceJob | arrakis/processor.py:78-85 | every token of a call is drawn |
| ArrakisRender.PlaceAll | arrakis/processor.py:78-85 | every token of every call is drawn, no position is lost, and only the calls' areas change |
| ArrakisRender.Pairs | arrakis/processor.py:89-92 | exactly the (area, region) pairs of the drawing's regions |
| ArrakisRender.Gather | arrakis/processor.py:88-92 | the scan raises KeyError exactly for a non-empty drawing whose area is gone; otherwise it lists exactly the regions the area no longer has |
| ArrakisRender.DeleteOne | arrakis/processor.py:95 | only that one region of that drawing goes |
| ArrakisRender.DeleteAll | arrakis/processor.py:94-95 | exactly the gathered regions go; everything else is kept |
| ArrakisRender.Prune | arrakis/processor.py:87-95 | every drawing keeps exactly the regions its area still has, unchanged, and fails with KeyError for a non-empty drawing of a missing area |
| ArrakisRender.QueuedPlaced | arrakis/processor.py:60-95 | a queued token is drawn by its call, and its region survives the removal |
| ArrakisRender.PinnedKept | arrakis/processor.py:60-95 | a token drawn at its point area's point keeps that position |
| ArrakisRender.Process | arrakis/processor.py:58-96 | the round fails if a point area cannot be pinned; on success every undrawn token is drawn, point-area tokens at their point, and only regions the areas still have remain |
| ArrakisRender.DrawnTokenRequeued | arrakis/processor.py:66-67 | the "already drawn" test compares a token with region names, so a token already drawn in its region is queued again |

## Left out

- The rendering files (`truthsayer/renderer.py`, `arrakis/renderer.py`,
  `arrakis/generator.py`) and the scripts are not part of this model. Nor is
  parsing the map's HTML, which becomes the parsed `<area>` list
  `Poly.RawArea`.
- The genetic search `genetic` is the oracle `Placement.Solvers`. Its
  population, selection and iteration limits are not modelled; only the
  state it returns is used.
- Shapely and `math` are the oracles `Geometry.Shapely` and
  `Geometry.Maths`. Floating point is modelled as exact reals, so rounding
  is not modelled.
- Random draws are parameters. `random.sample` and `random.randint` become
  index lists that the contracts require to be a sample.
- Poly.GenerateRandom: the `while` loop need not terminate. The model reads
  a finite stream of draws and returns `StillDrawing` when the stream ends,
  so its contracts are partial correctness.
- `getRegionsLocations` (truthsayer/poly.py:51-62) is not modelled. It
  assigns to a string index, which raises TypeError, and no modelled
  operation calls it.
- The commented-out `placeToken` (truthsayer/poly.py:139-184) is not code.
- Several names are undefined where the processors and solvers use them. The
  model follows the evident intent and treats each as the intended call or
  value:
  - `game_config` in `getRadius` (truthsayer/processor.py:42, 44);
  - `self` in `prepareInstance` (truthsayer/processor.py:83);
  - the unqualified `placeMultipleTokens` and `placeSingleToken` calls
    (truthsayer/processor.py:243, 247);
  - `areas` in `prepareInstance` (arrakis/processor.py:21);
  - `genetic` (arrakis/processor.py:40, 50);
  - `game_config` in `placeMultipleTokens` (arrakis/processor.py:47);
  - `Point` and `random` (arrakis/opti.py:42, 65).
- arrakis/processor.py imports `MultiTokenPlacementProblem` from
  arrakis/opti.py, which does not define it. The model uses the truthsayer
  problem `MultiOpti.MultiProblem`. arrakis/opti.py imports
  `generate_random` from a `poly` module, and the model uses
  `Poly.GenerateRandom`.
- truthsayer/opti.py:8 imports `generate_random` from `arrakis.poly`, which
  does not define it. `Opti.InitialState` and `MultiOpti.InitialState`
  use the truthsayer `Poly.GenerateRandom` in its place.
- The `print` calls are left out.
- Process.Render, ArrakisRender.Process: on an error the source has already
  changed `game_state` in place, for example by creating empty drawings,
  pinning tokens or drawing earlier parts. The caller keeps that partial
  object. The models return only the error, so they do not state the
  partly updated state.
- Placement.StoreTable: when `visual[area]` is the storm marker or a copied
  region dict without the region, the source adds the new token table as
  one more key of that dict. The model's drawing has no such mixed form, so
  it replaces the drawing with a token table holding only that region.
- ArrakisOpti.Result has no contract. It only adds the move to the
  centroid; the contracts of `ArrakisOpti.Mutate` state it.
- Removal.NoTokenRemovals: the token loop can never delete a token, so
  `to_remove` is always empty and its deletions (truthsayer/processor.py:291-292)
  are not modelled.
- Game-state values are the variants the processor handles. Any other JSON
  value is left out.

=== FILE: arrakis_opti.dfy ===
/** The discrete-move variant of the single-token problem in arrakis/opti.py.

  Instead of a random rotation or shift, `mutate` picks one of a finite list
  of moves (`actions`) and applies it with `result`. Its cost, crossover and
  seeding are the same code as the single-token problem of truthsayer/opti.py
  and the model shares them (`Opti.Heuristic`, `Opti.Crossover`,
  `Opti.Value`, `Opti.InitialState`); only the move list is modelled here.
 */
module ArrakisOpti {
  import opened Geometry
  import Opti

  /** The x offsets of the translation moves. */
  const Translations: seq<real> := [-60.0, -40.0, -20.0, -10.0, -5.0, 5.0, 10.0, 20.0, 40.0, 60.0]

  /** `math.pi*i/12`: the rotation angles, for `i` in 1..24. */
  function Angle(m: Maths, i: nat): real {
    m.pi * (i as real) / 12.0
  }

  /** The offset from `o` of `p` turned by `angle` about `o`. */
  function RotationOffset(m: Maths, o: Point, p: Point, angle: real): Point {
    var c, s := m.cos(angle), m.sin(angle);
    Point(c * (p.x - o.x) - s * (p.y - o.y), s * (p.x - o.x) + c * (p.y - o.y))
  }

  /** Translations are offered only when the point is more than one pixel
      right of the centroid. */
  predicate Translates(o: Point, p: Point) {
    p.x - o.x > 1.0
  }

  function Slope(o: Point, p: Point): real
    requires Translates(o, p)
  {
    (p.y - o.y) / (p.x - o.x)
  }

  /** The translation move with x offset `dx`: `(dx, m*dx + oy)`. */
  function TranslationOffset(o: Point, p: Point, dx: real): Point
    requires Translates(o, p)
  {
    Point(dx, Slope(o, p) * dx + o.y)
  }

  /** Added to the centroid, the translation move with offset `dx` lands where
      `shiftFromPoint` would with the shift that brings x to `ox + dx`. */
  lemma TranslationIsShift(o: Point, p: Point, dx: real)
    requires Translates(o, p)
    ensures Plus(o, TranslationOffset(o, p, dx)) == Opti.ShiftFromPoint(o, p, o.x + dx - p.x)
  {
    var m := Slope(o, p);
    assert m * (p.x - o.x) == p.y - o.y;
    assert m * (o.x + dx - p.x) == m * dx - (p.y - o.y);
  }

  /** The 24 rotation moves. */
  function Rotations(m: Maths, o: Point, p: Point): (r: seq<Point>)
    ensures |r| == 24
    ensures forall i :: 0 <= i < 24 ==> Plus(o, r[i]) == Opti.RotateAboutPoint(m, o, p, Angle(m, i + 1))
    ensures ValidTrig(m) ==> forall i :: 0 <= i < 24 ==> Square(r[i].x) + Square(r[i].y) == SqDist(p, o)
  {
    var r := seq(24, i requires 0 <= i < 24 => RotationOffset(m, o, p, Angle(m, i + 1)));
    forall i | 0 <= i < 24
      ensures ValidTrig(m) ==> Square(r[i].x) + Square(r[i].y) == SqDist(p, o)
    {
      var a := Angle(m, i + 1);
      RotationKeepsLength(m.cos(a), m.sin(a), p.x - o.x, p.y - o.y);
    }
    r
  }

  /** The 10 translation moves. */
  function TranslationMoves(o: Point, p: Point): (r: seq<Point>)
    requires Translates(o, p)
    ensures |r| == 10
    ensures forall t :: 0 <= t < 10 ==> r[t].x == Translations[t]
    ensures forall t :: 0 <= t < 10 ==> Plus(o, r[t]) == Opti.ShiftFromPoint(o, p, o.x + Translations[t] - p.x)
  {
    var r := seq(10, t requires 0 <= t < 10 => TranslationOffset(o, p, Translations[t]));
    forall t | 0 <= t < 10
      ensures Plus(o, r[t]) == Opti.ShiftFromPoint(o, p, o.x + Translations[t] - p.x)
    {
      TranslationIsShift(o, p, Translations[t]);
    }
    r
  }

  /** `actions(state)`: 24 rotation offsets, then the 10 translations when the
      point is right of the centroid. Each rotation offset, added to the
      centroid, is the point rotated by `pi*i/12` about it and so keeps the
      point's distance to the centroid; each translation, added to the
      centroid, is a radial shift of the point. */
  function Actions(m: Maths, g: Shapely, prob: Opti.SingleProblem, state: Point): (r: seq<Point>)
    ensures |r| == if Translates(g.centroid(prob.target), state) then 34 else 24
    ensures forall i :: 0 <= i < 24 ==>
      Plus(g.centroid(prob.target), r[i]) == Opti.RotateAboutPoint(m, g.centroid(prob.target), state, Angle(m, i + 1))
    ensures ValidTrig(m) ==> forall i :: 0 <= i < 24 ==>
      Square(r[i].x) + Square(r[i].y) == SqDist(state, g.centroid(prob.target))
    ensures Translates(g.centroid(prob.target), state) ==> forall t :: 0 <= t < 10 ==> r[24 + t].x == Translations[t]
    ensures Translates(g.centroid(prob.target), state) ==> forall t :: 0 <= t < 10 ==>
      Plus(g.centroid(prob.target), r[24 + t])
      == Opti.ShiftFromPoint(g.centroid(prob.target), state, g.centroid(prob.target).x + Translations[t] - state.x)
  {
    var o := g.centroid(prob.target);
    if Translates(o, state) then Rotations(m, o, state) + TranslationMoves(o, state) else Rotations(m, o, state)
  }

  /** `result(state, action)`: the centroid plus the offset; the state itself
      is not used. */
  function Result(g: Shapely, prob: Opti.SingleProblem, state: Point, action: Point): Point {
    Plus(g.centroid(prob.target), action)
  }

  /** `mutate(state)` with `random.sample(actions, 1)` choosing move `k`: the
      centroid plus one of the offered moves. A rotation move keeps the
      distance to the centroid; a translation move puts x at the centroid's
      x plus one of the listed offsets, on the line `shiftFromPoint` follows. */
  function Mutate(m: Maths, g: Shapely, prob: Opti.SingleProblem, state: Point, k: nat): (r: Point)
    requires k < |Actions(m, g, prob, state)|
    ensures exists a :: a in Actions(m, g, prob, state) && r == Plus(g.centroid(prob.target), a)
    ensures k < 24 ==> r == Opti.RotateAboutPoint(m, g.centroid(prob.target), state, Angle(m, k + 1))
    ensures k < 24 && ValidTrig(m) ==> SqDist(r, g.centroid(prob.target)) == SqDist(state, g.centroid(prob.target))
    ensures k >= 24 ==> Translates(g.centroid(prob.target), state) && r.x == g.centroid(prob.target).x + Translations[k - 24]
    ensures k >= 24 ==>
      r == Opti.ShiftFromPoint(g.centroid(prob.target), state, g.centroid(prob.target).x + Translations[k - 24] - state.x)
  {
    var actions := Actions(m, g, prob, state);
    assert actions[k] in actions;
    Result(g, prob, state, actions[k])
  }
}

=== FILE: arrakis_poly.dfy ===
/** The map helpers of arrakis/poly.py: the same coordinate pairing as
  truthsayer/poly.py, written as the explicit loop the source uses, and the
  older `findIntersections`, which splits the polygon names itself by their
  first letter and records every region whose polygon touches a location.
 */
module ArrakisPoly {
  import opened Wrappers
  import opened Dicts
  import opened Geometry
  import opened Flat
  import Poly

  /** The pairing loop inside `extract`: `len(coords) // 2` vertices, vertex
      `j` being `(coords[2j], coords[2j+1])`. It computes the same vertex list
      as the reference `Unflatten`, so flattening it back gives the
      coordinates less a trailing odd value. */
  method PairCoords(coords: seq<int>) returns (edges: seq<(int, int)>)
    ensures |edges| == |coords| / 2
    ensures forall j :: 0 <= j < |edges| ==> edges[j] == Block(coords, j)
    ensures edges == Unflatten(coords)
    ensures Flatten(edges) == coords[..2 * (|coords| / 2)]
  {
    edges := [];
    var j := 0;
    while j < |coords| / 2
      invariant 0 <= j <= |coords| / 2
      invariant |edges| == j
      invariant forall i :: 0 <= i < j ==> edges[i] == Block(coords, i)
    {
      edges := edges + [(coords[2 * j], coords[2 * j + 1])];
      j := j + 1;
    }
    FlattenUnflatten(coords);
  }

  /** A region's name starts with 'R'. */
  predicate IsRegion(name: string)
    requires |name| > 0
  {
    name[0] == 'R'
  }

  /** A polygon name that goes to the region list. */
  predicate RegionName(polygons: Dict<seq<(int, int)>>, name: string) {
    HasKey(polygons, name) && |name| > 0 && IsRegion(name)
  }

  /** A polygon name that goes to the location list. */
  predicate LocationName(polygons: Dict<seq<(int, int)>>, name: string) {
    HasKey(polygons, name) && |name| > 0 && !IsRegion(name)
  }

  /** The first loop after `i` names: each was non-empty and went to
      exactly one list. */
  ghost predicate SplitAfter(names: seq<string>, i: nat, regions: seq<string>, locations: seq<string>)
    requires i <= |names|
  {
    && (forall j :: 0 <= j < i ==> |names[j]| > 0)
    && (forall n :: n in regions <==> n in names[..i] && |n| > 0 && IsRegion(n))
    && (forall n :: n in locations <==> n in names[..i] && |n| > 0 && !IsRegion(n))
    && |regions| + |locations| == i
  }

  lemma SplitStep(names: seq<string>, i: nat, regions: seq<string>, locations: seq<string>)
    requires i < |names| && |names[i]| > 0
    requires SplitAfter(names, i, regions, locations)
    ensures IsRegion(names[i]) ==> SplitAfter(names, i + 1, regions + [names[i]], locations)
    ensures !IsRegion(names[i]) ==> SplitAfter(names, i + 1, regions, locations + [names[i]])
  {
    assert names[..i + 1] == names[..i] + [names[i]];
  }

  /** The first loop of `findIntersections`: the polygon names split, in
      order, into regions and locations. Reading `r[0]` of an empty name
      raises IndexError; otherwise every name goes to exactly one list. */
  method Partition(polygons: Dict<seq<(int, int)>>) returns (r: Result<(seq<string>, seq<string>)>)
    ensures r.Success? <==> forall i :: 0 <= i < |polygons| ==> |polygons[i].0| > 0
    ensures r.Failure? ==> r.error == IndexError
    ensures r.Success? ==> forall n :: n in r.value.0 <==> RegionName(polygons, n)
    ensures r.Success? ==> forall n :: n in r.value.1 <==> LocationName(polygons, n)
    ensures r.Success? ==> |r.value.0| + |r.value.1| == |polygons|
  {
    var names := Keys(polygons);
    var regions, locations := [], [];
    var i := 0;
    while i < |names|
      invariant 0 <= i <= |names|
      invariant SplitAfter(names, i, regions, locations)
    {
      var name := names[i];
      if |name| == 0 {
        return Failure(IndexError);
      }
      SplitStep(names, i, regions, locations);
      if IsRegion(name) {
        regions := regions + [name];
      } else {
        locations := locations + [name];
      }
      i := i + 1;
    }
    assert names[..i] == names;
    return Success((regions, locations));
  }

  /** The nested loops of `findIntersections` over the split names. */
  method TouchTable(g: Shapely, polygons: Dict<seq<(int, int)>>, regions: seq<string>, locations: seq<string>)
    returns (locs: map<string, seq<string>>)
    ensures forall l :: l in locs ==> l in locations && Poly.NoDup(locs[l])
    ensures forall l, s :: l in locs && s in locs[l] ==> s in regions && Poly.Touches(g, polygons, s, l)
    ensures forall l, s :: l in locations && s in regions && Poly.Touches(g, polygons, s, l) ==> l in locs && s in locs[l]
    ensures forall l :: l in locations ==> (l in locs <==> exists s :: s in regions && Poly.Touches(g, polygons, s, l))
  {
    var hit := (s, l) => Poly.Touches(g, polygons, s, l);
    assert forall s, l :: hit(s, l) == Poly.Touches(g, polygons, s, l);
    locs := Poly.CollectHits(regions, locations, hit);
  }

  /** What `findIntersections` promises of its table: every key is a
      location (a polygon name not starting with 'R'), its list holds, each
      once, exactly the regions whose polygons touch it, and a location is a
      key exactly when some region touches it. */
  ghost predicate LocationTable(g: Shapely, polygons: Dict<seq<(int, int)>>, locs: map<string, seq<string>>) {
    LocationLists(g, polygons, locs) && LocationComplete(g, polygons, locs) && LocationKeys(g, polygons, locs)
  }

  /** The keys are locations, and each list holds touching regions once. */
  ghost predicate LocationLists(g: Shapely, polygons: Dict<seq<(int, int)>>, locs: map<string, seq<string>>) {
    && (forall l :: l in locs ==> LocationName(polygons, l) && Poly.NoDup(locs[l]))
    && (forall l, s :: l in locs && s in locs[l] ==> RegionName(polygons, s) && Poly.Touches(g, polygons, s, l))
  }

  /** Every region touching a location is listed under it. */
  ghost predicate LocationComplete(g: Shapely, polygons: Dict<seq<(int, int)>>, locs: map<string, seq<string>>) {
    forall l, s :: LocationName(polygons, l) && RegionName(polygons, s) && Poly.Touches(g, polygons, s, l) ==>
      l in locs && s in locs[l]
  }

  /** A location is a key exactly when some region touches it. */
  ghost predicate LocationKeys(g: Shapely, polygons: Dict<seq<(int, int)>>, locs: map<string, seq<string>>) {
    forall l :: LocationName(polygons, l) ==>
      (l in locs <==> exists s :: RegionName(polygons, s) && Poly.Touches(g, polygons, s, l))
  }

  /** The keys are locations and the lists hold touching regions. */
  lemma TableListsByClass(g: Shapely, polygons: Dict<seq<(int, int)>>, regions: seq<string>, locations: seq<string>,
                          locs: map<string, seq<string>>)
    requires forall n :: n in regions <==> RegionName(polygons, n)
    requires forall n :: n in locations <==> LocationName(polygons, n)
    requires forall l :: l in locs ==> l in locations && Poly.NoDup(locs[l])
    requires forall l, s :: l in locs && s in locs[l] ==> s in regions && Poly.Touches(g, polygons, s, l)
    ensures LocationLists(g, polygons, locs)
  {
  }

  /** Every touching region of a location is in the table. */
  lemma TableCompleteByClass(g: Shapely, polygons: Dict<seq<(int, int)>>, regions: seq<string>, locations: seq<string>,
                             locs: map<string, seq<string>>)
    requires forall n :: n in regions <==> RegionName(polygons, n)
    requires forall n :: n in locations <==> LocationName(polygons, n)
    requires forall l, s :: l in locations && s in regions && Poly.Touches(g, polygons, s, l) ==> l in locs && s in locs[l]
    ensures LocationComplete(g, polygons, locs)
  {
  }

  /** A location is a key of the table exactly when some region touches it. */
  lemma TableDomainByClass(g: Shapely, polygons: Dict<seq<(int, int)>>, regions: seq<string>, locations: seq<string>,
                           locs: map<string, seq<string>>)
    requires forall n :: n in regions <==> RegionName(polygons, n)
    requires forall n :: n in locations <==> LocationName(polygons, n)
    requires forall l :: l in locations ==> (l in locs <==> exists s :: s in regions && Poly.Touches(g, polygons, s, l))
    ensures LocationKeys(g, polygons, locs)
  {
    forall l | LocationName(polygons, l)
      ensures l in locs <==> exists s :: RegionName(polygons, s) && Poly.Touches(g, polygons, s, l)
    {
      assert l in locations;
      if s :| RegionName(polygons, s) && Poly.Touches(g, polygons, s, l) {
        assert s in regions;
      }
    }
  }

  /** A table over the split lists, read in terms of the names' classes. */
  lemma TableByClass(g: Shapely, polygons: Dict<seq<(int, int)>>, regions: seq<string>, locations: seq<string>,
                     locs: map<string, seq<string>>)
    requires forall n :: n in regions <==> RegionName(polygons, n)
    requires forall n :: n in locations <==> LocationName(polygons, n)
    requires forall l :: l in locs ==> l in locations && Poly.NoDup(locs[l])
    requires forall l, s :: l in locs && s in locs[l] ==> s in regions && Poly.Touches(g, polygons, s, l)
    requires forall l, s :: l in locations && s in regions && Poly.Touches(g, polygons, s, l) ==> l in locs && s in locs[l]
    requires forall l :: l in locations ==> (l in locs <==> exists s :: s in regions && Poly.Touches(g, polygons, s, l))
    ensures LocationTable(g, polygons, locs)
  {
    TableListsByClass(g, polygons, regions, locations, locs);
    TableCompleteByClass(g, polygons, regions, locations, locs);
    TableDomainByClass(g, polygons, regions, locations, locs);
  }

  /** `findIntersections(areas)`: the table of `LocationTable`; an empty
      polygon name raises IndexError. */
  method FindIntersections(g: Shapely, areas: Poly.Areas) returns (r: Result<map<string, seq<string>>>)
    ensures r.Success? <==> forall i :: 0 <= i < |areas.polygons| ==> |areas.polygons[i].0| > 0
    ensures r.Failure? ==> r.error == IndexError
    ensures r.Success? ==> LocationTable(g, areas.polygons, r.value)
  {
    var split := Partition(areas.polygons);
    if split.Failure? {
      return Failure(split.error);
    }
    var locs := TouchTable(g, areas.polygons, split.value.0, split.value.1);
    TableByClass(g, areas.polygons, split.value.0, split.value.1, locs);
    return Success(locs);
  }
}

=== FILE: arrakis_render.dfy ===
/** The solver calls and the removal of `process` in arrakis/processor.py,
  and the whole round.

  Each region of `to_place` becomes one call: a single-token call when its
  list holds one token, a multi-token call otherwise. A call draws its
  tokens as `(x, y)` pairs in `visual[area][region]`. The removal then
  deletes every region of a drawing that its area no longer has.
 */
module ArrakisRender {
  import opened Wrappers
  import opened Dicts
  import opened Geometry
  import opened Processor
  import opened Placement
  import opened ArrakisScan
  import Opti
  import MultiOpti

  /** One solver call. */
  datatype Job = One(area: string, region: string, token: string) | Many(area: string, region: string, names: seq<string>)

  /** A queued token: (area, region, token). */
  type Entry = (string, string, string)

  function RegionJob(a: string, rg: string, elements: seq<string>): (job: Job)
    ensures job.area == a && job.region == rg
    ensures job.One? <==> |elements| == 1
    ensures job.One? ==> job.token == elements[0]
    ensures job.Many? ==> job.names == elements
  {
    if |elements| == 1 then One(a, rg, elements[0]) else Many(a, rg, elements)
  }

  /** One call per region of area `a`, in order. */
  function AreaJobs(a: string, regions: Dict<seq<string>>): (r: seq<Job>)
    ensures |r| == |regions|
    ensures forall j :: 0 <= j < |r| ==> r[j].area == a && r[j].region == regions[j].0
  {
    if regions == [] then [] else [RegionJob(a, regions[0].0, regions[0].1)] + AreaJobs(a, regions[1..])
  }

  /** The calls, area by area and region by region in `to_place` order:
      every call is for a queued area and one of its regions. */
  function Jobs(tp: ToPlace): (r: seq<Job>)
    ensures forall j :: 0 <= j < |r| ==> exists i :: 0 <= i < |tp| && tp[i].0 == r[j].area && HasKey(tp[i].1, r[j].region)
  {
    if tp == [] then []
    else
      var head, rest := AreaJobs(tp[0].0, tp[0].1), Jobs(tp[1..]);
      assert forall j :: 0 <= j < |head| ==> Keys(tp[0].1)[j] == head[j].region;
      assert forall i :: 1 <= i < |tp| ==> tp[i] == tp[1..][i - 1];
      head + rest
  }

  /** The tokens one call draws. */
  function JobEntries(job: Job): seq<Entry> {
    match job
    case One(a, rg, t) => [(a, rg, t)]
    case Many(a, rg, names) => seq(|names|, i requires 0 <= i < |names| => (a, rg, names[i]))
  }

  function JobsEntries(jobs: seq<Job>): seq<Entry> {
    if jobs == [] then [] else JobEntries(jobs[0]) + JobsEntries(jobs[1..])
  }

  // The arrakis calls carry no amounts, so they are a different `Job` from
  // `Dispatch.Job`, and `JobsEntriesAppend` and `JobEntriesIncluded` below
  // repeat the two list facts `Dispatch` proves for its own calls.

  lemma {:induction false} JobsEntriesAppend(x: seq<Job>, y: seq<Job>)
    ensures JobsEntries(x + y) == JobsEntries(x) + JobsEntries(y)
    decreases |x|
  {
    if x == [] {
      assert x + y == y;
    } else {
      assert (x + y)[1..] == x[1..] + y;
      JobsEntriesAppend(x[1..], y);
    }
  }

  /** The call for one region draws exactly the region's tokens. */
  lemma RegionJobEntries(a: string, rg: string, elements: seq<string>)
    ensures forall x: Entry :: x in JobEntries(RegionJob(a, rg, elements)) <==>
      x.0 == a && x.1 == rg && x.2 in elements
  {
    if |elements| != 1 {
      forall x: Entry | x.0 == a && x.1 == rg && x.2 in elements
        ensures x in JobEntries(RegionJob(a, rg, elements))
      {
        var i :| 0 <= i < |elements| && elements[i] == x.2;
        assert JobEntries(RegionJob(a, rg, elements))[i] == x;
      }
    }
  }

  lemma {:induction false} AreaJobsEntries(a: string, regions: Dict<seq<string>>)
    requires DistinctKeys(regions)
    ensures forall x: Entry :: x in JobsEntries(AreaJobs(a, regions)) <==>
      x.0 == a && HasKey(regions, x.1) && x.2 in Get(regions, x.1)
    decreases |regions|
  {
    if regions != [] {
      var job := RegionJob(a, regions[0].0, regions[0].1);
      var rest := AreaJobs(a, regions[1..]);
      assert AreaJobs(a, regions) == [job] + rest;
      JobsEntriesAppend([job], rest);
      assert JobsEntries([job]) == JobEntries(job);
      assert JobsEntries(AreaJobs(a, regions)) == JobEntries(job) + JobsEntries(rest);
      RegionJobEntries(a, regions[0].0, regions[0].1);
      DistinctCons(regions);
      AreaJobsEntries(a, regions[1..]);
      forall x: Entry
        ensures x in JobsEntries(AreaJobs(a, regions)) <==>
          x.0 == a && HasKey(regions, x.1) && x.2 in Get(regions, x.1)
      {
        HasKeyCons(regions, x.1);
        if x.1 == regions[0].0 {
          assert Get(regions, x.1) == regions[0].1;
          assert !HasKey(regions[1..], x.1);
        } else if HasKey(regions, x.1) {
          assert Get(regions, x.1) == Get(regions[1..], x.1);
        }
      }
    }
  }

  /** Dispatch hands out exactly the queued tokens. */
  lemma {:induction false} JobsCoverQueue(tp: ToPlace)
    requires WellKeyed(tp)
    ensures forall x: Entry :: x in JobsEntries(Jobs(tp)) <==> Listed(tp, x.0, x.1, x.2)
    decreases |tp|
  {
    if tp != [] {
      var a0 := tp[0].0;
      JobsEntriesAppend(AreaJobs(a0, tp[0].1), Jobs(tp[1..]));
      DistinctCons(tp);
      assert WellKeyed(tp[1..]) by {
        assert forall i :: 0 <= i < |tp| - 1 ==> tp[1..][i] == tp[i + 1];
      }
      JobsCoverQueue(tp[1..]);
      AreaJobsEntries(a0, tp[0].1);
      forall x: Entry
        ensures HasKey(tp, x.0) <==> x.0 == a0 || HasKey(tp[1..], x.0)
        ensures x.0 == a0 ==> Get(tp, x.0) == tp[0].1
        ensures x.0 != a0 && HasKey(tp, x.0) ==> Get(tp, x.0) == Get(tp[1..], x.0)
      {
        HasKeyCons(tp, x.0);
      }
    }
  }

  /** The tokens of any one call are among the tokens of all calls. */
  lemma {:induction false} JobEntriesIncluded(jobs: seq<Job>, j: nat)
    requires j < |jobs|
    ensures forall x :: x in JobEntries(jobs[j]) ==> x in JobsEntries(jobs)
    decreases j
  {
    if j > 0 {
      JobEntriesIncluded(jobs[1..], j - 1);
    }
  }

  lemma {:induction false} AreaJobsNonEmpty(a: string, regions: Dict<seq<string>>)
    requires forall j :: 0 <= j < |regions| ==> regions[j].1 != []
    ensures forall j :: 0 <= j < |AreaJobs(a, regions)| ==> JobEntries(AreaJobs(a, regions)[j]) != []
    decreases |regions|
  {
    if regions != [] {
      AreaJobsNonEmpty(a, regions[1..]);
    }
  }

  lemma {:induction false} JobsNonEmpty(tp: ToPlace)
    requires WellKeyed(tp)
    ensures forall j :: 0 <= j < |Jobs(tp)| ==> JobEntries(Jobs(tp)[j]) != []
    decreases |tp|
  {
    if tp != [] {
      assert WellKeyed(tp[1..]) by {
        assert forall i :: 0 <= i < |tp| - 1 ==> tp[1..][i] == tp[i + 1];
      }
      JobsNonEmpty(tp[1..]);
      AreaJobsNonEmpty(tp[0].0, tp[0].1);
      var x, y := AreaJobs(tp[0].0, tp[0].1), Jobs(tp[1..]);
      assert forall j :: |x| <= j < |x + y| ==> (x + y)[j] == y[j - |x|];
    }
  }

  /** Every call is for an area whose queued tokens it draws: a listed,
      non-point area. */
  lemma JobAreas(points: map<string, Position>, areas: Holdings, vis0: Dict<Drawing>, done: seq<string>, tp: ToPlace)
    requires QueuedAfter(points, areas, vis0, done, tp)
    ensures forall j :: 0 <= j < |Jobs(tp)| ==> Jobs(tp)[j].area in done && Jobs(tp)[j].area !in points
  {
    var jobs := Jobs(tp);
    JobsCoverQueue(tp);
    JobsNonEmpty(tp);
    forall j | 0 <= j < |jobs|
      ensures jobs[j].area in done && jobs[j].area !in points
    {
      JobEntriesIncluded(jobs, j);
      var x := JobEntries(jobs[j])[0];
      assert x in JobsEntries(jobs);
    }
  }

  /** `visual[a][rg]`, or the `{}` that `prepareInstance` puts there. */
  function TableOf(vis: Dict<Drawing>, a: string, rg: string): Table {
    if HasKey(DrawingOf(vis, a), rg) then Get(DrawingOf(vis, a), rg) else []
  }

  /** Token `t` has a position in region `rg` of area `a`. */
  predicate HasPos(vis: Dict<Drawing>, a: string, rg: string, t: string) {
    HasKey(DrawingOf(vis, a), rg) && HasKey(Get(DrawingOf(vis, a), rg), t)
  }

  function PosAt(vis: Dict<Drawing>, a: string, rg: string, t: string): Position
    requires HasPos(vis, a, rg, t)
  {
    Get(Get(DrawingOf(vis, a), rg), t)
  }

  /** No position is lost. */
  ghost predicate Grows(vis: Dict<Drawing>, vis': Dict<Drawing>) {
    forall a, rg, t :: HasPos(vis, a, rg, t) ==> HasPos(vis', a, rg, t)
  }

  /** `visual[a][rg] = table`. */
  function Store(vis: Dict<Drawing>, a: string, rg: string, table: Table): (r: Dict<Drawing>)
    ensures AgreeOutside(vis, r, {a})
    ensures forall t :: HasPos(r, a, rg, t) <==> HasKey(table, t)
    ensures forall t :: HasPos(r, a, rg, t) ==> PosAt(r, a, rg, t) == Get(table, t)
    ensures forall a', rg', t :: a' != a || rg' != rg ==>
      (HasPos(r, a', rg', t) <==> HasPos(vis, a', rg', t))
      && (HasPos(vis, a', rg', t) ==> PosAt(r, a', rg', t) == PosAt(vis, a', rg', t))
  {
    Put(vis, a, Put(DrawingOf(vis, a), rg, table))
  }

  /** The avoid zones of `prepareInstance`: a disk per drawn token of the
      region. A token with no diameter raises TypeError. */
  function Avoid(cfg: Config, table: Table): (r: Result<seq<Shape>>)
    ensures r.Success? <==> forall i :: 0 <= i < |table| ==> Radius(cfg, table[i].0).Success?
    ensures r.Success? ==> |r.value| == |table|
    ensures r.Success? ==> forall i :: 0 <= i < |table| ==>
      r.value[i] == Disk(Point(table[i].1.0, table[i].1.1), Radius(cfg, table[i].0).value)
  {
    if table == [] then Success([])
    else
      var radius :- Radius(cfg, table[0].0);
      var rest :- Avoid(cfg, table[1..]);
      Success([Disk(Point(table[0].1.0, table[0].1.1), radius)] + rest)
  }

  /** The problem `placeSingleToken` hands to the solver, with tolerance
      0.01 whatever the caller asked for. */
  function OneInstance(cfg: Config, vis: Dict<Drawing>, a: string, rg: string, t: string): (r: Result<Opti.SingleProblem>)
    ensures r.Success? <==>
      Radius(cfg, t).Success? && Target(cfg, a, rg).Success? && Avoid(cfg, TableOf(vis, a, rg)).Success?
    ensures r.Success? ==> r.value == Opti.SingleProblem(Target(cfg, a, rg).value, Avoid(cfg, TableOf(vis, a, rg)).value,
                                                         Radius(cfg, t).value, 0.01)
  {
    var radius :- Radius(cfg, t);
    var target :- Target(cfg, a, rg);
    var avoid :- Avoid(cfg, TableOf(vis, a, rg));
    Success(Opti.SingleProblem(target, avoid, radius, 0.01))
  }

  /** `placeSingleToken`: the token is drawn where the solver puts it;
      nothing else moves. */
  function PlaceOne(solvers: Solvers, cfg: Config, vis: Dict<Drawing>, a: string, rg: string, t: string)
    : (r: Result<Dict<Drawing>>)
    ensures r.Success? <==> OneInstance(cfg, vis, a, rg, t).Success?
    ensures r.Success? ==>
      var p := solvers.single(OneInstance(cfg, vis, a, rg, t).value);
      HasPos(r.value, a, rg, t) && PosAt(r.value, a, rg, t) == (p.x, p.y)
    ensures r.Success? ==> AgreeOutside(vis, r.value, {a}) && Grows(vis, r.value)
  {
    var prob :- OneInstance(cfg, vis, a, rg, t);
    var p := solvers.single(prob);
    Success(Store(vis, a, rg, Put(TableOf(vis, a, rg), t, (p.x, p.y))))
  }

  /** The problem `placeMultipleTokens` hands to the solver. */
  function ManyInstance(cfg: Config, vis: Dict<Drawing>, a: string, rg: string, names: seq<string>)
    : (r: Result<MultiOpti.MultiProblem>)
    ensures r.Success? <==>
      Radii(cfg, names).Success? && Target(cfg, a, rg).Success? && Avoid(cfg, TableOf(vis, a, rg)).Success?
    ensures r.Success? ==> r.value == MultiOpti.MultiProblem(Target(cfg, a, rg).value, Avoid(cfg, TableOf(vis, a, rg)).value,
                                                             Radii(cfg, names).value, 0.01)
  {
    var radii :- Radii(cfg, names);
    var target :- Target(cfg, a, rg);
    var avoid :- Avoid(cfg, TableOf(vis, a, rg));
    Success(MultiOpti.MultiProblem(target, avoid, radii, 0.01))
  }

  /** Name `i` is written last at index `i`: no later name repeats it. */
  predicate LastAt(names: seq<string>, i: nat, n: nat)
    requires i < n <= |names|
  {
    forall j :: i < j < n ==> names[j] != names[i]
  }

  /** After `n` names the table holds the old keys and those names. */
  ghost predicate BlockKeys(table: Table, t: Table, names: seq<string>, n: nat)
    requires n <= |names|
  {
    forall k :: HasKey(t, k) <==> HasKey(table, k) || k in names[..n]
  }

  /** After `n` names each of them holds its last block. */
  ghost predicate BlockValues(t: Table, names: seq<string>, state: seq<real>, n: nat)
    requires n <= |names| && 2 * n <= |state|
  {
    forall i :: 0 <= i < n && LastAt(names, i, n) ==>
      HasKey(t, names[i]) && Get(t, names[i]) == (state[2 * i], state[2 * i + 1])
  }

  /** After `n` names the other keys hold their old values. */
  ghost predicate BlockRest(table: Table, t: Table, names: seq<string>, n: nat)
    requires n <= |names|
  {
    forall k :: HasKey(table, k) && k !in names[..n] ==> HasKey(t, k) && Get(t, k) == Get(table, k)
  }

  /** The table after the write-back has handled the first `n` names. */
  ghost predicate Blocks(table: Table, t: Table, names: seq<string>, state: seq<real>, n: nat)
    requires n <= |names| && 2 * n <= |state|
  {
    BlockKeys(table, t, names, n) && BlockValues(t, names, state, n) && BlockRest(table, t, names, n)
  }

  /** `names[..n + 1]` is `names[..n]` and then `names[n]`. */
  lemma PrefixStep(names: seq<string>, n: nat, k: string)
    requires n < |names|
    ensures k in names[..n + 1] <==> k in names[..n] || k == names[n]
  {
    assert names[..n + 1] == names[..n] + [names[n]];
  }

  lemma BlockKeysStep(table: Table, t: Table, names: seq<string>, n: nat, v: (real, real))
    requires n < |names|
    requires BlockKeys(table, t, names, n)
    ensures BlockKeys(table, Put(t, names[n], v), names, n + 1)
  {
    assert names[..n + 1] == names[..n] + [names[n]];
  }

  lemma BlockValuesStep(t: Table, names: seq<string>, state: seq<real>, n: nat)
    requires n < |names| && 2 * n + 1 < |state|
    requires BlockValues(t, names, state, n)
    ensures BlockValues(Put(t, names[n], (state[2 * n], state[2 * n + 1])), names, state, n + 1)
  {
    var t' := Put(t, names[n], (state[2 * n], state[2 * n + 1]));
    forall i | 0 <= i < n + 1 && LastAt(names, i, n + 1)
      ensures HasKey(t', names[i]) && Get(t', names[i]) == (state[2 * i], state[2 * i + 1])
    {
      if i < n {
        assert names[n] != names[i];
        assert LastAt(names, i, n);
      }
    }
  }

  lemma BlockRestStep(table: Table, t: Table, names: seq<string>, n: nat, v: (real, real))
    requires n < |names|
    requires BlockRest(table, t, names, n)
    ensures BlockRest(table, Put(t, names[n], v), names, n + 1)
  {
    var t' := Put(t, names[n], v);
    forall k | HasKey(table, k) && k !in names[..n + 1]
      ensures HasKey(t', k) && Get(t', k) == Get(table, k)
    {
      PrefixStep(names, n, k);
    }
  }

  lemma BlockStep(table: Table, t: Table, names: seq<string>, state: seq<real>, n: nat)
    requires n < |names| && 2 * n + 1 < |state|
    requires Blocks(table, t, names, state, n)
    ensures Blocks(table, Put(t, names[n], (state[2 * n], state[2 * n + 1])), names, state, n + 1)
  {
    var v := (state[2 * n], state[2 * n + 1]);
    BlockKeysStep(table, t, names, n, v);
    BlockValuesStep(t, names, state, n);
    BlockRestStep(table, t, names, n, v);
  }

  /** The write-back loop of `placeMultipleTokens`: name `i` is drawn at
      `(state[2i], state[2i+1])`, the solver's block for token `i`; a name
      listed twice keeps its last block. A state too short for the names
      raises IndexError. */
  method WriteBlocks(table: Table, names: seq<string>, state: seq<real>) returns (r: Result<Table>)
    ensures r.Success? <==> 2 * |names| <= |state|
    ensures r.Failure? ==> r.error == IndexError
    ensures r.Success? ==> forall k :: HasKey(r.value, k) <==> HasKey(table, k) || k in names
    ensures r.Success? ==> forall i :: 0 <= i < |names| && LastAt(names, i, |names|) ==>
      Get(r.value, names[i]) == (state[2 * i], state[2 * i + 1])
      && Point(state[2 * i], state[2 * i + 1]) == MultiOpti.TokenAt(state, i)
    ensures r.Success? ==> forall k :: HasKey(table, k) && k !in names ==> Get(r.value, k) == Get(table, k)
  {
    var t := table;
    var n := 0;
    while n < |names|
      invariant 0 <= n <= |names| && 2 * n <= |state|
      invariant Blocks(table, t, names, state, n)
    {
      if 2 * n + 1 >= |state| {
        return Failure(IndexError);
      }
      BlockStep(table, t, names, state, n);
      t, n := Put(t, names[n], (state[2 * n], state[2 * n + 1])), n + 1;
    }
    assert names[..n] == names;
    return Success(t);
  }

  /** `placeMultipleTokens`: every name is drawn from its block of the
      solver's state; nothing else moves. */
  method PlaceMany(solvers: Solvers, cfg: Config, vis: Dict<Drawing>, a: string, rg: string, names: seq<string>)
    returns (r: Result<Dict<Drawing>>)
    ensures ManyInstance(cfg, vis, a, rg, names).Failure? ==> r.Failure?
    ensures r.Success? ==> forall i :: 0 <= i < |names| ==> HasPos(r.value, a, rg, names[i])
    ensures r.Success? ==> forall i :: 0 <= i < |names| && LastAt(names, i, |names|) ==>
      var state := solvers.multi(ManyInstance(cfg, vis, a, rg, names).value);
      2 * i + 1 < |state| && PosAt(r.value, a, rg, names[i]) == (state[2 * i], state[2 * i + 1])
    ensures r.Success? ==> AgreeOutside(vis, r.value, {a}) && Grows(vis, r.value)
  {
    var prob :- ManyInstance(cfg, vis, a, rg, names);
    var state := solvers.multi(prob);
    var table :- WriteBlocks(TableOf(vis, a, rg), names, state);
    return Success(Store(vis, a, rg, table));
  }

  /** One call of the dispatch loop. */
  method PlaceJob(solvers: Solvers, cfg: Config, vis: Dict<Drawing>, job: Job) returns (r: Result<Dict<Drawing>>)
    ensures r.Success? ==> forall x :: x in JobEntries(job) ==> HasPos(r.value, x.0, x.1, x.2)
    ensures r.Success? ==> AgreeOutside(vis, r.value, {job.area}) && Grows(vis, r.value)
  {
    match job
    case One(a, rg, t) =>
      r := PlaceOne(solvers, cfg, vis, a, rg, t);
    case Many(a, rg, names) =>
      r := PlaceMany(solvers, cfg, vis, a, rg, names);
      if r.Success? {
        forall x | x in JobEntries(job)
          ensures HasPos(r.value, x.0, x.1, x.2)
        {
          var i :| 0 <= i < |names| && x == (a, rg, names[i]);
        }
      }
  }

  /** What the dispatch loop keeps after `k` calls: their tokens are
      drawn, no position is lost, and only their areas change. */
  ghost predicate Dispatched(vis: Dict<Drawing>, v: Dict<Drawing>, jobs: seq<Job>, k: nat)
    requires k <= |jobs|
  {
    && (forall x :: x in JobsEntries(jobs[..k]) ==> HasPos(v, x.0, x.1, x.2))
    && Grows(vis, v)
    && AgreeOutside(vis, v, set j | 0 <= j < k :: jobs[j].area)
  }

  /** One solver call extends what the loop keeps by one call. */
  lemma PlaceStep(vis: Dict<Drawing>, v: Dict<Drawing>, v': Dict<Drawing>, jobs: seq<Job>, k: nat)
    requires k < |jobs|
    requires Dispatched(vis, v, jobs, k)
    requires forall x :: x in JobEntries(jobs[k]) ==> HasPos(v', x.0, x.1, x.2)
    requires AgreeOutside(v, v', {jobs[k].area}) && Grows(v, v')
    ensures Dispatched(vis, v', jobs, k + 1)
  {
    assert jobs[..k + 1] == jobs[..k] + [jobs[k]];
    JobsEntriesAppend(jobs[..k], [jobs[k]]);
    assert JobsEntries([jobs[k]]) == JobEntries(jobs[k]);
    AgreeOutsideChain(vis, v, v', set j | 0 <= j < k :: jobs[j].area, {jobs[k].area},
                      set j | 0 <= j < k + 1 :: jobs[j].area);
  }

  /** The dispatch loop: every token of every call is drawn, no position is
      lost, and only the calls' areas change. */
  method PlaceAll(solvers: Solvers, cfg: Config, vis: Dict<Drawing>, jobs: seq<Job>) returns (r: Result<Dict<Drawing>>)
    ensures r.Success? ==> forall x :: x in JobsEntries(jobs) ==> HasPos(r.value, x.0, x.1, x.2)
    ensures r.Success? ==> Grows(vis, r.value)
    ensures r.Success? ==> AgreeOutside(vis, r.value, set j | 0 <= j < |jobs| :: jobs[j].area)
  {
    var v := vis;
    var k := 0;
    while k < |jobs|
      invariant 0 <= k <= |jobs|
      invariant Dispatched(vis, v, jobs, k)
    {
      var step := PlaceJob(solvers, cfg, v, jobs[k]);
      if step.Failure? {
        return Failure(step.error);
      }
      PlaceStep(vis, v, step.value, jobs, k);
      v, k := step.value, k + 1;
    }
    assert jobs[..k] == jobs;
    return Success(v);
  }

  /** `(area, region)` for every region of `regions`. */
  function Pairs(a: string, regions: seq<string>): (r: seq<(string, string)>)
    ensures forall x :: x in r <==> x.0 == a && x.1 in regions
  {
    var r := seq(|regions|, i requires 0 <= i < |regions| => (a, regions[i]));
    assert forall x: (string, string) :: x.0 == a && x.1 in regions ==> x in r by {
      forall x: (string, string) | x.0 == a && x.1 in regions
        ensures x in r
      {
        var i :| 0 <= i < |regions| && regions[i] == x.1;
        assert r[i] == x;
      }
    }
    r
  }

  /** The removal scan over the areas `keys`: the regions of each drawing
      its area no longer has. Walking a non-empty drawing of an area missing
      from `areas` raises KeyError. */
  function Gather(areas: Holdings, vis: Dict<Drawing>, keys: seq<string>): (r: Result<seq<(string, string)>>)
    ensures r.Success? <==> forall i :: 0 <= i < |keys| && DrawingOf(vis, keys[i]) != [] ==> HasKey(areas, keys[i])
    ensures r.Failure? ==> r.error.KeyError?
    ensures r.Success? ==> forall x :: x in r.value <==>
      x.0 in keys && HasKey(areas, x.0) && HasKey(DrawingOf(vis, x.0), x.1) && !HasKey(Get(areas, x.0), x.1)
  {
    if keys == [] then Success([])
    else
      var a := keys[0];
      var regions := Keys(DrawingOf(vis, a));
      if regions != [] && !HasKey(areas, a) then Failure(KeyError(a))
      else
        var rest :- Gather(areas, vis, keys[1..]);
        var here := if HasKey(areas, a) then Pairs(a, Unseen(Keys(Get(areas, a)), regions)) else [];
        Success(here + rest)
  }

  /** `del visual[a][rg]`: only that region of that drawing goes. */
  function DeleteOne(vis: Dict<Drawing>, a: string, rg: string): (r: Dict<Drawing>)
    ensures forall a' :: HasKey(r, a') <==> HasKey(vis, a')
    ensures forall a', rg' :: HasKey(DrawingOf(r, a'), rg') <==> HasKey(DrawingOf(vis, a'), rg') && (a', rg') != (a, rg)
    ensures forall a', rg' :: HasKey(DrawingOf(r, a'), rg') ==> Get(DrawingOf(r, a'), rg') == Get(DrawingOf(vis, a'), rg')
  {
    if HasKey(vis, a) then
      var d := Remove(DrawingOf(vis, a), rg);
      assert forall rg' :: (HasKey(d, rg') <==> HasKey(DrawingOf(vis, a), rg') && rg' != rg)
                           && (HasKey(d, rg') ==> Get(d, rg') == Get(DrawingOf(vis, a), rg')) by {
        forall rg': string {
          RemoveLookup(DrawingOf(vis, a), rg, rg');
        }
      }
      Put(vis, a, d)
    else vis
  }

  /** `del visual[area][region]` for every gathered pair. */
  function DeleteAll(vis: Dict<Drawing>, pairs: seq<(string, string)>): (r: Dict<Drawing>)
    ensures forall a :: HasKey(r, a) <==> HasKey(vis, a)
    ensures forall a, rg :: HasKey(DrawingOf(r, a), rg) <==> HasKey(DrawingOf(vis, a), rg) && (a, rg) !in pairs
    ensures forall a, rg :: HasKey(DrawingOf(r, a), rg) ==> Get(DrawingOf(r, a), rg) == Get(DrawingOf(vis, a), rg)
    decreases |pairs|
  {
    if pairs == [] then vis
    else
      var v := DeleteOne(vis, pairs[0].0, pairs[0].1);
      var r := DeleteAll(v, pairs[1..]);
      assert forall a, rg :: (a, rg) in pairs <==> (a, rg) == pairs[0] || (a, rg) in pairs[1..];
      assert forall a, rg :: HasKey(DrawingOf(r, a), rg) <==> HasKey(DrawingOf(v, a), rg) && (a, rg) !in pairs[1..];
      assert forall a, rg :: HasKey(DrawingOf(v, a), rg) <==> HasKey(DrawingOf(vis, a), rg) && (a, rg) != pairs[0];
      r
  }

  /** The removal phase: every drawing keeps exactly the regions its area
      still has, with their tables; it fails with KeyError when a non-empty
      drawing's area is missing from `areas`. */
  function Prune(areas: Holdings, vis: Dict<Drawing>): (r: Result<Dict<Drawing>>)
    ensures r.Success? <==> forall a :: HasKey(vis, a) && DrawingOf(vis, a) != [] ==> HasKey(areas, a)
    ensures r.Failure? ==> r.error.KeyError?
    ensures r.Success? ==> forall a :: HasKey(r.value, a) <==> HasKey(vis, a)
    ensures r.Success? ==> forall a, rg :: HasKey(DrawingOf(r.value, a), rg) <==>
      HasKey(DrawingOf(vis, a), rg) && HasKey(areas, a) && HasKey(Get(areas, a), rg)
    ensures r.Success? ==> forall a, rg :: HasKey(DrawingOf(r.value, a), rg) ==>
      Get(DrawingOf(r.value, a), rg) == Get(DrawingOf(vis, a), rg)
  {
    var pairs :- Gather(areas, vis, Keys(vis));
    Success(DeleteAll(vis, pairs))
  }

  /** What the removal leaves: the regions each area still has, with their
      tables. */
  ghost predicate Pruned(areas: Holdings, vis: Dict<Drawing>, vis': Dict<Drawing>) {
    && (forall a, rg :: HasKey(DrawingOf(vis', a), rg) <==>
          HasKey(DrawingOf(vis, a), rg) && HasKey(areas, a) && HasKey(Get(areas, a), rg))
    && (forall a, rg :: HasKey(DrawingOf(vis', a), rg) ==> Get(DrawingOf(vis', a), rg) == Get(DrawingOf(vis, a), rg))
  }

  lemma InRegionsHasKey(regions: Dict<Dict<int>>, rg: string, t: string)
    requires InRegions(regions, rg, t)
    ensures HasKey(regions, rg)
  {
    var i :| 0 <= i < |regions| && regions[i].0 == rg && HasKey(regions[i].1, t);
    assert Keys(regions)[i] == rg;
  }

  /** A queued token is drawn by its call, and its region survives the
      removal because the token is still in it. */
  lemma QueuedPlaced(points: map<string, Position>, areas: Holdings, vis0: Dict<Drawing>, allAreas: seq<string>,
                     tp: ToPlace, vis2: Dict<Drawing>, vis3: Dict<Drawing>)
    requires QueuedAfter(points, areas, vis0, allAreas, tp)
    requires forall x :: x in JobsEntries(Jobs(tp)) ==> HasPos(vis2, x.0, x.1, x.2)
    requires Pruned(areas, vis2, vis3)
    ensures forall a, rg, t :: a in allAreas && a !in points && Undrawn(areas, vis0, a, rg, t) ==> HasPos(vis3, a, rg, t)
  {
    JobsCoverQueue(tp);
    forall a, rg, t | a in allAreas && a !in points && Undrawn(areas, vis0, a, rg, t)
      ensures HasPos(vis3, a, rg, t)
    {
      assert (a, rg, t) in JobsEntries(Jobs(tp));
      InRegionsHasKey(Get(areas, a), rg, t);
    }
  }

  /** A token drawn at its point area's point keeps that position: no call
      is for a point area, and its region survives the removal. */
  lemma PinnedKept(points: map<string, Position>, areas: Holdings, vis0: Dict<Drawing>, allAreas: seq<string>,
                   vis1: Dict<Drawing>, tp: ToPlace, vis2: Dict<Drawing>, vis3: Dict<Drawing>)
    requires ScanAfter(points, areas, vis0, allAreas, vis1, tp)
    requires forall a :: a in allAreas ==> Pinnable(points, areas, vis0, a)
    requires AgreeOutside(vis1, vis2, set j | 0 <= j < |Jobs(tp)| :: Jobs(tp)[j].area)
    requires Pruned(areas, vis2, vis3)
    ensures forall a, rg, t :: a in allAreas && a in points && Undrawn(areas, vis0, a, rg, t) ==>
      HasPos(vis3, a, rg, t) && PosAt(vis3, a, rg, t) == points[a]
  {
    JobAreas(points, areas, vis0, allAreas, tp);
    forall a, rg, t | a in allAreas && a in points && Undrawn(areas, vis0, a, rg, t)
      ensures HasPos(vis3, a, rg, t) && PosAt(vis3, a, rg, t) == points[a]
    {
      assert HasKey(DrawingOf(vis0, a), rg);
      assert HasKey(DrawingOf(vis1, a), rg);
      assert DrawingOf(vis2, a) == DrawingOf(vis1, a);
      InRegionsHasKey(Get(areas, a), rg, t);
    }
  }

  /** `process`: the scan, the solver calls and the removal. A listed point
      area with an undrawn token in a region its drawing lacks makes the
      round fail. On success every undrawn token of a listed area is drawn,
      a point area's at the area's point, and no drawing keeps a region its
      area no longer has. */
  method Process(solvers: Solvers, cfg: Config, allAreas: seq<string>, points: map<string, Position>,
                 areas: Holdings, vis0: Dict<Drawing>) returns (r: Result<Dict<Drawing>>)
    ensures !(forall a :: a in allAreas ==> Pinnable(points, areas, vis0, a)) ==> r.Failure?
    ensures r.Success? ==> forall a, rg, t :: a in allAreas && Undrawn(areas, vis0, a, rg, t) ==> HasPos(r.value, a, rg, t)
    ensures r.Success? ==> forall a, rg, t :: a in allAreas && a in points && Undrawn(areas, vis0, a, rg, t) ==>
      PosAt(r.value, a, rg, t) == points[a]
    ensures r.Success? ==> forall a, rg :: HasKey(DrawingOf(r.value, a), rg) ==> HasKey(areas, a) && HasKey(Get(areas, a), rg)
  {
    var scanned :- Scan(allAreas, points, areas, vis0);
    var (vis1, tp) := scanned;
    var jobs := Jobs(tp);
    var vis2 :- PlaceAll(solvers, cfg, vis1, jobs);
    var vis3 :- Prune(areas, vis2);
    assert Pruned(areas, vis2, vis3);
    QueuedPlaced(points, areas, vis0, allAreas, tp, vis2, vis3);
    PinnedKept(points, areas, vis0, allAreas, vis1, tp, vis2, vis3);
    return Success(vis3);
  }

  /** The "already drawn" test compares a token with region names: a token
      drawn in an earlier round is undrawn again, and so placed anew. */
  lemma DrawnTokenRequeued()
    ensures var areas: Holdings := [("a", [("r", [("t", 1)])])];
      var vis: Dict<Drawing> := [("a", [("r", [("t", (1.0, 2.0))])])];
      HasPos(vis, "a", "r", "t") && Undrawn(areas, vis, "a", "r", "t")
  {
    var areas: Holdings := [("a", [("r", [("t", 1)])])];
    var vis: Dict<Drawing> := [("a", [("r", [("t", (1.0, 2.0))])])];
    assert Keys(vis) == ["a"];
    assert Keys(areas) == ["a"];
    assert Keys(Get(vis, "a")) == ["r"];
    assert Keys(Get(Get(vis, "a"), "r")) == ["t"];
    assert Keys(Get(areas, "a")[0].1) == ["t"];
    assert "t" != "r";
  }
}

=== FILE: arrakis_scan.dfy ===
/** The first loop of `process` in arrakis/processor.py: which tokens of
  `areas` have no drawing yet. A token of a point area is drawn at once at
  the area's fixed point; any other is queued in `to_place` for the solver.

  In this variant a drawing is `visual[area][region][token] = (x, y)`, and
  the test "already drawn" compares the token with the keys of
  `visual[area]`, which are region names. The model keeps that comparison.
 */
module ArrakisScan {
  import opened Wrappers
  import opened Dicts

  type Position = (real, real)

  /** `visual[area][region]`: token name to position. */
  type Table = Dict<Position>

  /** `visual[area]`: region name to table. */
  type Drawing = Dict<Table>

  /** `areas`: area name to region name to token name to value. */
  type Holdings = Dict<Dict<Dict<int>>>

  /** `to_place`: area name to region name to the list of queued tokens. */
  type ToPlace = Dict<Dict<seq<string>>>

  /** `visual[a]`, or the `{}` the scan puts there when it is missing. */
  function DrawingOf(vis: Dict<Drawing>, a: string): Drawing {
    if HasKey(vis, a) then Get(vis, a) else []
  }

  /** Some region entry named `rg` holds token `t`. */
  predicate InRegions(regions: Dict<Dict<int>>, rg: string, t: string) {
    exists i :: 0 <= i < |regions| && regions[i].0 == rg && HasKey(regions[i].1, t)
  }

  lemma InRegionsCons(regions: Dict<Dict<int>>, rg: string, t: string)
    requires |regions| > 0
    ensures InRegions(regions, rg, t) <==> (regions[0].0 == rg && HasKey(regions[0].1, t)) || InRegions(regions[1..], rg, t)
  {
    if InRegions(regions, rg, t) && !(regions[0].0 == rg && HasKey(regions[0].1, t)) {
      var i :| 0 <= i < |regions| && regions[i].0 == rg && HasKey(regions[i].1, t);
      assert regions[1..][i - 1] == regions[i];
    }
    if InRegions(regions[1..], rg, t) {
      var i :| 0 <= i < |regions[1..]| && regions[1..][i].0 == rg && HasKey(regions[1..][i].1, t);
      assert regions[i + 1] == regions[1..][i];
    }
  }

  /** Token `t` of region `rg` of area `a` exists and is not a key of the
      area's drawing at the start of the round. */
  predicate Undrawn(areas: Holdings, vis: Dict<Drawing>, a: string, rg: string, t: string) {
    HasKey(areas, a) && InRegions(Get(areas, a), rg, t) && t !in Keys(DrawingOf(vis, a))
  }

  /** The token names of `keys` not in `seen`, in order. */
  function Unseen(seen: seq<string>, keys: seq<string>): (ts: seq<string>)
    ensures forall t :: t in ts <==> t in keys && t !in seen
  {
    if keys == [] then []
    else if keys[0] in seen then Unseen(seen, keys[1..])
    else [keys[0]] + Unseen(seen, keys[1..])
  }

  /** `table[t] = p` for every `t` of `ts`. */
  function Pin(table: Table, ts: seq<string>, p: Position): (r: Table)
    ensures forall t :: HasKey(r, t) <==> HasKey(table, t) || t in ts
    ensures forall t :: HasKey(r, t) ==> Get(r, t) == if t in ts then p else Get(table, t)
    decreases |ts|
  {
    if ts == [] then table else Pin(Put(table, ts[0], p), ts[1..], p)
  }

  /** The point-area branch over one area's regions: every undrawn token is
      drawn at `p` in its region's existing table; a region missing from
      the drawing raises KeyError. The drawing's region keys never change. */
  function PinArea(drawing: Drawing, seen: seq<string>, regions: Dict<Dict<int>>, p: Position): (r: Result<Drawing>)
    ensures r.Failure? ==> r.error.KeyError?
    ensures r.Success? ==> Keys(r.value) == Keys(drawing)
    decreases |regions|
  {
    if regions == [] then Success(drawing)
    else
      var rg0 := regions[0].0;
      var ts := Unseen(seen, Keys(regions[0].1));
      if ts == [] then PinArea(drawing, seen, regions[1..], p)
      else if !HasKey(drawing, rg0) then Failure(KeyError(rg0))
      else PinArea(Put(drawing, rg0, Pin(Get(drawing, rg0), ts, p)), seen, regions[1..], p)
  }

  /** Token `t` of region `rg` is held and is not in `seen`: the tokens `PinArea` draws and `Enqueue` queues. */
  predicate Fresh(seen: seq<string>, regions: Dict<Dict<int>>, rg: string, t: string) {
    InRegions(regions, rg, t) && t !in seen
  }

  lemma FreshCons(seen: seq<string>, regions: Dict<Dict<int>>)
    requires |regions| > 0
    ensures forall rg, t :: Fresh(seen, regions, rg, t) <==>
      (rg == regions[0].0 && t in Unseen(seen, Keys(regions[0].1))) || Fresh(seen, regions[1..], rg, t)
  {
    forall rg, t
      ensures Fresh(seen, regions, rg, t) <==>
        (rg == regions[0].0 && t in Unseen(seen, Keys(regions[0].1))) || Fresh(seen, regions[1..], rg, t)
    {
      InRegionsCons(regions, rg, t);
    }
  }

  /** `PinArea` succeeds exactly when every token to draw has its region in
      the drawing, and then draws exactly those tokens, at `p`. */
  lemma {:induction false} PinAreaSpec(drawing: Drawing, seen: seq<string>, regions: Dict<Dict<int>>, p: Position)
    ensures PinArea(drawing, seen, regions, p).Success? <==>
      forall rg, t :: Fresh(seen, regions, rg, t) ==> HasKey(drawing, rg)
    ensures PinArea(drawing, seen, regions, p).Success? ==> forall rg, t :: HasKey(drawing, rg) ==>
      var d' := PinArea(drawing, seen, regions, p).value;
      (HasKey(Get(d', rg), t) <==> HasKey(Get(drawing, rg), t) || Fresh(seen, regions, rg, t))
    ensures PinArea(drawing, seen, regions, p).Success? ==> forall rg, t :: HasKey(drawing, rg) ==>
      var d' := PinArea(drawing, seen, regions, p).value;
      HasKey(Get(d', rg), t) ==> Get(Get(d', rg), t) == if Fresh(seen, regions, rg, t) then p else Get(Get(drawing, rg), t)
    decreases |regions|
  {
    if regions != [] {
      var rg0 := regions[0].0;
      var ts := Unseen(seen, Keys(regions[0].1));
      FreshCons(seen, regions);
      if ts == [] {
        PinAreaSpec(drawing, seen, regions[1..], p);
      } else if !HasKey(drawing, rg0) {
        assert Fresh(seen, regions, rg0, ts[0]);
      } else {
        var next := Put(drawing, rg0, Pin(Get(drawing, rg0), ts, p));
        assert forall rg :: HasKey(next, rg) <==> HasKey(drawing, rg);
        PinAreaSpec(next, seen, regions[1..], p);
      }
    }
  }

  /** `to_place` is a dict of dicts, and a region's list is created with
      its first token. */
  predicate WellKeyed(tp: ToPlace) {
    && DistinctKeys(tp)
    && (forall i :: 0 <= i < |tp| ==> DistinctKeys(tp[i].1))
    && (forall i, j :: 0 <= i < |tp| && 0 <= j < |tp[i].1| ==> tp[i].1[j].1 != [])
  }

  /** `to_place[a][rg] += ts`, creating the entries on first use. */
  function Append(tp: ToPlace, a: string, rg: string, ts: seq<string>): (r: ToPlace)
    requires ts != []
    ensures forall a', rg', t :: Listed(r, a', rg', t) <==> Listed(tp, a', rg', t) || (a' == a && rg' == rg && t in ts)
    ensures WellKeyed(tp) ==> WellKeyed(r)
  {
    var regions := GetOr(tp, a, []);
    var queue := GetOr(regions, rg, []);
    var r := Put(tp, a, Put(regions, rg, queue + ts));
    assert WellKeyed(tp) ==> DistinctKeys(regions) && forall j :: 0 <= j < |regions| ==> regions[j].1 != [];
    assert forall a', rg', t :: Listed(r, a', rg', t) <==> Listed(tp, a', rg', t) || (a' == a && rg' == rg && t in ts) by {
      forall a', rg', t
        ensures Listed(r, a', rg', t) <==> Listed(tp, a', rg', t) || (a' == a && rg' == rg && t in ts)
      {
        if a' == a && rg' != rg {
          assert HasKey(Get(r, a), rg') <==> HasKey(regions, rg');
        }
      }
    }
    r
  }

  /** Token `t` is queued for region `rg` of area `a`. */
  predicate Listed(tp: ToPlace, a: string, rg: string, t: string) {
    HasKey(tp, a) && HasKey(Get(tp, a), rg) && t in Get(Get(tp, a), rg)
  }

  /** The queueing branch over one area's regions. */
  function Enqueue(tp: ToPlace, a: string, seen: seq<string>, regions: Dict<Dict<int>>): (r: ToPlace)
    ensures forall a', rg, t :: Listed(r, a', rg, t) <==>
      Listed(tp, a', rg, t) || (a' == a && InRegions(regions, rg, t) && t !in seen)
    ensures WellKeyed(tp) ==> WellKeyed(r)
    decreases |regions|
  {
    if regions == [] then tp
    else
      var ts := Unseen(seen, Keys(regions[0].1));
      var tp' := if ts == [] then tp else Append(tp, a, regions[0].0, ts);
      assert forall rg, t :: InRegions(regions, rg, t) <==>
        (rg == regions[0].0 && HasKey(regions[0].1, t)) || InRegions(regions[1..], rg, t) by {
        forall rg, t
          ensures InRegions(regions, rg, t) <==> (rg == regions[0].0 && HasKey(regions[0].1, t)) || InRegions(regions[1..], rg, t)
        {
          InRegionsCons(regions, rg, t);
        }
      }
      Enqueue(tp', a, seen, regions[1..])
  }

  /** Which areas have a drawing once the scan has passed the areas
      `done`: the scan adds `{}` for a present area and never adds or drops
      a region of a drawing. */
  ghost predicate KeysAfter(areas: Holdings, vis0: Dict<Drawing>, done: seq<string>, vis: Dict<Drawing>) {
    && (forall a :: HasKey(vis, a) <==> HasKey(vis0, a) || (a in done && HasKey(areas, a)))
    && (forall a :: Keys(DrawingOf(vis, a)) == Keys(DrawingOf(vis0, a)))
  }

  /** The tables once the scan has passed the areas `done`: exactly the
      undrawn tokens of the point areas passed are added, at the area's
      point. */
  ghost predicate DrawnAfter(points: map<string, Position>, areas: Holdings, vis0: Dict<Drawing>, done: seq<string>,
                             vis: Dict<Drawing>) {
    && (forall a, rg, t :: HasKey(DrawingOf(vis0, a), rg) && HasKey(DrawingOf(vis, a), rg) ==>
          (HasKey(Get(DrawingOf(vis, a), rg), t) <==>
             HasKey(Get(DrawingOf(vis0, a), rg), t) || (a in done && a in points && Undrawn(areas, vis0, a, rg, t))))
    && (forall a, rg, t ::
          HasKey(DrawingOf(vis0, a), rg) && HasKey(DrawingOf(vis, a), rg) && HasKey(Get(DrawingOf(vis, a), rg), t) ==>
          Get(Get(DrawingOf(vis, a), rg), t)
          == if a in done && a in points && Undrawn(areas, vis0, a, rg, t) then points[a] else Get(Get(DrawingOf(vis0, a), rg), t))
  }

  /** The queue once the scan has passed the areas `done`. */
  ghost predicate QueuedAfter(points: map<string, Position>, areas: Holdings, vis0: Dict<Drawing>, done: seq<string>,
                              tp: ToPlace) {
    && WellKeyed(tp)
    && forall a, rg, t :: Listed(tp, a, rg, t) <==> a in done && a !in points && Undrawn(areas, vis0, a, rg, t)
  }

  ghost predicate ScanAfter(points: map<string, Position>, areas: Holdings, vis0: Dict<Drawing>, done: seq<string>,
                            vis: Dict<Drawing>, tp: ToPlace) {
    KeysAfter(areas, vis0, done, vis) && DrawnAfter(points, areas, vis0, done, vis) && QueuedAfter(points, areas, vis0, done, tp)
  }

  /** A point area's undrawn tokens all have their region in the drawing. */
  ghost predicate Pinnable(points: map<string, Position>, areas: Holdings, vis0: Dict<Drawing>, a: string) {
    a in points ==> forall rg, t :: Undrawn(areas, vis0, a, rg, t) ==> HasKey(DrawingOf(vis0, a), rg)
  }

  /** One area of the scan. */
  function ScanArea(points: map<string, Position>, areas: Holdings, a: string, vis: Dict<Drawing>, tp: ToPlace)
    : (r: Result<(Dict<Drawing>, ToPlace)>)
    ensures !HasKey(areas, a) ==> r.Success? && r.value.0 == vis && r.value.1 == tp
    ensures r.Failure? ==> HasKey(areas, a) && a in points && r.error.KeyError?
    ensures r.Success? ==> AgreeOutside(vis, r.value.0, {a})
    ensures r.Success? && HasKey(areas, a) ==> HasKey(r.value.0, a) && Keys(Get(r.value.0, a)) == Keys(DrawingOf(vis, a))
    ensures r.Success? && a in points ==> r.value.1 == tp
    ensures r.Success? && HasKey(areas, a) && a !in points ==> forall a', rg, t :: Listed(r.value.1, a', rg, t) <==>
      Listed(tp, a', rg, t) || (a' == a && InRegions(Get(areas, a), rg, t) && t !in Keys(DrawingOf(vis, a)))
  {
    if !HasKey(areas, a) then Success((vis, tp))
    else
      var drawing := DrawingOf(vis, a);
      var seen := Keys(drawing);
      if a in points then
        var drawing' :- PinArea(drawing, seen, Get(areas, a), points[a]);
        Success((Put(vis, a, drawing'), tp))
      else
        Success((Put(vis, a, drawing), Enqueue(tp, a, seen, Get(areas, a))))
  }

  lemma DrawingOfPut(vis: Dict<Drawing>, a: string, d: Drawing)
    ensures forall a' :: DrawingOf(Put(vis, a, d), a') == if a' == a then d else DrawingOf(vis, a')
  {
  }

  /** Storing a drawing with the same regions keeps `KeysAfter`. */
  lemma KeysStep(areas: Holdings, vis0: Dict<Drawing>, done: seq<string>, a: string, vis: Dict<Drawing>, d: Drawing)
    requires KeysAfter(areas, vis0, done, vis) && HasKey(areas, a)
    requires Keys(d) == Keys(DrawingOf(vis, a))
    ensures KeysAfter(areas, vis0, done + [a], Put(vis, a, d))
  {
    DrawingOfPut(vis, a, d);
  }

  /** With the drawing's region keys unchanged, the tokens the area step
      handles are the area's undrawn tokens. */
  lemma FreshIsUndrawn(areas: Holdings, vis0: Dict<Drawing>, vis: Dict<Drawing>, a: string)
    requires HasKey(areas, a) && Keys(DrawingOf(vis, a)) == Keys(DrawingOf(vis0, a))
    ensures forall rg, t :: Fresh(Keys(DrawingOf(vis, a)), Get(areas, a), rg, t) <==> Undrawn(areas, vis0, a, rg, t)
  {
  }

  /** The point-area branch keeps `DrawnAfter`. */
  lemma PinStep(points: map<string, Position>, areas: Holdings, vis0: Dict<Drawing>, done: seq<string>, a: string,
                vis: Dict<Drawing>)
    requires KeysAfter(areas, vis0, done, vis) && DrawnAfter(points, areas, vis0, done, vis)
    requires HasKey(areas, a) && a in points
    ensures var drawing := DrawingOf(vis, a);
      var r := PinArea(drawing, Keys(drawing), Get(areas, a), points[a]);
      && (r.Success? <==> Pinnable(points, areas, vis0, a))
      && (r.Success? ==> DrawnAfter(points, areas, vis0, done + [a], Put(vis, a, r.value)))
  {
    var drawing := DrawingOf(vis, a);
    var seen := Keys(drawing);
    var regions := Get(areas, a);
    var p := points[a];
    assert seen == Keys(DrawingOf(vis0, a));
    FreshIsUndrawn(areas, vis0, vis, a);
    PinAreaSpec(drawing, seen, regions, p);
    var r := PinArea(drawing, seen, regions, p);
    if r.Success? {
      var vis' := Put(vis, a, r.value);
      DrawingOfPut(vis, a, r.value);
      forall a', rg, t | HasKey(DrawingOf(vis0, a'), rg) && HasKey(DrawingOf(vis', a'), rg)
        ensures HasKey(Get(DrawingOf(vis', a'), rg), t) <==>
          HasKey(Get(DrawingOf(vis0, a'), rg), t) || (a' in done + [a] && a' in points && Undrawn(areas, vis0, a', rg, t))
        ensures HasKey(Get(DrawingOf(vis', a'), rg), t) ==>
          (Get(Get(DrawingOf(vis', a'), rg), t)
           == if a' in done + [a] && a' in points && Undrawn(areas, vis0, a', rg, t) then points[a']
              else Get(Get(DrawingOf(vis0, a'), rg), t))
      {
        if a' == a {
          assert HasKey(drawing, rg);
          assert Fresh(seen, regions, rg, t) <==> Undrawn(areas, vis0, a, rg, t);
        } else {
          assert DrawingOf(vis', a') == DrawingOf(vis, a');
          assert HasKey(DrawingOf(vis, a'), rg);
        }
      }
    }
  }

  /** The queueing branch keeps `DrawnAfter`: the drawing is stored back
      unchanged. */
  lemma QueueDrawnStep(points: map<string, Position>, areas: Holdings, vis0: Dict<Drawing>, done: seq<string>, a: string,
                       vis: Dict<Drawing>)
    requires DrawnAfter(points, areas, vis0, done, vis)
    requires a !in points
    ensures DrawnAfter(points, areas, vis0, done + [a], Put(vis, a, DrawingOf(vis, a)))
  {
    var vis' := Put(vis, a, DrawingOf(vis, a));
    DrawingOfPut(vis, a, DrawingOf(vis, a));
    assert forall a' :: DrawingOf(vis', a') == DrawingOf(vis, a');
    assert forall a' :: a' in done + [a] && a' in points <==> a' in done && a' in points;
  }

  /** The queueing branch keeps `QueuedAfter`: the area's undrawn tokens
      join the queue. */
  lemma QueueListStep(points: map<string, Position>, areas: Holdings, vis0: Dict<Drawing>, done: seq<string>, a: string,
                      vis: Dict<Drawing>, tp: ToPlace)
    requires KeysAfter(areas, vis0, done, vis)
    requires QueuedAfter(points, areas, vis0, done, tp)
    requires HasKey(areas, a) && a !in points
    ensures QueuedAfter(points, areas, vis0, done + [a], Enqueue(tp, a, Keys(DrawingOf(vis, a)), Get(areas, a)))
  {
    assert Keys(DrawingOf(vis, a)) == Keys(DrawingOf(vis0, a));
  }

  /** The queueing branch keeps `DrawnAfter` and `QueuedAfter`. */
  lemma QueueStep(points: map<string, Position>, areas: Holdings, vis0: Dict<Drawing>, done: seq<string>, a: string,
                  vis: Dict<Drawing>, tp: ToPlace)
    requires KeysAfter(areas, vis0, done, vis) && DrawnAfter(points, areas, vis0, done, vis)
    requires QueuedAfter(points, areas, vis0, done, tp)
    requires HasKey(areas, a) && a !in points
    ensures var drawing := DrawingOf(vis, a);
      && DrawnAfter(points, areas, vis0, done + [a], Put(vis, a, drawing))
      && QueuedAfter(points, areas, vis0, done + [a], Enqueue(tp, a, Keys(drawing), Get(areas, a)))
  {
    QueueDrawnStep(points, areas, vis0, done, a, vis);
    QueueListStep(points, areas, vis0, done, a, vis, tp);
  }

  /** An area missing from `areas` is passed over. */
  lemma SkipStep(points: map<string, Position>, areas: Holdings, vis0: Dict<Drawing>, done: seq<string>, a: string,
                 vis: Dict<Drawing>, tp: ToPlace)
    requires ScanAfter(points, areas, vis0, done, vis, tp) && !HasKey(areas, a)
    ensures Pinnable(points, areas, vis0, a)
    ensures ScanAfter(points, areas, vis0, done + [a], vis, tp)
  {
  }

  /** A present point area: `ScanArea` fails exactly when a region is
      missing, and otherwise keeps `ScanAfter`. */
  lemma PointStep(points: map<string, Position>, areas: Holdings, vis0: Dict<Drawing>, done: seq<string>, a: string,
                  vis: Dict<Drawing>, tp: ToPlace)
    requires ScanAfter(points, areas, vis0, done, vis, tp) && HasKey(areas, a) && a in points
    ensures ScanArea(points, areas, a, vis, tp).Success? <==> Pinnable(points, areas, vis0, a)
    ensures ScanArea(points, areas, a, vis, tp).Success? ==>
      var (vis', tp') := ScanArea(points, areas, a, vis, tp).value;
      ScanAfter(points, areas, vis0, done + [a], vis', tp')
  {
    var drawing := DrawingOf(vis, a);
    PinStep(points, areas, vis0, done, a, vis);
    var r := PinArea(drawing, Keys(drawing), Get(areas, a), points[a]);
    if r.Success? {
      KeysStep(areas, vis0, done, a, vis, r.value);
      assert QueuedAfter(points, areas, vis0, done + [a], tp);
    }
  }

  /** `ScanArea` fails exactly for a point area with an undrawn token whose
      region is missing, and keeps `ScanAfter`. */
  lemma ScanStep(points: map<string, Position>, areas: Holdings, vis0: Dict<Drawing>, done: seq<string>, a: string,
                 vis: Dict<Drawing>, tp: ToPlace)
    requires ScanAfter(points, areas, vis0, done, vis, tp)
    ensures ScanArea(points, areas, a, vis, tp).Success? <==> Pinnable(points, areas, vis0, a)
    ensures ScanArea(points, areas, a, vis, tp).Failure? ==> ScanArea(points, areas, a, vis, tp).error.KeyError?
    ensures ScanArea(points, areas, a, vis, tp).Success? ==>
      var (vis', tp') := ScanArea(points, areas, a, vis, tp).value;
      ScanAfter(points, areas, vis0, done + [a], vis', tp')
  {
    if !HasKey(areas, a) {
      SkipStep(points, areas, vis0, done, a, vis, tp);
    } else if a in points {
      PointStep(points, areas, vis0, done, a, vis, tp);
    } else {
      QueueStep(points, areas, vis0, done, a, vis, tp);
      KeysStep(areas, vis0, done, a, vis, DrawingOf(vis, a));
    }
  }

  /** The scan loop over `all_areas`. It fails with KeyError exactly when a
      listed point area has an undrawn token in a region its drawing lacks.
      Otherwise every listed area present in `areas` has a drawing, no
      drawing gains or loses a region, the undrawn tokens of point areas
      are drawn at the area's point, nothing else is drawn or moved, and the
      queue holds exactly the undrawn tokens of the other listed areas. */
  method Scan(allAreas: seq<string>, points: map<string, Position>, areas: Holdings, vis0: Dict<Drawing>)
    returns (r: Result<(Dict<Drawing>, ToPlace)>)
    ensures r.Success? <==> forall a :: a in allAreas ==> Pinnable(points, areas, vis0, a)
    ensures r.Failure? ==> r.error.KeyError?
    ensures r.Success? ==> ScanAfter(points, areas, vis0, allAreas, r.value.0, r.value.1)
  {
    var vis, tp := vis0, [];
    var i := 0;
    while i < |allAreas|
      invariant 0 <= i <= |allAreas|
      invariant forall a :: a in allAreas[..i] ==> Pinnable(points, areas, vis0, a)
      invariant ScanAfter(points, areas, vis0, allAreas[..i], vis, tp)
    {
      var a := allAreas[i];
      assert allAreas[..i + 1] == allAreas[..i] + [a];
      ScanStep(points, areas, vis0, allAreas[..i], a, vis, tp);
      var next :- ScanArea(points, areas, a, vis, tp);
      vis, tp := next.0, next.1;
      i := i + 1;
    }
    assert allAreas[..i] == allAreas;
    return Success((vis, tp));
  }
}

=== FILE: decorations.dfy ===
/** The middle of `RenderingProcessor.process` in truthsayer/processor.py:
  the drawings that do not need the solver. The storm marker, the faction
  symbols on player seats and the two battle wheels each set fixed keys of
  `visual` from the game state; nothing else in `visual` changes.
 */
module Decorations {
  import opened Wrappers
  import opened Dicts
  import opened Geometry
  import opened Processor

  const WheelValues: seq<string> := ["wheel_attacker_value", "wheel_defender_value"]
  const WheelLeaders: seq<string> := ["wheel_attacker_leader", "wheel_defender_leader"]
  const WheelPlayers: seq<string> := ["wheel_attacker_player", "wheel_defender_player"]

  /** The storm marker, drawn when `areas` holds a storm position. The
      position must be a number. */
  function DrawStorm(m: Maths, cfg: Config, areas: Dict<AreaValue>, vis: Dict<VisualValue>): (r: Result<Dict<VisualValue>>)
    ensures !HasKey(areas, "storm") ==> r == Success(vis)
    ensures HasKey(areas, "storm") ==> (r.Success? <==> Get(areas, "storm").Number? && "storm" in cfg.files)
    ensures r.Success? && HasKey(areas, "storm") ==>
      HasKey(r.value, "storm")
      && Get(r.value, "storm") == StormMark(StormPosition(m, cfg, Get(areas, "storm").number).value)
    ensures r.Success? ==> AgreeOutside(vis, r.value, {"storm"})
  {
    if !HasKey(areas, "storm") then Success(vis)
    else
      match Get(areas, "storm")
      case Number(position) =>
        var marker :- StormPosition(m, cfg, position);
        Success(Put(vis, "storm", StormMark(marker)))
      case _ => Failure(TypeError("storm position is not a number"))
  }

  /** The file of a faction's symbol: two configuration lookups. */
  function FactionFile(cfg: Config, faction: string): (r: Result<string>)
    ensures r.Success? <==> faction in cfg.factionSymbols && cfg.factionSymbols[faction] in cfg.files
    ensures r.Success? ==> r.value == cfg.files[cfg.factionSymbols[faction]]
    ensures r.Failure? ==> r.error.KeyError?
  {
    var symbol :- Lookup(cfg.factionSymbols, faction);
    Lookup(cfg.files, symbol)
  }

  /** The faction loop after `i` seats: each shows its symbol file and
      nothing else has changed. */
  ghost predicate FilesDrawn(cfg: Config, factions: Dict<string>, vis: Dict<VisualValue>, v: Dict<VisualValue>, i: nat)
    requires i <= |factions|
  {
    && (forall j :: 0 <= j < i ==> FactionFile(cfg, factions[j].1).Success?)
    && (forall j :: 0 <= j < i ==>
          HasKey(v, factions[j].0) && Get(v, factions[j].0) == File(FactionFile(cfg, factions[j].1).value))
    && AgreeOutside(vis, v, set j | 0 <= j < i :: factions[j].0)
  }

  lemma FileStep(cfg: Config, factions: Dict<string>, vis: Dict<VisualValue>, v: Dict<VisualValue>, i: nat)
    requires DistinctKeys(factions)
    requires i < |factions| && FactionFile(cfg, factions[i].1).Success?
    requires FilesDrawn(cfg, factions, vis, v, i)
    ensures FilesDrawn(cfg, factions, vis, Put(v, factions[i].0, File(FactionFile(cfg, factions[i].1).value)), i + 1)
  {
    var p := factions[i].0;
    var v' := Put(v, p, File(FactionFile(cfg, factions[i].1).value));
    forall j | 0 <= j < i + 1
      ensures HasKey(v', factions[j].0) && Get(v', factions[j].0) == File(FactionFile(cfg, factions[j].1).value)
    {
      if j < i {
        assert factions[j].0 != p;
      }
    }
    assert AgreeOutside(vis, v', set j | 0 <= j < i + 1 :: factions[j].0) by {
      AgreeOutsideChain(vis, v, v', set j | 0 <= j < i :: factions[j].0, {p}, set j | 0 <= j < i + 1 :: factions[j].0);
    }
  }

  /** Every faction's player seat shows its symbol file. */
  method DrawFactions(cfg: Config, factions: Dict<string>, vis: Dict<VisualValue>) returns (r: Result<Dict<VisualValue>>)
    requires DistinctKeys(factions)
    ensures r.Success? <==> forall i :: 0 <= i < |factions| ==> FactionFile(cfg, factions[i].1).Success?
    ensures r.Failure? ==> r.error.KeyError?
    ensures r.Success? ==> forall a :: HasKey(factions, a) ==>
      HasKey(r.value, a) && Get(r.value, a) == File(FactionFile(cfg, Get(factions, a)).value)
    ensures r.Success? ==> AgreeOutside(vis, r.value, set i | 0 <= i < |factions| :: factions[i].0)
  {
    var v := vis;
    var i := 0;
    while i < |factions|
      invariant 0 <= i <= |factions|
      invariant FilesDrawn(cfg, factions, vis, v, i)
    {
      var file := FactionFile(cfg, factions[i].1);
      if file.Failure? {
        return Failure(file.error);
      }
      FileStep(cfg, factions, vis, v, i);
      v := Put(v, factions[i].0, File(file.value));
      i := i + 1;
    }
    forall a | HasKey(factions, a)
      ensures HasKey(v, a) && Get(v, a) == File(FactionFile(cfg, Get(factions, a)).value)
    {
      var k := IndexOf(factions, a);
    }
    return Success(v);
  }

  /** A battle wheel's value becomes its dial angle; the value must be a
      number. */
  function DrawWheelValue(areas: Dict<AreaValue>, vis: Dict<VisualValue>, wheel: string): (r: Result<Dict<VisualValue>>)
    ensures !HasKey(areas, wheel) ==> r == Success(vis)
    ensures HasKey(areas, wheel) ==> (r.Success? <==> Get(areas, wheel).Number?)
    ensures r.Success? && HasKey(areas, wheel) ==>
      HasKey(r.value, wheel) && Get(r.value, wheel) == WheelAngle(Wheel(Get(areas, wheel).number))
    ensures r.Success? ==> AgreeOutside(vis, r.value, {wheel})
  {
    if !HasKey(areas, wheel) then Success(vis)
    else
      match Get(areas, wheel)
      case Number(value) => Success(Put(vis, wheel, WheelAngle(Wheel(value))))
      case _ => Failure(TypeError("wheel value is not a number"))
  }

  /** A battle wheel's leader is drawn from the leader's file. A leader
      that is not a file name misses in `files` (KeyError); a dict value
      cannot be a key at all (TypeError). */
  function DrawWheelLeader(cfg: Config, areas: Dict<AreaValue>, vis: Dict<VisualValue>, wheel: string)
    : (r: Result<Dict<VisualValue>>)
    ensures !HasKey(areas, wheel) ==> r == Success(vis)
    ensures HasKey(areas, wheel) ==> (r.Success? <==> Get(areas, wheel).Name? && Get(areas, wheel).name in cfg.files)
    ensures r.Failure? ==> (r.error.TypeError? <==> Get(areas, wheel).Regions?)
    ensures r.Failure? ==> r.error.KeyError? || r.error.TypeError?
    ensures r.Success? && HasKey(areas, wheel) ==>
      HasKey(r.value, wheel) && Get(r.value, wheel) == File(cfg.files[Get(areas, wheel).name])
    ensures r.Success? ==> AgreeOutside(vis, r.value, {wheel})
  {
    if !HasKey(areas, wheel) then Success(vis)
    else
      match Get(areas, wheel)
      case Name(leader) =>
        var file :- Lookup(cfg.files, leader);
        Success(Put(vis, wheel, File(file)))
      case Number(_) => Failure(KeyError("a number"))
      case Regions(_) => Failure(TypeError("unhashable type: 'dict'"))
  }

  /** The faction name and the user name of a wheel's player, through
      `meta['factions']`, the configured faction names and `meta['usernames']`. */
  function PlayerLabels(cfg: Config, st: GameState, player: string): (r: Result<(string, string)>)
    ensures r.Success? <==>
      HasKey(st.factions, player) && Get(st.factions, player) in cfg.factionNames && player in st.usernames
    ensures r.Success? ==> r.value == (cfg.factionNames[Get(st.factions, player)], st.usernames[player])
    ensures r.Failure? ==> r.error.KeyError?
  {
    var faction :- Find(st.factions, player);
    var factionName :- Lookup(cfg.factionNames, faction);
    var playerName :- Lookup(st.usernames, player);
    Success((factionName, playerName))
  }

  lemma LabelKeysDiffer(wheel: string)
    ensures wheel + "_faction" != wheel + "_name"
  {
    assert (wheel + "_faction")[|wheel| + 1] != (wheel + "_name")[|wheel| + 1];
  }

  /** `visual[<wheel>_faction]` and `visual[<wheel>_name]` set to the labels. */
  function PutLabels(vis: Dict<VisualValue>, wheel: string, labels: (string, string)): (r: Dict<VisualValue>)
    ensures HasKey(r, wheel + "_name") && Get(r, wheel + "_name") == Label(labels.1)
    ensures HasKey(r, wheel + "_faction") && Get(r, wheel + "_faction") == Label(labels.0)
    ensures AgreeOutside(vis, r, {wheel + "_faction", wheel + "_name"})
  {
    var faction, name := wheel + "_faction", wheel + "_name";
    LabelKeysDiffer(wheel);
    var v1 := Put(vis, faction, Label(labels.0));
    var v2 := Put(v1, name, Label(labels.1));
    AgreeOutsideChain(vis, v1, v2, {faction}, {name}, {faction, name});
    v2
  }

  /** A battle wheel's player gets two labels, `<wheel>_faction` and
      `<wheel>_name`, and both are remembered as belonging to the wheel. A
      player that is not a name misses in `meta['factions']` (KeyError); a
      dict value cannot be a key at all (TypeError). */
  function DrawWheelPlayer(cfg: Config, st: GameState, vis: Dict<VisualValue>, refs: map<string, string>, wheel: string)
    : (r: Result<(Dict<VisualValue>, map<string, string>)>)
    ensures !HasKey(st.areas, wheel) ==> r == Success((vis, refs))
    ensures HasKey(st.areas, wheel) ==>
      (r.Success? <==> Get(st.areas, wheel).Name? && PlayerLabels(cfg, st, Get(st.areas, wheel).name).Success?)
    ensures r.Success? && HasKey(st.areas, wheel) ==>
      var labels := PlayerLabels(cfg, st, Get(st.areas, wheel).name).value;
      && HasKey(r.value.0, wheel + "_name") && Get(r.value.0, wheel + "_name") == Label(labels.1)
      && HasKey(r.value.0, wheel + "_faction") && Get(r.value.0, wheel + "_faction") == Label(labels.0)
    ensures r.Failure? ==> (r.error.TypeError? <==> Get(st.areas, wheel).Regions?)
    ensures r.Failure? ==> r.error.KeyError? || r.error.TypeError?
    ensures r.Success? ==> r.value.1 == RefsFor(st.areas, wheel, refs)
    ensures r.Success? ==> AgreeOutside(vis, r.value.0, {wheel + "_faction", wheel + "_name"})
  {
    if !HasKey(st.areas, wheel) then Success((vis, refs))
    else
      match Get(st.areas, wheel)
      case Name(player) =>
        var labels :- PlayerLabels(cfg, st, player);
        Success((PutLabels(vis, wheel, labels), refs[wheel + "_faction" := wheel][wheel + "_name" := wheel]))
      case Number(_) => Failure(KeyError("a number"))
      case Regions(_) => Failure(TypeError("unhashable type: 'dict'"))
  }

  /** The keys of `<wheel>_faction` and `<wheel>_name` for a wheel whose
      player is in `areas`. */
  predicate LabelKey(areas: Dict<AreaValue>, wheel: string, k: string) {
    HasKey(areas, wheel) && (k == wheel + "_faction" || k == wheel + "_name")
  }

  /** `visual[k]` holds `d`. */
  ghost predicate Shows(v: Dict<VisualValue>, k: string, d: VisualValue) {
    HasKey(v, k) && Get(v, k) == d
  }

  /** A wheel value, when present, is a number. */
  predicate ValueOk(areas: Dict<AreaValue>, wheel: string) {
    HasKey(areas, wheel) ==> Get(areas, wheel).Number?
  }

  /** A wheel leader, when present, names a configured file. */
  predicate LeaderOk(cfg: Config, areas: Dict<AreaValue>, wheel: string) {
    HasKey(areas, wheel) ==> Get(areas, wheel).Name? && Get(areas, wheel).name in cfg.files
  }

  /** A wheel player, when present, is a name whose labels can be looked up. */
  predicate PlayerOk(cfg: Config, st: GameState, wheel: string) {
    HasKey(st.areas, wheel) ==> Get(st.areas, wheel).Name? && PlayerLabels(cfg, st, Get(st.areas, wheel).name).Success?
  }

  /** A numeric wheel value is shown as its dial angle. */
  ghost predicate ValueShown(areas: Dict<AreaValue>, v: Dict<VisualValue>, wheel: string) {
    HasKey(areas, wheel) && Get(areas, wheel).Number? ==>
      Shows(v, wheel, WheelAngle(Wheel(Get(areas, wheel).number)))
  }

  /** A wheel leader with a file is shown as that file. */
  ghost predicate LeaderShown(cfg: Config, areas: Dict<AreaValue>, v: Dict<VisualValue>, wheel: string) {
    HasKey(areas, wheel) && Get(areas, wheel).Name? && Get(areas, wheel).name in cfg.files ==>
      Shows(v, wheel, File(cfg.files[Get(areas, wheel).name]))
  }

  /** A wheel player with labels is shown as its faction name and user name. */
  ghost predicate PlayerShown(cfg: Config, st: GameState, v: Dict<VisualValue>, wheel: string) {
    HasKey(st.areas, wheel) && Get(st.areas, wheel).Name? && PlayerLabels(cfg, st, Get(st.areas, wheel).name).Success? ==>
      var labels := PlayerLabels(cfg, st, Get(st.areas, wheel).name).value;
      Shows(v, wheel + "_faction", Label(labels.0)) && Shows(v, wheel + "_name", Label(labels.1))
  }

  predicate WheelsOk(cfg: Config, areas: Dict<AreaValue>) {
    ValueOk(areas, WheelValues[0]) && ValueOk(areas, WheelValues[1])
    && LeaderOk(cfg, areas, WheelLeaders[0]) && LeaderOk(cfg, areas, WheelLeaders[1])
  }

  ghost predicate WheelsShown(cfg: Config, areas: Dict<AreaValue>, v: Dict<VisualValue>) {
    ValueShown(areas, v, WheelValues[0]) && ValueShown(areas, v, WheelValues[1])
    && LeaderShown(cfg, areas, v, WheelLeaders[0]) && LeaderShown(cfg, areas, v, WheelLeaders[1])
  }

  predicate PlayersOk(cfg: Config, st: GameState) {
    PlayerOk(cfg, st, WheelPlayers[0]) && PlayerOk(cfg, st, WheelPlayers[1])
  }

  ghost predicate PlayersShown(cfg: Config, st: GameState, v: Dict<VisualValue>) {
    PlayerShown(cfg, st, v, WheelPlayers[0]) && PlayerShown(cfg, st, v, WheelPlayers[1])
  }

  /** The keys the storm, the wheels and the labels write are pairwise
      distinct: they differ in length or at the wheel's seventh character. */
  lemma FixedKeysDistinct()
    ensures "storm" !in WheelKeys && "storm" !in PlayerLabelKeys
    ensures forall k :: k in WheelKeys ==> k !in PlayerLabelKeys
    ensures WheelValues[0] != WheelValues[1] && WheelLeaders[0] != WheelLeaders[1]
    ensures forall i, j :: 0 <= i < 2 && 0 <= j < 2 ==> WheelValues[i] != WheelLeaders[j]
  {
    assert WheelValues[0][6] != WheelValues[1][6];
    assert WheelLeaders[0][6] != WheelLeaders[1][6];
    PlayerLabelKeysDistinct();
  }

  /** The dials and leaders of both battle wheels: the values first, then
      the leaders, the first bad one raising. */
  function DrawWheels(cfg: Config, areas: Dict<AreaValue>, vis: Dict<VisualValue>): (r: Result<Dict<VisualValue>>)
    ensures r.Success? <==> WheelsOk(cfg, areas)
    ensures r.Success? ==> WheelsShown(cfg, areas, r.value)
    ensures r.Success? ==> AgreeOutside(vis, r.value, WheelKeys)
  {
    FixedKeysDistinct();
    var v1 :- DrawWheelValue(areas, vis, WheelValues[0]);
    var v2 :- DrawWheelValue(areas, v1, WheelValues[1]);
    var v3 :- DrawWheelLeader(cfg, areas, v2, WheelLeaders[0]);
    var v4 :- DrawWheelLeader(cfg, areas, v3, WheelLeaders[1]);
    AgreeOutsideChain(vis, v1, v2, {WheelValues[0]}, {WheelValues[1]}, WheelKeys);
    AgreeOutsideChain(vis, v2, v3, WheelKeys, {WheelLeaders[0]}, WheelKeys);
    AgreeOutsideChain(vis, v3, v4, WheelKeys, {WheelLeaders[1]}, WheelKeys);
    Success(v4)
  }

  /** `wheel_players_refs` after the loop has passed `wheel`. */
  function RefsFor(areas: Dict<AreaValue>, wheel: string, refs: map<string, string>): map<string, string> {
    if HasKey(areas, wheel) then refs[wheel + "_faction" := wheel][wheel + "_name" := wheel] else refs
  }

  /** `wheel_players_refs` after both wheels. */
  function Refs(areas: Dict<AreaValue>): map<string, string> {
    RefsFor(areas, WheelPlayers[1], RefsFor(areas, WheelPlayers[0], map[]))
  }

  /** The four label keys are distinct: the wheels differ at their seventh
      character and the suffixes at their second. */
  lemma PlayerLabelKeysDistinct()
    ensures WheelPlayers[0] + "_faction" != WheelPlayers[1] + "_faction"
    ensures WheelPlayers[0] + "_faction" != WheelPlayers[1] + "_name"
    ensures WheelPlayers[0] + "_name" != WheelPlayers[1] + "_faction"
    ensures WheelPlayers[0] + "_name" != WheelPlayers[1] + "_name"
  {
    var a, d := WheelPlayers[0], WheelPlayers[1];
    assert (a + "_faction")[6] != (d + "_faction")[6];
    assert (a + "_faction")[6] != (d + "_name")[6];
    assert (a + "_name")[6] != (d + "_faction")[6];
    assert (a + "_name")[6] != (d + "_name")[6];
  }

  /** The references hold exactly the labels of the wheels whose player is
      in `areas`, each pointing at its own wheel. */
  lemma RefsExact(areas: Dict<AreaValue>)
    ensures forall k :: k in Refs(areas) <==> LabelKey(areas, WheelPlayers[0], k) || LabelKey(areas, WheelPlayers[1], k)
    ensures forall k :: k in Refs(areas) ==> Refs(areas)[k] in WheelPlayers && LabelKey(areas, Refs(areas)[k], k)
  {
    PlayerLabelKeysDistinct();
  }

  /** The player labels of both battle wheels, with the references of `Refs`. */
  function DrawPlayers(cfg: Config, st: GameState, vis: Dict<VisualValue>): (r: Result<(Dict<VisualValue>, map<string, string>)>)
    ensures r.Success? <==> PlayersOk(cfg, st)
    ensures r.Success? ==> PlayersShown(cfg, st, r.value.0)
    ensures r.Success? ==> r.value.1 == Refs(st.areas)
    ensures r.Success? ==> AgreeOutside(vis, r.value.0, PlayerLabelKeys)
  {
    PlayerLabelKeysDistinct();
    var s1 :- DrawWheelPlayer(cfg, st, vis, map[], WheelPlayers[0]);
    var s2 :- DrawWheelPlayer(cfg, st, s1.0, s1.1, WheelPlayers[1]);
    AgreeOutsideChain(vis, s1.0, s2.0, {WheelPlayers[0] + "_faction", WheelPlayers[0] + "_name"},
                      {WheelPlayers[1] + "_faction", WheelPlayers[1] + "_name"}, PlayerLabelKeys);
    Success(s2)
  }

  const WheelKeys: set<string> := {"wheel_attacker_value", "wheel_defender_value",
                                   "wheel_attacker_leader", "wheel_defender_leader"}

  /** `wheel_attacker_player_faction` and the three other label keys. */
  const PlayerLabelKeys: set<string> := {WheelPlayers[0] + "_faction", WheelPlayers[0] + "_name",
                                         WheelPlayers[1] + "_faction", WheelPlayers[1] + "_name"}

  /** Every key the decorations may set. */
  function DecoratedKeys(st: GameState): set<string> {
    {"storm"} + (set i | 0 <= i < |st.factions| :: st.factions[i].0) + (WheelKeys)
    + PlayerLabelKeys
  }

  /** The storm position, when present, is a number and the storm file is configured. */
  predicate StormOk(cfg: Config, areas: Dict<AreaValue>) {
    HasKey(areas, "storm") ==> Get(areas, "storm").Number? && "storm" in cfg.files
  }

  /** The storm, the faction symbols and the two wheels, in the source's
      order, with the label references of `Refs`. The round fails exactly
      when one part does. What each part draws is still there at the end
      unless a later part writes the same key: only a seat can share a key
      with another part. */
  method Decorate(m: Maths, cfg: Config, st: GameState, vis: Dict<VisualValue>)
    returns (r: Result<(Dict<VisualValue>, map<string, string>)>)
    requires DistinctKeys(st.factions)
    ensures r.Success? <==>
      && StormOk(cfg, st.areas)
      && (forall i :: 0 <= i < |st.factions| ==> FactionFile(cfg, st.factions[i].1).Success?)
      && WheelsOk(cfg, st.areas)
      && PlayersOk(cfg, st)
    ensures r.Success? && HasKey(st.areas, "storm") && !HasKey(st.factions, "storm") ==>
      Shows(r.value.0, "storm", StormMark(StormPosition(m, cfg, Get(st.areas, "storm").number).value))
    ensures r.Success? ==> forall a :: HasKey(st.factions, a) && a !in WheelKeys && a !in PlayerLabelKeys ==>
      Shows(r.value.0, a, File(FactionFile(cfg, Get(st.factions, a)).value))
    ensures r.Success? ==> WheelsShown(cfg, st.areas, r.value.0)
    ensures r.Success? ==> PlayersShown(cfg, st, r.value.0)
    ensures r.Success? ==> r.value.1 == Refs(st.areas)
    ensures r.Success? ==> AgreeOutside(vis, r.value.0, DecoratedKeys(st))
  {
    var v1 :- DrawStorm(m, cfg, st.areas, vis);
    var v2 :- DrawFactions(cfg, st.factions, v1);
    var v3 :- DrawWheels(cfg, st.areas, v2);
    var players :- DrawPlayers(cfg, st, v3);
    var v4 := players.0;
    StormKept(m, cfg, st, v1, v2, v3, v4);
    SeatsKept(cfg, st.factions, v2, v3, v4);
    WheelsKept(cfg, st.areas, v3, v4);
    DecorateFrame(st, vis, v1, v2, v3, v4);
    return Success(players);
  }

  /** The storm marker survives the later parts unless a seat is called "storm". */
  lemma StormKept(m: Maths, cfg: Config, st: GameState, v1: Dict<VisualValue>, v2: Dict<VisualValue>,
                  v3: Dict<VisualValue>, v4: Dict<VisualValue>)
    requires HasKey(st.areas, "storm") && Get(st.areas, "storm").Number? ==>
      StormPosition(m, cfg, Get(st.areas, "storm").number).Success?
      && Shows(v1, "storm", StormMark(StormPosition(m, cfg, Get(st.areas, "storm").number).value))
    requires AgreeOutside(v1, v2, set i | 0 <= i < |st.factions| :: st.factions[i].0)
    requires AgreeOutside(v2, v3, WheelKeys) && AgreeOutside(v3, v4, PlayerLabelKeys)
    ensures HasKey(st.areas, "storm") && Get(st.areas, "storm").Number? && !HasKey(st.factions, "storm") ==>
      Shows(v4, "storm", StormMark(StormPosition(m, cfg, Get(st.areas, "storm").number).value))
  {
    if HasKey(st.areas, "storm") && Get(st.areas, "storm").Number? && !HasKey(st.factions, "storm") {
      var marker := StormMark(StormPosition(m, cfg, Get(st.areas, "storm").number).value);
      FixedKeysDistinct();
      ShowsKept(v1, v2, set i | 0 <= i < |st.factions| :: st.factions[i].0, "storm", marker);
      ShowsKept(v2, v3, WheelKeys, "storm", marker);
      ShowsKept(v3, v4, PlayerLabelKeys, "storm", marker);
    }
  }

  /** A seat's symbol survives the wheels and labels unless it shares their key. */
  lemma SeatsKept(cfg: Config, factions: Dict<string>, v2: Dict<VisualValue>, v3: Dict<VisualValue>, v4: Dict<VisualValue>)
    requires forall a :: HasKey(factions, a) ==>
      (FactionFile(cfg, Get(factions, a)).Success? && Shows(v2, a, File(FactionFile(cfg, Get(factions, a)).value)))
    requires AgreeOutside(v2, v3, WheelKeys) && AgreeOutside(v3, v4, PlayerLabelKeys)
    ensures forall a :: HasKey(factions, a) && a !in WheelKeys && a !in PlayerLabelKeys ==>
      Shows(v4, a, File(FactionFile(cfg, Get(factions, a)).value))
  {
    forall a | HasKey(factions, a) && a !in WheelKeys && a !in PlayerLabelKeys
      ensures Shows(v4, a, File(FactionFile(cfg, Get(factions, a)).value))
    {
      var file := File(FactionFile(cfg, Get(factions, a)).value);
      ShowsKept(v2, v3, WheelKeys, a, file);
      ShowsKept(v3, v4, PlayerLabelKeys, a, file);
    }
  }

  /** The parts together change only the decorated keys. */
  lemma DecorateFrame(st: GameState, vis: Dict<VisualValue>, v1: Dict<VisualValue>, v2: Dict<VisualValue>,
                      v3: Dict<VisualValue>, v4: Dict<VisualValue>)
    requires AgreeOutside(vis, v1, {"storm"})
    requires AgreeOutside(v1, v2, set i | 0 <= i < |st.factions| :: st.factions[i].0)
    requires AgreeOutside(v2, v3, WheelKeys) && AgreeOutside(v3, v4, PlayerLabelKeys)
    ensures AgreeOutside(vis, v4, DecoratedKeys(st))
  {
    var keys := DecoratedKeys(st);
    AgreeOutsideChain(vis, v1, v2, {"storm"}, set i | 0 <= i < |st.factions| :: st.factions[i].0, keys);
    AgreeOutsideChain(vis, v2, v3, keys, WheelKeys, keys);
    AgreeOutsideChain(vis, v3, v4, keys, PlayerLabelKeys, keys);
  }

  /** A drawing outside the keys a step may write survives the step. */
  lemma ShowsKept(v: Dict<VisualValue>, v': Dict<VisualValue>, written: set<string>, k: string, d: VisualValue)
    requires AgreeOutside(v, v', written) && k !in written
    requires Shows(v, k, d)
    ensures Shows(v', k, d)
  {
  }

  /** Drawing the labels leaves the dials and leaders alone. */
  lemma WheelsKept(cfg: Config, areas: Dict<AreaValue>, v: Dict<VisualValue>, v': Dict<VisualValue>)
    requires AgreeOutside(v, v', PlayerLabelKeys)
    requires WheelsShown(cfg, areas, v)
    ensures WheelsShown(cfg, areas, v')
  {
    FixedKeysDistinct();
  }
}

=== FILE: dicts.dfy ===
/** Insertion-ordered string-keyed dictionaries, as Python's `dict`.

  A dictionary is an association list. Lookup finds the first entry with the
  key; `Put` overwrites that entry in place, or appends a new entry at the
  end, exactly as assignment `d[k] = v` keeps a Python dict's iteration
  order. Every dictionary the model builds through `Put` has distinct keys.
 */
module Dicts {
  import opened Wrappers

  type Dict<V> = seq<(string, V)>

  /** The keys in iteration order, `list(d.keys())`. */
  function Keys<V>(d: Dict<V>): (r: seq<string>)
    ensures |r| == |d|
    ensures forall i :: 0 <= i < |d| ==> r[i] == d[i].0
  {
    seq(|d|, i requires 0 <= i < |d| => d[i].0)
  }

  /** The values in iteration order, `list(d.values())`. */
  function Values<V>(d: Dict<V>): (r: seq<V>)
    ensures |r| == |d|
    ensures forall i :: 0 <= i < |d| ==> r[i] == d[i].1
  {
    seq(|d|, i requires 0 <= i < |d| => d[i].1)
  }

  predicate HasKey<V>(d: Dict<V>, k: string) {
    k in Keys(d)
  }

  predicate DistinctKeys<V>(d: Dict<V>) {
    forall i, j :: 0 <= i < j < |d| ==> d[i].0 != d[j].0
  }

  /** Position of the first entry with key `k`. */
  function IndexOf<V>(d: Dict<V>, k: string): (i: nat)
    requires HasKey(d, k)
    ensures i < |d| && d[i].0 == k
    ensures forall j :: 0 <= j < i ==> d[j].0 != k
  {
    if d[0].0 == k then 0 else IndexOf(d[1..], k) + 1
  }

  /** `d[k]`, for a key that is present. */
  function Get<V>(d: Dict<V>, k: string): V
    requires HasKey(d, k)
  {
    d[IndexOf(d, k)].1
  }

  /** `d.get(k, default)`. */
  function GetOr<V>(d: Dict<V>, k: string, default: V): V {
    if HasKey(d, k) then Get(d, k) else default
  }

  /** `d[k]`, raising KeyError for a missing key. */
  function Find<V>(d: Dict<V>, k: string): (r: Result<V>)
    ensures r.Success? <==> HasKey(d, k)
    ensures r.Success? ==> r.value == Get(d, k)
  {
    if HasKey(d, k) then Success(Get(d, k)) else Failure(KeyError(k))
  }

  /** The first position holding `k` is unique, whatever else the entries hold. */
  lemma FirstIndexUnique<V>(d: Dict<V>, k: string, i: nat)
    requires i < |d| && d[i].0 == k
    requires forall j :: 0 <= j < i ==> d[j].0 != k
    ensures HasKey(d, k) && IndexOf(d, k) == i
  {
    assert Keys(d)[i] == k;
  }

  /** Lookup in a non-empty dictionary: the head entry, or the rest. */
  lemma HasKeyCons<V>(d: Dict<V>, k: string)
    requires |d| > 0
    ensures HasKey(d, k) <==> d[0].0 == k || HasKey(d[1..], k)
    ensures d[0].0 == k ==> Get(d, k) == d[0].1
    ensures d[0].0 != k && HasKey(d, k) ==> Get(d, k) == Get(d[1..], k)
  {
    assert forall i :: 0 <= i < |d[1..]| ==> Keys(d[1..])[i] == Keys(d)[i + 1];
    assert Keys(d) == [d[0].0] + Keys(d[1..]);
  }

  /** With distinct keys the head's key is not in the rest. */
  lemma DistinctCons<V>(d: Dict<V>)
    requires |d| > 0 && DistinctKeys(d)
    ensures DistinctKeys(d[1..]) && !HasKey(d[1..], d[0].0)
  {
    assert forall i :: 0 <= i < |d| - 1 ==> Keys(d[1..])[i] == d[i + 1].0 != d[0].0;
  }

  /** `d[k] = v`: overwrite in place when `k` is present, append otherwise. */
  function Put<V>(d: Dict<V>, k: string, v: V): (r: Dict<V>)
    ensures HasKey(r, k) && Get(r, k) == v
    ensures forall k' :: k' != k ==> (HasKey(r, k') <==> HasKey(d, k'))
    ensures forall k' :: k' != k && HasKey(d, k') ==> Get(r, k') == Get(d, k')
    ensures HasKey(d, k) ==> Keys(r) == Keys(d)
    ensures !HasKey(d, k) ==> Keys(r) == Keys(d) + [k]
    ensures DistinctKeys(d) ==> DistinctKeys(r)
    ensures forall i :: 0 <= i < |r| ==> r[i] in d || r[i] == (k, v)
  {
    if HasKey(d, k) then
      var i := IndexOf(d, k);
      var r := d[i := (k, v)];
      assert Keys(r) == Keys(d);
      FirstIndexUnique(r, k, i);
      assert forall k' :: k' != k && HasKey(d, k') ==> Get(r, k') == Get(d, k') by {
        forall k' | k' != k && HasKey(d, k')
          ensures Get(r, k') == Get(d, k')
        {
          FirstIndexUnique(r, k', IndexOf(d, k'));
        }
      }
      r
    else
      var r := d + [(k, v)];
      assert Keys(r) == Keys(d) + [k];
      FirstIndexUnique(r, k, |d|);
      assert forall k' :: k' != k && HasKey(d, k') ==> Get(r, k') == Get(d, k') by {
        forall k' | k' != k && HasKey(d, k')
          ensures Get(r, k') == Get(d, k')
        {
          FirstIndexUnique(r, k', IndexOf(d, k'));
        }
      }
      r
  }

  /** `d2` agrees with `d1` on every key outside `ks`. */
  ghost predicate AgreeOutside<V>(d1: Dict<V>, d2: Dict<V>, ks: set<string>) {
    forall k :: k !in ks ==> (HasKey(d2, k) <==> HasKey(d1, k)) && (HasKey(d1, k) ==> Get(d2, k) == Get(d1, k))
  }

  /** Agreement outside `s1`, then outside `s2`, is agreement outside any
      superset of both. */
  lemma AgreeOutsideChain<V>(d1: Dict<V>, d2: Dict<V>, d3: Dict<V>, s1: set<string>, s2: set<string>, s: set<string>)
    requires AgreeOutside(d1, d2, s1) && AgreeOutside(d2, d3, s2)
    requires s1 <= s && s2 <= s
    ensures AgreeOutside(d1, d3, s)
  {
  }

  /** `del d[k]`: the entries of `d` without key `k`, in order. */
  function Remove<V>(d: Dict<V>, k: string): (r: Dict<V>)
    ensures forall i :: 0 <= i < |r| ==> r[i] in d && r[i].0 != k
    ensures forall i :: 0 <= i < |d| && d[i].0 != k ==> d[i] in r
    ensures |r| <= |d|
  {
    if d == [] then []
    else if d[0].0 == k then Remove(d[1..], k)
    else [d[0]] + Remove(d[1..], k)
  }

  /** Deleting `k` keeps every other key and its value, and drops `k`. */
  lemma {:induction false} RemoveLookup<V>(d: Dict<V>, k: string, k': string)
    ensures HasKey(Remove(d, k), k') <==> HasKey(d, k') && k' != k
    ensures HasKey(Remove(d, k), k') ==> Get(Remove(d, k), k') == Get(d, k')
    decreases |d|
  {
    if d != [] {
      RemoveLookup(d[1..], k, k');
      HasKeyCons(d, k');
      if d[0].0 != k {
        var r := Remove(d, k);
        assert r == [d[0]] + Remove(d[1..], k);
        assert r[1..] == Remove(d[1..], k);
        HasKeyCons(r, k');
      }
    }
  }
}

=== FILE: dispatch.dfy ===
/** The dispatch loop of `RenderingProcessor.process` in
  truthsayer/processor.py: each region with pending tokens becomes solver
  calls. A region with more than one pending token is placed by one
  multi-token call, with names and amounts in the same order; otherwise each
  token is placed by a single-token call.

  The jobs are related to a reference reading of `to_place` as a flat list
  of (area, region, token, amount) entries: dispatch hands every pending
  token to exactly one call, in order.
 */
module Dispatch {
  import opened Dicts
  import opened Processor
  import opened Pending

  /** One solver call. */
  datatype Job =
    | Single(area: string, region: string, token: string, amount: int)
    | Multiple(area: string, region: string, names: seq<string>, amounts: seq<int>)

  /** A pending token: (area, region, token, amount). */
  type Entry = (string, string, string, int)

  /** A multi-token call receives at least two distinct names, index-matched
      with their amounts. */
  predicate WellFormedJob(job: Job) {
    job.Multiple? ==>
      |job.names| == |job.amounts| >= 2 && forall i, j :: 0 <= i < j < |job.names| ==> job.names[i] != job.names[j]
  }

  /** The calls for one region's pending tokens. */
  function RegionJobs(a: string, r: string, elements: Dict<int>): (jobs: seq<Job>)
    ensures |elements| > 1 ==> |jobs| == 1 && jobs[0].Multiple?
    ensures |elements| <= 1 ==> |jobs| == |elements| && forall j :: 0 <= j < |jobs| ==> jobs[j].Single?
    ensures forall j :: 0 <= j < |jobs| ==> jobs[j].area == a && jobs[j].region == r
    ensures DistinctKeys(elements) ==> forall j :: 0 <= j < |jobs| ==> WellFormedJob(jobs[j])
  {
    if |elements| > 1 then [Multiple(a, r, Keys(elements), Values(elements))]
    else seq(|elements|, i requires 0 <= i < |elements| => Single(a, r, elements[i].0, elements[i].1))
  }

  function AreaJobs(a: string, regions: Dict<Dict<int>>): (jobs: seq<Job>)
    ensures WellKeyedRegions(regions) ==> forall j :: 0 <= j < |jobs| ==> WellFormedJob(jobs[j])
  {
    if regions == [] then []
    else RegionJobs(a, regions[0].0, regions[0].1) + AreaJobs(a, regions[1..])
  }

  /** All calls, area by area and region by region in `to_place` order. */
  function Jobs(tp: ToPlace): (jobs: seq<Job>)
    ensures WellKeyed(tp) ==> forall j :: 0 <= j < |jobs| ==> WellFormedJob(jobs[j])
  {
    if tp == [] then [] else AreaJobs(tp[0].0, tp[0].1) + Jobs(tp[1..])
  }

  /** The tokens one call places, `zip(names, amounts)` for a multi call. */
  function JobEntries(job: Job): seq<Entry> {
    match job
    case Single(a, r, t, c) => [(a, r, t, c)]
    case Multiple(a, r, names, amounts) =>
      var n := if |names| <= |amounts| then |names| else |amounts|;
      seq(n, i requires 0 <= i < n => (a, r, names[i], amounts[i]))
  }

  function JobsEntries(jobs: seq<Job>): seq<Entry> {
    if jobs == [] then [] else JobEntries(jobs[0]) + JobsEntries(jobs[1..])
  }

  /** Reference reading of `to_place`: its entries, flattened in order. */
  function RegionEntries(a: string, r: string, elements: Dict<int>): seq<Entry> {
    seq(|elements|, i requires 0 <= i < |elements| => (a, r, elements[i].0, elements[i].1))
  }

  function AreaEntries(a: string, regions: Dict<Dict<int>>): seq<Entry> {
    if regions == [] then [] else RegionEntries(a, regions[0].0, regions[0].1) + AreaEntries(a, regions[1..])
  }

  function Entries(tp: ToPlace): seq<Entry> {
    if tp == [] then [] else AreaEntries(tp[0].0, tp[0].1) + Entries(tp[1..])
  }

  // `ArrakisRender` repeats this lemma and `JobEntriesIncluded` for its own
  // calls, which carry no amounts and so are a different `Job`.

  lemma {:induction false} JobsEntriesAppend(x: seq<Job>, y: seq<Job>)
    ensures JobsEntries(x + y) == JobsEntries(x) + JobsEntries(y)
    decreases |x|
  {
    if x == [] {
      assert x + y == y;
    } else {
      assert (x + y)[1..] == x[1..] + y;
      JobsEntriesAppend(x[1..], y);
    }
  }

  lemma RegionJobsCover(a: string, r: string, elements: Dict<int>)
    ensures JobsEntries(RegionJobs(a, r, elements)) == RegionEntries(a, r, elements)
  {
    var jobs := RegionJobs(a, r, elements);
    if |elements| == 1 {
      assert JobsEntries(jobs) == JobEntries(jobs[0]) + JobsEntries(jobs[1..]);
    }
  }

  lemma {:induction false} AreaJobsCover(a: string, regions: Dict<Dict<int>>)
    ensures JobsEntries(AreaJobs(a, regions)) == AreaEntries(a, regions)
    decreases |regions|
  {
    if regions != [] {
      JobsEntriesAppend(RegionJobs(a, regions[0].0, regions[0].1), AreaJobs(a, regions[1..]));
      RegionJobsCover(a, regions[0].0, regions[0].1);
      AreaJobsCover(a, regions[1..]);
    }
  }

  /** Dispatch hands out exactly the entries of `to_place`, in order. */
  lemma {:induction false} JobsCoverEntries(tp: ToPlace)
    ensures JobsEntries(Jobs(tp)) == Entries(tp)
    decreases |tp|
  {
    if tp != [] {
      JobsEntriesAppend(AreaJobs(tp[0].0, tp[0].1), Jobs(tp[1..]));
      AreaJobsCover(tp[0].0, tp[0].1);
      JobsCoverEntries(tp[1..]);
    }
  }

  lemma RegionEntriesHeld(a: string, r: string, elements: Dict<int>)
    requires DistinctKeys(elements)
    ensures forall x: Entry :: x in RegionEntries(a, r, elements) <==>
      x.0 == a && x.1 == r && HasKey(elements, x.2) && x.3 == Get(elements, x.2)
  {
    var es := RegionEntries(a, r, elements);
    forall x: Entry | x.0 == a && x.1 == r && HasKey(elements, x.2) && x.3 == Get(elements, x.2)
      ensures x in es
    {
      assert es[IndexOf(elements, x.2)] == x;
    }
    forall i | 0 <= i < |es|
      ensures HasKey(elements, es[i].2) && es[i].3 == Get(elements, es[i].2)
    {
      FirstIndexUnique(elements, elements[i].0, i);
    }
  }

  lemma {:induction false} AreaEntriesHeld(a: string, regions: Dict<Dict<int>>)
    requires WellKeyedRegions(regions)
    ensures forall x: Entry :: x in AreaEntries(a, regions) <==>
      x.0 == a && HasKey(regions, x.1) && HasKey(Get(regions, x.1), x.2) && x.3 == Get(Get(regions, x.1), x.2)
    decreases |regions|
  {
    if regions != [] {
      var r0 := regions[0].0;
      DistinctCons(regions);
      AreaEntriesHeld(a, regions[1..]);
      RegionEntriesHeld(a, r0, regions[0].1);
      forall x: Entry
        ensures HasKey(regions, x.1) <==> x.1 == r0 || HasKey(regions[1..], x.1)
        ensures x.1 == r0 ==> Get(regions, x.1) == regions[0].1
        ensures x.1 != r0 && HasKey(regions, x.1) ==> Get(regions, x.1) == Get(regions[1..], x.1)
      {
        HasKeyCons(regions, x.1);
      }
    }
  }

  /** Under distinct keys, the entries are exactly the pending tokens with
      their amounts. */
  lemma {:induction false} EntriesHeld(tp: ToPlace)
    requires WellKeyed(tp)
    ensures forall x: Entry :: x in Entries(tp) <==> Holds(tp, x.0, x.1, x.2) && x.3 == Amount(tp, x.0, x.1, x.2)
    decreases |tp|
  {
    if tp != [] {
      var a0 := tp[0].0;
      DistinctCons(tp);
      EntriesHeld(tp[1..]);
      AreaEntriesHeld(a0, tp[0].1);
      forall x: Entry
        ensures HasKey(tp, x.0) <==> x.0 == a0 || HasKey(tp[1..], x.0)
        ensures x.0 == a0 ==> Get(tp, x.0) == tp[0].1
        ensures x.0 != a0 && HasKey(tp, x.0) ==> Get(tp, x.0) == Get(tp[1..], x.0)
      {
        HasKeyCons(tp, x.0);
      }
    }
  }

  /** After the scan, the solver calls place exactly the pending tokens of
      `Queued`, each once, with its amount from `areas`; a multi call gets
      at least two distinct names index-matched with their amounts. */
  lemma JobsPlaceQueued(cfg: Config, st: GameState, tp: ToPlace)
    requires QueueAfter(cfg, st, cfg.managed, tp)
    ensures forall x: Entry :: x in JobsEntries(Jobs(tp)) <==>
      Queued(cfg, st, x.0, x.1, x.2) && x.3 == TokenAmount(st.areas, x.0, x.1, x.2)
    ensures forall j :: 0 <= j < |Jobs(tp)| ==> WellFormedJob(Jobs(tp)[j])
  {
    JobsCoverEntries(tp);
    EntriesHeld(tp);
  }

  /** The tokens of any one call are among the tokens of all calls. */
  lemma {:induction false} JobEntriesIncluded(jobs: seq<Job>, j: nat)
    requires j < |jobs|
    ensures forall x :: x in JobEntries(jobs[j]) ==> x in JobsEntries(jobs)
    decreases j
  {
    if j > 0 {
      JobEntriesIncluded(jobs[1..], j - 1);
    }
  }

  /** Every call is for a managed area: it places at least one queued
      token of that area. */
  lemma JobAreasManaged(cfg: Config, st: GameState, tp: ToPlace)
    requires QueueAfter(cfg, st, cfg.managed, tp)
    ensures forall j :: 0 <= j < |Jobs(tp)| ==> Jobs(tp)[j].area in cfg.managed
  {
    var jobs := Jobs(tp);
    JobsPlaceQueued(cfg, st, tp);
    forall j | 0 <= j < |jobs|
      ensures jobs[j].area in cfg.managed
    {
      JobEntriesIncluded(jobs, j);
      var x := JobEntries(jobs[j])[0];
      assert x in JobsEntries(jobs);
    }
  }
}

=== FILE: flat.dfy ===
/** The flat coordinate encoding `[x0, y0, x1, y1, ...]`.

  The map description lists a polygon as a flat run of integers, and the
  multi-token solver keeps its state as a flat run of reals; both are read
  two at a time, entry `2j` and `2j+1` forming pair `j`.
 */
module Flat {

  /** Pair `j` of a flat sequence: `(s[2j], s[2j+1])`. */
  function Block<T>(s: seq<T>, j: nat): (T, T)
    requires 2 * j + 1 < |s|
  {
    (s[2 * j], s[2 * j + 1])
  }

  /** Pairs consecutive entries; a trailing odd entry is dropped
      (`for j in range(int(len(coords)/2))`). */
  function Unflatten<T>(s: seq<T>): (r: seq<(T, T)>)
    ensures |r| == |s| / 2
    ensures forall j :: 0 <= j < |r| ==> r[j] == Block(s, j)
  {
    if |s| < 2 then [] else [(s[0], s[1])] + Unflatten(s[2..])
  }

  /** Writes the pairs back out, x before y. */
  function Flatten<T>(ps: seq<(T, T)>): (r: seq<T>)
    ensures |r| == 2 * |ps|
    ensures forall j :: 0 <= j < |ps| ==> Block(r, j) == ps[j]
  {
    if ps == [] then [] else [ps[0].0, ps[0].1] + Flatten(ps[1..])
  }

  /** Pairing then flattening gives back the coordinates, less a trailing odd one. */
  lemma {:induction false} FlattenUnflatten<T>(s: seq<T>)
    ensures Flatten(Unflatten(s)) == s[..2 * (|s| / 2)]
    decreases |s|
  {
    if |s| >= 2 {
      FlattenUnflatten(s[2..]);
      assert Unflatten(s)[1..] == Unflatten(s[2..]);
      assert s[..2 * (|s| / 2)] == [s[0], s[1]] + s[2..][..2 * (|s[2..]| / 2)];
    }
  }

  /** On an even-length sequence the pairing loses nothing. */
  lemma FlattenUnflattenEven<T>(s: seq<T>)
    requires |s| % 2 == 0
    ensures Flatten(Unflatten(s)) == s
  {
    FlattenUnflatten(s);
  }

  /** Flattening then pairing is the identity. */
  lemma {:induction false} UnflattenFlatten<T>(ps: seq<(T, T)>)
    ensures Unflatten(Flatten(ps)) == ps
    decreases |ps|
  {
    if ps != [] {
      UnflattenFlatten(ps[1..]);
      assert Flatten(ps)[2..] == Flatten(ps[1..]);
    }
  }
}

=== FILE: geometry.dfy ===
/** Points, shapes and the two oracles the placement code calls into.

  The source does its geometry through shapely and its trigonometry through
  Python's `math`. Neither is modelled: each becomes a record of total
  functions (`Shapely`, `Maths`) handed to the operations that need it, and
  the few facts the proofs rely on are stated as ghost predicates that
  lemmas and contracts take as hypotheses. Floating point is modelled by
  `real`.
 */
module Geometry {

  datatype Point = Point(x: real, y: real)

  /** The shapes the solver builds. `Disk(c, r)` is `Point(c).buffer(r)`;
      `Intersection(a, b)` is `a.intersection(b)`. */
  datatype Shape =
    | Polygon(vertices: seq<Point>)
    | Disk(center: Point, radius: real)
    | Intersection(left: Shape, right: Shape)

  /** `shape.bounds`: (minx, miny, maxx, maxy). */
  datatype Bounds = Bounds(minX: real, minY: real, maxX: real, maxY: real)

  /** The shapely operations the solver uses, as uninterpreted functions. */
  datatype Shapely = Shapely(
    area: Shape -> real,
    centroid: Shape -> Point,
    contains: (Shape, Point) -> bool,
    intersects: (Shape, Shape) -> bool,
    bounds: Shape -> Bounds)

  /** The minimal axioms: areas are non-negative, an intersection is no
      larger than either operand, and bounds are ordered boxes. */
  ghost predicate Valid(g: Shapely) {
    && (forall s :: g.area(s) >= 0.0)
    && (forall a, b :: g.area(Intersection(a, b)) <= g.area(a))
    && (forall a, b :: g.area(Intersection(a, b)) <= g.area(b))
    && (forall s :: g.bounds(s).minX <= g.bounds(s).maxX && g.bounds(s).minY <= g.bounds(s).maxY)
  }

  /** `math.pi`, `math.cos`, `math.sin`, `math.sqrt`. */
  datatype Maths = Maths(pi: real, cos: real -> real, sin: real -> real, sqrt: real -> real)

  /** The Pythagorean identity, the only trigonometric fact the proofs use. */
  ghost predicate ValidTrig(m: Maths) {
    forall a :: m.cos(a) * m.cos(a) + m.sin(a) * m.sin(a) == 1.0
  }

  /** `math.sqrt` returns the non-negative square root of a non-negative argument. */
  ghost predicate ValidSqrt(m: Maths) {
    forall v :: v >= 0.0 ==> m.sqrt(v) >= 0.0 && m.sqrt(v) * m.sqrt(v) == v
  }

  function Square(v: real): real {
    v * v
  }

  /** Squared Euclidean distance. */
  function SqDist(p: Point, q: Point): real {
    Square(p.x - q.x) + Square(p.y - q.y)
  }

  function Plus(p: Point, q: Point): Point {
    Point(p.x + q.x, p.y + q.y)
  }

  /** `distance(ox, oy, px, py)`: the Euclidean distance through `math.sqrt`. */
  function Distance(m: Maths, o: Point, p: Point): (r: real)
    ensures ValidSqrt(m) ==> r >= 0.0 && r * r == SqDist(o, p)
  {
    assert SqDist(o, p) >= 0.0;
    m.sqrt(Square(o.x - p.x) + Square(o.y - p.y))
  }

  /** The point with real coordinates from a pair of pixel integers. */
  function FromPixels(xy: (int, int)): Point {
    Point(xy.0 as real, xy.1 as real)
  }

  /** `Polygon(coords)` for a list of integer vertices. */
  function PolygonOf(vertices: seq<(int, int)>): (r: Shape)
    ensures r.Polygon? && |r.vertices| == |vertices|
    ensures forall i :: 0 <= i < |vertices| ==> r.vertices[i] == FromPixels(vertices[i])
  {
    Polygon(seq(|vertices|, i requires 0 <= i < |vertices| => FromPixels(vertices[i])))
  }

  /** Rotating an offset (dx, dy) by a (cos, sin) pair on the unit circle keeps its length. */
  lemma RotationKeepsLength(c: real, s: real, dx: real, dy: real)
    ensures c * c + s * s == 1.0 ==> Square(c * dx - s * dy) + Square(s * dx + c * dy) == Square(dx) + Square(dy)
  {
    assert Square(c * dx - s * dy) + Square(s * dx + c * dy) == (c * c + s * s) * (dx * dx) + (c * c + s * s) * (dy * dy);
  }
}

=== FILE: index_pairs.dfy ===
/** Enumeration of the unordered index pairs `j < k < n` in the order of the
  nested loops `for j in range(n): for k in range(j+1, n)`. Both the
  multi-token cost (pairwise collisions) and the neighbour search over
  locations walk this sequence.
 */
module IndexPairs {

  /** Lexicographic order on index pairs. */
  predicate LexLess(a: (nat, nat), b: (nat, nat)) {
    a.0 < b.0 || (a.0 == b.0 && a.1 < b.1)
  }

  /** The inner loop: `(j, k), (j, k+1), ..., (j, n-1)`. */
  function Row(j: nat, k: nat, n: nat): (r: seq<(nat, nat)>)
    ensures |r| == if k <= n then n - k else 0
    ensures forall a :: 0 <= a < |r| ==> r[a] == (j, k + a)
    decreases n - k
  {
    if k >= n then [] else [(j, k)] + Row(j, k + 1, n)
  }

  /** The outer loop from `j` on. */
  function PairsFrom(j: nat, n: nat): seq<(nat, nat)>
    decreases n - j
  {
    if j >= n then [] else Row(j, j + 1, n) + PairsFrom(j + 1, n)
  }

  /** Every unordered pair of `range(n)`, in loop order. */
  function Pairs(n: nat): seq<(nat, nat)> {
    PairsFrom(0, n)
  }

  /** Exactly the pairs `j <= a < b < n` are enumerated from row `j` on,
      each at a strictly larger position than the ones before it. */
  lemma {:induction false} PairsFromExact(j: nat, n: nat)
    ensures forall p :: p in PairsFrom(j, n) <==> j <= p.0 < p.1 < n
    ensures forall a, b :: 0 <= a < b < |PairsFrom(j, n)| ==> LexLess(PairsFrom(j, n)[a], PairsFrom(j, n)[b])
    ensures forall a :: 0 <= a < |PairsFrom(j, n)| ==> j <= PairsFrom(j, n)[a].0
    decreases n - j
  {
    if j < n {
      PairsFromExact(j + 1, n);
      var row, rest := Row(j, j + 1, n), PairsFrom(j + 1, n);
      assert PairsFrom(j, n) == row + rest;
      forall p: (nat, nat) | j <= p.0 < p.1 < n
        ensures p in row + rest
      {
        if p.0 == j {
          assert row[p.1 - j - 1] == p;
        } else {
          assert p in rest;
        }
      }
    }
  }

  /** `(j, k)` is enumerated iff `j < k < n`. */
  lemma PairsMembership(n: nat, j: nat, k: nat)
    ensures (j, k) in Pairs(n) <==> j < k < n
  {
    PairsFromExact(0, n);
  }

  /** The enumeration is strictly increasing, so no pair occurs twice. */
  lemma PairsStrictlySorted(n: nat)
    ensures forall a, b :: 0 <= a < b < |Pairs(n)| ==> LexLess(Pairs(n)[a], Pairs(n)[b])
    ensures forall a, b :: 0 <= a < b < |Pairs(n)| ==> Pairs(n)[a] != Pairs(n)[b]
  {
    PairsFromExact(0, n);
  }

  /** A single index has no pair: the pairwise loop of a one-token problem is empty. */
  lemma PairsOfOne()
    ensures Pairs(1) == []
  {
    assert Row(0, 1, 1) == [];
  }
}

=== FILE: multi_opti.dfy ===
/** The multi-token placement problem of truthsayer/opti.py.

  A state is the flat sequence `[x0, y0, x1, y1, ...]` of the centres of N
  disks whose radii are listed in the same order. The cost adds, per token,
  the cubic avoid penalty and the uncovered part of the disk when it is not
  nearly contained, and, per unordered pair of tokens, the area their disks
  share.
 */
module MultiOpti {
  import opened Wrappers
  import opened Geometry
  import opened Flat
  import opened IndexPairs
  import Opti
  import Poly

  /** The problem's fields: the target polygon, the avoid polygons, one
      radius per token and the containment tolerance. */
  datatype MultiProblem = MultiProblem(target: Shape, avoid: seq<Shape>, radii: seq<real>, tolerance: real)

  function Count(prob: MultiProblem): nat {
    |prob.radii|
  }

  /** The state holds a centre for every token (`state[2*j]`, `state[2*j+1]`). */
  predicate Sized(prob: MultiProblem, state: seq<real>) {
    |state| >= 2 * Count(prob)
  }

  function PointOf(xy: (real, real)): Point {
    Point(xy.0, xy.1)
  }

  function PairOf(p: Point): (real, real) {
    (p.x, p.y)
  }

  /** Centre of token `j`. */
  function TokenAt(state: seq<real>, j: nat): Point
    requires 2 * j + 1 < |state|
  {
    PointOf(Block(state, j))
  }

  /** `polygonize((px, py), radius)` for token `j`. */
  function DiskOf(prob: MultiProblem, state: seq<real>, j: nat): Shape
    requires Sized(prob, state) && j < Count(prob)
  {
    Disk(TokenAt(state, j), prob.radii[j])
  }

  /** `state_polygon.area - overlap` when the disk of token `j` is not nearly
      contained, and nothing otherwise. */
  function Shortfall(g: Shapely, prob: MultiProblem, state: seq<real>, j: nat): (r: real)
    requires Sized(prob, state) && j < Count(prob)
    ensures Valid(g) ==> r >= 0.0
  {
    var disk := DiskOf(prob, state, j);
    var overlap := g.area(Intersection(disk, prob.target));
    if overlap < g.area(disk) - prob.tolerance then g.area(disk) - overlap else 0.0
  }

  /** What token `j` costs on its own. */
  function TokenTerm(g: Shapely, prob: MultiProblem, state: seq<real>, j: nat): (r: real)
    requires Sized(prob, state) && j < Count(prob)
    ensures Valid(g) ==> r >= 0.0
  {
    Opti.AvoidPenalty(g, DiskOf(prob, state, j), prob.avoid) + Shortfall(g, prob, state, j)
  }

  /** `collision`: the area the disks of tokens `j` and `k` share. */
  function Collision(g: Shapely, prob: MultiProblem, state: seq<real>, j: nat, k: nat): real
    requires Sized(prob, state) && j < Count(prob) && k < Count(prob)
  {
    g.area(Intersection(DiskOf(prob, state, j), DiskOf(prob, state, k)))
  }

  /** The inner loop `for k in range(j+1, N)` from `k` on. */
  function RowCollisions(g: Shapely, prob: MultiProblem, state: seq<real>, j: nat, k: nat): (r: real)
    requires Sized(prob, state) && j < Count(prob)
    ensures Valid(g) ==> r >= 0.0
    decreases Count(prob) - k
  {
    if k >= Count(prob) then 0.0
    else Collision(g, prob, state, j, k) + RowCollisions(g, prob, state, j, k + 1)
  }

  /** The outer loop `for j in range(N)` from `j` on. */
  function CostFrom(g: Shapely, prob: MultiProblem, state: seq<real>, j: nat): (r: real)
    requires Sized(prob, state)
    ensures Valid(g) ==> r >= 0.0
    decreases Count(prob) - j
  {
    if j >= Count(prob) then 0.0
    else TokenTerm(g, prob, state, j) + RowCollisions(g, prob, state, j, j + 1) + CostFrom(g, prob, state, j + 1)
  }

  /** `heuristic(state)`. Under the geometry axioms it is never negative:
      every term is an area, a cube of one, or a positive shortfall. */
  function Heuristic(g: Shapely, prob: MultiProblem, state: seq<real>): (r: real)
    requires Sized(prob, state)
    ensures Valid(g) ==> r >= 0.0
  {
    CostFrom(g, prob, state, 0)
  }

  /** `value(state) = -heuristic(state)`: never positive under the
      geometry axioms, so zero is the best a state can score. */
  function Value(g: Shapely, prob: MultiProblem, state: seq<real>): (r: real)
    requires Sized(prob, state)
    ensures Valid(g) ==> r <= 0.0
  {
    -Heuristic(g, prob, state)
  }

  // The cost split into per-token terms and per-pair terms.

  /** Reference sum of the per-token terms from `j` on. */
  function TokenTerms(g: Shapely, prob: MultiProblem, state: seq<real>, j: nat): real
    requires Sized(prob, state)
    decreases Count(prob) - j
  {
    if j >= Count(prob) then 0.0 else TokenTerm(g, prob, state, j) + TokenTerms(g, prob, state, j + 1)
  }

  /** Reference sum of the collisions of a list of index pairs. */
  function PairCollisions(g: Shapely, prob: MultiProblem, state: seq<real>, ps: seq<(nat, nat)>): real
    requires Sized(prob, state)
    requires forall p :: p in ps ==> p.0 < Count(prob) && p.1 < Count(prob)
  {
    if ps == [] then 0.0
    else Collision(g, prob, state, ps[0].0, ps[0].1) + PairCollisions(g, prob, state, ps[1..])
  }

  lemma {:induction false} PairCollisionsAppend(g: Shapely, prob: MultiProblem, state: seq<real>,
                                                a: seq<(nat, nat)>, b: seq<(nat, nat)>)
    requires Sized(prob, state)
    requires forall p :: p in a + b ==> p.0 < Count(prob) && p.1 < Count(prob)
    ensures PairCollisions(g, prob, state, a + b) == PairCollisions(g, prob, state, a) + PairCollisions(g, prob, state, b)
  {
    if a != [] {
      assert (a + b)[0] == a[0];
      assert (a + b)[1..] == a[1..] + b;
      forall p | p in a[1..] + b
        ensures p in a + b
      {
      }
      PairCollisionsAppend(g, prob, state, a[1..], b);
    } else {
      assert a + b == b;
    }
  }

  lemma {:induction false} RowIsPairs(g: Shapely, prob: MultiProblem, state: seq<real>, j: nat, k: nat)
    requires Sized(prob, state) && j < Count(prob)
    ensures forall p :: p in Row(j, k, Count(prob)) ==> p.0 < Count(prob) && p.1 < Count(prob)
    ensures RowCollisions(g, prob, state, j, k) == PairCollisions(g, prob, state, Row(j, k, Count(prob)))
    decreases Count(prob) - k
  {
    var n := Count(prob);
    if k < n {
      RowIsPairs(g, prob, state, j, k + 1);
      assert Row(j, k, n)[1..] == Row(j, k + 1, n);
    }
  }

  /** Every pair listed from row `j` on is a pair of tokens. */
  lemma PairsFromBounded(prob: MultiProblem, j: nat)
    ensures forall p :: p in PairsFrom(j, Count(prob)) ==> p.0 < Count(prob) && p.1 < Count(prob)
  {
    PairsFromExact(j, Count(prob));
  }

  /** Row `j` of the outer loop: its collisions are those of the row's
      pairs, so the split from `j + 1` on extends to `j`. */
  lemma CostStep(g: Shapely, prob: MultiProblem, state: seq<real>, j: nat)
    requires Sized(prob, state) && j < Count(prob)
    requires forall p :: p in PairsFrom(j + 1, Count(prob)) ==> p.0 < Count(prob) && p.1 < Count(prob)
    requires CostFrom(g, prob, state, j + 1)
             == TokenTerms(g, prob, state, j + 1) + PairCollisions(g, prob, state, PairsFrom(j + 1, Count(prob)))
    ensures forall p :: p in PairsFrom(j, Count(prob)) ==> p.0 < Count(prob) && p.1 < Count(prob)
    ensures CostFrom(g, prob, state, j) == TokenTerms(g, prob, state, j) + PairCollisions(g, prob, state, PairsFrom(j, Count(prob)))
  {
    var n := Count(prob);
    var row, rest := Row(j, j + 1, n), PairsFrom(j + 1, n);
    PairsFromBounded(prob, j);
    RowIsPairs(g, prob, state, j, j + 1);
    assert PairsFrom(j, n) == row + rest;
    PairCollisionsAppend(g, prob, state, row, rest);
  }

  lemma {:induction false} CostSplits(g: Shapely, prob: MultiProblem, state: seq<real>, j: nat)
    requires Sized(prob, state)
    ensures forall p :: p in PairsFrom(j, Count(prob)) ==> p.0 < Count(prob) && p.1 < Count(prob)
    ensures CostFrom(g, prob, state, j) == TokenTerms(g, prob, state, j) + PairCollisions(g, prob, state, PairsFrom(j, Count(prob)))
    decreases Count(prob) - j
  {
    PairsFromBounded(prob, j);
    if j < Count(prob) {
      CostSplits(g, prob, state, j + 1);
      CostStep(g, prob, state, j);
    }
  }

  /** The cost is the sum of the per-token terms plus the collision of every
      unordered pair `j < k` of tokens, each pair counted exactly once (the
      enumeration lists exactly the pairs j < k < N, strictly increasing). */
  lemma HeuristicSplits(g: Shapely, prob: MultiProblem, state: seq<real>)
    requires Sized(prob, state)
    ensures forall j: nat, k: nat :: (j, k) in Pairs(Count(prob)) <==> j < k < Count(prob)
    ensures forall a, b :: 0 <= a < b < |Pairs(Count(prob))| ==> Pairs(Count(prob))[a] != Pairs(Count(prob))[b]
    ensures Heuristic(g, prob, state) == TokenTerms(g, prob, state, 0) + PairCollisions(g, prob, state, Pairs(Count(prob)))
  {
    CostSplits(g, prob, state, 0);
    PairsStrictlySorted(Count(prob));
    forall j: nat, k: nat
      ensures (j, k) in Pairs(Count(prob)) <==> j < k < Count(prob)
    {
      PairsMembership(Count(prob), j, k);
    }
  }

  /** With one token there is no pairwise term. */
  lemma OneTokenHasNoCollision(g: Shapely, prob: MultiProblem, state: seq<real>)
    requires Sized(prob, state) && Count(prob) == 1
    ensures Heuristic(g, prob, state) == TokenTerm(g, prob, state, 0)
  {
    HeuristicSplits(g, prob, state);
    PairsOfOne();
  }

  // ---------------------------------------------------------------------
  // Operators
  // ---------------------------------------------------------------------

  /** What `random.sample(list(range(N)), random.randint(1, N))` returns:
      between 1 and N distinct token indices. */
  predicate IndexSample(idx: seq<nat>, n: nat) {
    && 1 <= |idx| <= n
    && (forall i :: 0 <= i < |idx| ==> idx[i] < n)
    && (forall i, j :: 0 <= i < j < |idx| ==> idx[i] != idx[j])
  }

  /** Overwrites block `j` of `s`. */
  function SetBlock(s: seq<real>, j: nat, xy: (real, real)): (r: seq<real>)
    requires 2 * j + 1 < |s|
    ensures |r| == |s| && Block(r, j) == xy
    ensures forall i :: 0 <= i < |s| && i != 2 * j && i != 2 * j + 1 ==> r[i] == s[i]
  {
    s[2 * j := xy.0][2 * j + 1 := xy.1]
  }

  lemma SetBlockKeepsOthers(s: seq<real>, j: nat, xy: (real, real), k: nat)
    requires 2 * j + 1 < |s| && 2 * k + 1 < |s| && k != j
    ensures Block(SetBlock(s, j, xy), k) == Block(s, k)
  {
  }

  /** `crossover(mother, father)`: the child is the mother with the blocks of
      the sampled tokens `charm` taken from the father. It has the mother's
      length, block `j` is the father's iff `j` was sampled and the
      mother's otherwise, and at least one block comes from the father. */
  method Crossover(prob: MultiProblem, mother: seq<real>, father: seq<real>, charm: seq<nat>)
    returns (child: seq<real>)
    requires Sized(prob, mother) && Sized(prob, father)
    requires IndexSample(charm, Count(prob))
    ensures |child| == |mother|
    ensures forall j :: 0 <= j < Count(prob) ==>
      Block(child, j) == if j in charm then Block(father, j) else Block(mother, j)
    ensures forall i :: 2 * Count(prob) <= i < |mother| ==> child[i] == mother[i]
    ensures exists j :: 0 <= j < Count(prob) && Block(child, j) == Block(father, j)
  {
    var n := Count(prob);
    child := mother;
    var i := 0;
    while i < |charm|
      invariant 0 <= i <= |charm|
      invariant |child| == |mother|
      invariant forall j :: 0 <= j < n ==>
        Block(child, j) == if j in charm[..i] then Block(father, j) else Block(mother, j)
      invariant forall t :: 2 * n <= t < |mother| ==> child[t] == mother[t]
    {
      var j := charm[i];
      assert charm[..i + 1] == charm[..i] + [j];
      forall k | 0 <= k < n && k != j
        ensures Block(SetBlock(child, j, Block(father, j)), k) == Block(child, k)
      {
        SetBlockKeepsOthers(child, j, Block(father, j), k);
      }
      child := SetBlock(child, j, Block(father, j));
      i := i + 1;
    }
    assert charm[..i] == charm;
    assert charm[0] in charm;
    assert Block(child, charm[0]) == Block(father, charm[0]);
  }

  /** `mutate(state)`: each sampled token `xmen[i]` is moved by `mutant` with
      its own draws `draws[i]`; every other block is left unchanged. */
  method Mutate(m: Maths, g: Shapely, prob: MultiProblem, state: seq<real>, xmen: seq<nat>, draws: seq<Opti.MutationDraws>)
    returns (mutated: seq<real>)
    requires Sized(prob, state)
    requires IndexSample(xmen, Count(prob)) && |draws| == |xmen|
    ensures |mutated| == |state|
    ensures forall j :: 0 <= j < Count(prob) && j !in xmen ==> Block(mutated, j) == Block(state, j)
    ensures forall i :: 0 <= i < |xmen| ==>
      Block(mutated, xmen[i]) == PairOf(Opti.Mutant(m, g, TokenAt(state, xmen[i]), prob.target, draws[i]))
    ensures forall t :: 2 * Count(prob) <= t < |state| ==> mutated[t] == state[t]
  {
    var n := Count(prob);
    mutated := state;
    var i := 0;
    while i < |xmen|
      invariant 0 <= i <= |xmen|
      invariant |mutated| == |state|
      invariant forall j :: 0 <= j < n && j !in xmen[..i] ==> Block(mutated, j) == Block(state, j)
      invariant forall a :: 0 <= a < i ==>
        Block(mutated, xmen[a]) == PairOf(Opti.Mutant(m, g, TokenAt(state, xmen[a]), prob.target, draws[a]))
      invariant forall t :: 2 * n <= t < |state| ==> mutated[t] == state[t]
    {
      var j := xmen[i];
      var moved := PairOf(Opti.Mutant(m, g, TokenAt(state, j), prob.target, draws[i]));
      assert xmen[..i + 1] == xmen[..i] + [j];
      forall k | 0 <= k < n && k != j
        ensures Block(SetBlock(mutated, j, moved), k) == Block(mutated, k)
      {
        SetBlockKeepsOthers(mutated, j, moved, k);
      }
      mutated := SetBlock(mutated, j, moved);
      i := i + 1;
    }
    assert xmen[..i] == xmen;
  }

  /** `generate_random_state()`: the N sampled centres, flattened. The state
      has length 2N and block `j` is the `j`-th accepted sample, which lies
      inside the target. With no tokens the sampler raises AttributeError at
      `centrod`; `Success(None)` means the draws ran out first. */
  function InitialState(g: Shapely, prob: MultiProblem, draws: seq<(real, real)>): (r: Result<Option<seq<real>>>)
    ensures r.Failure? <==> Count(prob) == 0
    ensures r.Failure? ==> r.error == AttributeError("centrod")
    ensures r.Success? ==> (r.value.Some? <==> |Poly.Accepted(g, prob.target, draws)| >= Count(prob))
    ensures r.Success? && r.value.Some? ==> |r.value.value| == 2 * Count(prob)
    ensures r.Success? && r.value.Some? ==> forall j :: 0 <= j < Count(prob) ==>
      TokenAt(r.value.value, j) == Poly.Accepted(g, prob.target, draws)[j]
      && g.contains(prob.target, TokenAt(r.value.value, j))
  {
    match Poly.GenerateRandom(g, Count(prob), prob.target, true, draws)
    case Returned(points) =>
      var state := Flatten(seq(|points|, i requires 0 <= i < |points| => PairOf(points[i])));
      Success(Some(state))
    case Raised(error) => Failure(error)
    case StillDrawing => Success(None)
  }
}

=== FILE: opti.dfy ===
/** The single-token placement problem of truthsayer/opti.py and the
  geometry-aware moves it shares with the multi-token problem.

  A state is the centre `(x, y)` of one disk of fixed radius. The search
  driver maximises `Value = -Heuristic`; it is not modelled, only the
  operators it calls. Every `random.random()` the operators draw is a
  parameter.
 */
module Opti {
  import opened Wrappers
  import opened Geometry
  import Poly

  /** `rotateAboutPoint(ox, oy, px, py, angle)`: `p` turned by `angle` about `o`.
      The pivot stays put, and on the unit circle the distance to the pivot is kept. */
  function RotateAboutPoint(m: Maths, o: Point, p: Point, angle: real): (r: Point)
    ensures p == o ==> r == o
    ensures ValidTrig(m) ==> SqDist(r, o) == SqDist(p, o)
  {
    var c, s := m.cos(angle), m.sin(angle);
    var r := Point(o.x + c * (p.x - o.x) - s * (p.y - o.y), o.y + s * (p.x - o.x) + c * (p.y - o.y));
    RotationKeepsLength(c, s, p.x - o.x, p.y - o.y);
    r
  }

  /** The guard of `shiftFromPoint`: the point is within one pixel of the centre's column. */
  predicate NearlyVertical(o: Point, p: Point) {
    -1.0 < p.x - o.x < 1.0
  }

  /** Cross product of `p - o` and `q - o`; zero iff `q` is on the line through `o` and `p`. */
  function Cross(o: Point, p: Point, q: Point): real {
    (p.x - o.x) * (q.y - o.y) - (p.y - o.y) * (q.x - o.x)
  }

  /** `shiftFromPoint(ox, oy, px, py, delta)`. Near the centre's column the
      result keeps x and builds y from `px + delta` (not from `py`).
      Elsewhere x moves by exactly `delta`, and y moves along the slope of
      the ray from `o` plus an extra `oy`: the result sits `oy` above the
      line through `o` and `p`, measured in units of `px - ox`. */
  function ShiftFromPoint(o: Point, p: Point, delta: real): (r: Point)
    ensures NearlyVertical(o, p) ==> r.x == p.x && r.y == p.x + delta
    ensures !NearlyVertical(o, p) ==> r.x == p.x + delta && Cross(o, p, r) == o.y * (p.x - o.x)
  {
    if NearlyVertical(o, p) then
      Point(p.x, p.x + delta)
    else
      var m := (p.y - o.y) / (p.x - o.x);
      var r := Point(p.x + delta, p.y + m * delta + o.y);
      assert m * (p.x - o.x) == p.y - o.y;
      assert (p.x - o.x) * (r.y - o.y) == (p.x - o.x) * (p.y - o.y) + (p.y - o.y) * delta + (p.x - o.x) * o.y;
      r
  }

  /** With the centre on the x axis the shift is radial: the result stays on
      the line through the centre and the point. */
  lemma ShiftRadialWhenCentreOnAxis(o: Point, p: Point, delta: real)
    requires o.y == 0.0 && !NearlyVertical(o, p)
    ensures Cross(o, p, ShiftFromPoint(o, p, delta)) == 0.0
  {
  }

  /** The three `random.random()` draws one mutation may use, in call order:
      the branch choice, then either the angle fraction or the sign draw,
      then the magnitude draw. */
  datatype MutationDraws = MutationDraws(choice: real, first: real, second: real)

  predicate UnitDraw(u: real) {
    0.0 <= u < 1.0
  }

  /** `(1 if random.random() < 0.5 else -1) * random.random() * distance(...)`:
      a signed shift never longer than the distance to the centre. */
  function ShiftAmount(m: Maths, o: Point, p: Point, signDraw: real, magnitudeDraw: real): (r: real)
    ensures ValidSqrt(m) && UnitDraw(magnitudeDraw) ==> -Distance(m, o, p) <= r <= Distance(m, o, p)
    ensures ValidSqrt(m) && UnitDraw(magnitudeDraw) ==> (signDraw < 0.5 ==> r >= 0.0) && (signDraw >= 0.5 ==> r <= 0.0)
  {
    var d := Distance(m, o, p);
    Poly.ScaleWithin(d, magnitudeDraw);
    (if signDraw < 0.5 then 1.0 else -1.0) * magnitudeDraw * d
  }

  /** `mutant(state, polygon)`: below one half the point is rotated about the
      polygon's centroid by `2*pi*first`, keeping its distance to the centroid;
      otherwise it is shifted, moving x by at most that distance (or not at
      all near the centroid's column). */
  function Mutant(m: Maths, g: Shapely, state: Point, polygon: Shape, draws: MutationDraws): (r: Point)
    ensures draws.choice < 0.5 ==> r == RotateAboutPoint(m, g.centroid(polygon), state, 2.0 * m.pi * draws.first)
    ensures draws.choice < 0.5 && ValidTrig(m) ==> SqDist(r, g.centroid(polygon)) == SqDist(state, g.centroid(polygon))
    ensures draws.choice >= 0.5 ==>
      r == ShiftFromPoint(g.centroid(polygon), state, ShiftAmount(m, g.centroid(polygon), state, draws.first, draws.second))
    ensures draws.choice >= 0.5 && NearlyVertical(g.centroid(polygon), state) ==> r.x == state.x
    ensures draws.choice >= 0.5 && ValidSqrt(m) && UnitDraw(draws.second) ==>
      -Distance(m, g.centroid(polygon), state) <= r.x - state.x <= Distance(m, g.centroid(polygon), state)
  {
    var o := g.centroid(polygon);
    if draws.choice < 0.5 then
      RotateAboutPoint(m, o, state, 2.0 * m.pi * draws.first)
    else
      ShiftFromPoint(o, state, ShiftAmount(m, o, state, draws.first, draws.second))
  }

  // ---------------------------------------------------------------------
  // TokenPlacementProblem
  // ---------------------------------------------------------------------

  /** The problem's fields: the polygon to stay inside, the polygons to
      avoid, the disk radius and the containment tolerance. */
  datatype SingleProblem = SingleProblem(target: Shape, avoid: seq<Shape>, radius: real, tolerance: real)

  /** `polygonize(state)`: the disk the state stands for. */
  function DiskAt(prob: SingleProblem, state: Point): Shape {
    Disk(state, prob.radius)
  }

  function Cube(v: real): (r: real)
    ensures v >= 0.0 ==> r >= 0.0
  {
    v * v * v
  }

  function Pow5(v: real): (r: real)
    ensures v >= 0.0 ==> r >= 0.0
  {
    assert v >= 0.0 ==> v * v >= 0.0 && v * v * v * v >= 0.0;
    v * v * v * v * v
  }

  /** `sum(disk.intersection(avoid).area ** 3 for avoid in zones)`. */
  function AvoidPenalty(g: Shapely, disk: Shape, zones: seq<Shape>): (r: real)
    ensures Valid(g) ==> r >= 0.0
    ensures zones == [] ==> r == 0.0
  {
    if zones == [] then 0.0
    else AvoidPenalty(g, disk, zones[..|zones| - 1]) + Cube(g.area(Intersection(disk, zones[|zones| - 1])))
  }

  /** The area the disk shares with the target. */
  function Overlap(g: Shapely, prob: SingleProblem, state: Point): real {
    g.area(Intersection(DiskAt(prob, state), prob.target))
  }

  /** The disk is nearly contained: `not (overlap < disk.area - tolerance)`. */
  predicate NearlyContained(g: Shapely, prob: SingleProblem, state: Point) {
    !(Overlap(g, prob, state) < g.area(DiskAt(prob, state)) - prob.tolerance)
  }

  /** `heuristic(state)`: the cubic avoid penalty, plus the 10th power of the
      distance to the target's centroid when the disk is not nearly contained,
      minus the overlap when it is. A contained state never costs more than
      its avoid penalty and a non-contained one never less. */
  function Heuristic(g: Shapely, prob: SingleProblem, state: Point): (r: real)
    ensures Valid(g) && !NearlyContained(g, prob, state) ==> r >= AvoidPenalty(g, DiskAt(prob, state), prob.avoid)
    ensures Valid(g) && NearlyContained(g, prob, state) ==> r <= AvoidPenalty(g, DiskAt(prob, state), prob.avoid)
  {
    var bad := AvoidPenalty(g, DiskAt(prob, state), prob.avoid);
    if !NearlyContained(g, prob, state) then
      bad + Pow5(SqDist(state, g.centroid(prob.target)))
    else
      bad - Overlap(g, prob, state)
  }

  /** `value(state) = -heuristic(state)`: a nearly-contained state scores
      at least minus its avoid penalty, and a state that is not nearly
      contained at most that. Without avoid zones the first is never
      negative and the second never positive. */
  function Value(g: Shapely, prob: SingleProblem, state: Point): (r: real)
    ensures Valid(g) && NearlyContained(g, prob, state) ==> r >= -AvoidPenalty(g, DiskAt(prob, state), prob.avoid)
    ensures Valid(g) && !NearlyContained(g, prob, state) ==> r <= -AvoidPenalty(g, DiskAt(prob, state), prob.avoid)
    ensures Valid(g) && prob.avoid == [] ==> (NearlyContained(g, prob, state) ==> r >= 0.0)
    ensures Valid(g) && prob.avoid == [] ==> (!NearlyContained(g, prob, state) ==> r <= 0.0)
  {
    -Heuristic(g, prob, state)
  }

  /** Without avoid zones a nearly-contained state never scores above zero
      cost and a non-contained one never below. */
  lemma HeuristicSignWithoutAvoidZones(g: Shapely, prob: SingleProblem, state: Point)
    requires Valid(g) && prob.avoid == []
    ensures NearlyContained(g, prob, state) ==> Heuristic(g, prob, state) <= 0.0
    ensures !NearlyContained(g, prob, state) ==> Heuristic(g, prob, state) >= 0.0
  {
  }

  /** So the driver, maximising `Value`, ranks every nearly-contained state at
      least as high as every state that is not. */
  lemma ContainedStatesRankFirst(g: Shapely, prob: SingleProblem, inside: Point, outside: Point)
    requires Valid(g) && prob.avoid == []
    requires NearlyContained(g, prob, inside) && !NearlyContained(g, prob, outside)
    ensures Value(g, prob, inside) >= Value(g, prob, outside)
  {
    HeuristicSignWithoutAvoidZones(g, prob, inside);
    HeuristicSignWithoutAvoidZones(g, prob, outside);
  }

  /** `crossover(state1, state2)`: x from one parent and y from the other,
      the first parent's x when the draw is below one half. */
  function Crossover(state1: Point, state2: Point, rnd: real): (r: Point)
    ensures (r.x == state1.x && r.y == state2.y) || (r.x == state2.x && r.y == state1.y)
    ensures rnd < 0.5 ==> r.x == state1.x && r.y == state2.y
    ensures rnd >= 0.5 ==> r.x == state2.x && r.y == state1.y
  {
    if rnd < 0.5 then Point(state1.x, state2.y) else Point(state2.x, state1.y)
  }

  /** Crossing a state with itself gives it back, whatever the draw. */
  lemma CrossoverSelf(state: Point, rnd: real)
    ensures Crossover(state, state, rnd) == state
  {
  }

  /** `mutate(state)`: `mutant` about the target polygon's centroid. A
      rotation keeps the disk's distance to that centroid; a shift moves it
      along the line through the centroid, by at most that distance in x. */
  function Mutate(m: Maths, g: Shapely, prob: SingleProblem, state: Point, draws: MutationDraws): (r: Point)
    ensures draws.choice < 0.5 ==> r == RotateAboutPoint(m, g.centroid(prob.target), state, 2.0 * m.pi * draws.first)
    ensures draws.choice < 0.5 && ValidTrig(m) ==>
      SqDist(r, g.centroid(prob.target)) == SqDist(state, g.centroid(prob.target))
    ensures draws.choice >= 0.5 ==>
      r == ShiftFromPoint(g.centroid(prob.target), state,
                          ShiftAmount(m, g.centroid(prob.target), state, draws.first, draws.second))
    ensures draws.choice >= 0.5 && NearlyVertical(g.centroid(prob.target), state) ==> r.x == state.x
    ensures draws.choice >= 0.5 && ValidSqrt(m) && UnitDraw(draws.second) ==>
      -Distance(m, g.centroid(prob.target), state) <= r.x - state.x <= Distance(m, g.centroid(prob.target), state)
  {
    Mutant(m, g, state, prob.target, draws)
  }

  /** `generate_random_state()`: the single point `generate_random(1, target)`
      returns, which lies inside the target. */
  function InitialState(g: Shapely, prob: SingleProblem, draws: seq<(real, real)>): (r: Option<Point>)
    ensures r.Some? ==> g.contains(prob.target, r.value)
    ensures r.Some? && Valid(g) && Poly.UnitDraws(draws) ==> Poly.InBounds(g.bounds(prob.target), r.value)
    ensures r.Some? <==> |Poly.Accepted(g, prob.target, draws)| >= 1
  {
    match Poly.GenerateRandom(g, 1, prob.target, true, draws)
    case Returned(points) => Some(points[0])
    case _ => None
  }
}

=== FILE: pending.dfy ===
/** The first loop of `RenderingProcessor.process` in truthsayer/processor.py:
  which tokens of the game state have no drawing yet and must be placed.

  `to_place[area][region][token] = amount` collects them, grouped by area
  and region in the order the loop meets them. On the way the loop makes
  sure every scanned area has a `visual` entry and copies the value of a
  spice point area into `visual`.
 */
module Pending {
  import opened Wrappers
  import opened Dicts
  import opened Processor

  /** `to_place`: area -> region -> token -> amount. */
  type ToPlace = Dict<Dict<Dict<int>>>

  /** `to_place[a][r][t]` exists. */
  predicate Holds(tp: ToPlace, a: string, r: string, t: string) {
    HasKey(tp, a) && HasKey(Get(tp, a), r) && HasKey(Get(Get(tp, a), r), t)
  }

  function Amount(tp: ToPlace, a: string, r: string, t: string): int
    requires Holds(tp, a, r, t)
  {
    Get(Get(Get(tp, a), r), t)
  }

  /** Token `t` is in region `r` of an area's regions, `r` holding a dict. */
  predicate InRegion(regions: Dict<RegionValue>, r: string, t: string) {
    HasKey(regions, r) && Get(regions, r).Tokens? && HasKey(Get(regions, r).amounts, t)
  }

  /** `areas[a][r][t]` exists. */
  predicate TokenIn(areas: Dict<AreaValue>, a: string, r: string, t: string) {
    HasKey(areas, a) && Get(areas, a).Regions? && InRegion(Get(areas, a).regions, r, t)
  }

  function TokenAmount(areas: Dict<AreaValue>, a: string, r: string, t: string): int
    requires TokenIn(areas, a, r, t)
  {
    Get(Get(Get(areas, a).regions, r).amounts, t)
  }

  /** The game state is a JSON object: no dictionary repeats a key. */
  predicate WellFormedRegions(regions: Dict<RegionValue>) {
    DistinctKeys(regions) && forall i :: 0 <= i < |regions| && regions[i].1.Tokens? ==> DistinctKeys(regions[i].1.amounts)
  }

  predicate WellFormedAreas(areas: Dict<AreaValue>) {
    DistinctKeys(areas) && forall i :: 0 <= i < |areas| && areas[i].1.Regions? ==> WellFormedRegions(areas[i].1.regions)
  }

  /** `visual[area].keys()`: a dict's keys; a number or a string has none. */
  function VisualKeys(v: VisualValue): (r: Result<seq<string>>)
    ensures r.Failure? <==> !(v.Placed? || v.StormMark? || (v.Copied? && v.value.Regions?))
  {
    match v
    case Placed(regions) => Success(Keys(regions))
    case Copied(Regions(regions)) => Success(Keys(regions))
    case StormMark(_) => Success(StormFields)
    case _ => Failure(AttributeError("keys"))
  }

  /** The keys already drawn for an area before the scan; none when the area
      has no `visual` entry (the scan gives it an empty one). */
  function Seen(visual: Dict<VisualValue>, a: string): seq<string> {
    if HasKey(visual, a) && VisualKeys(Get(visual, a)).Success? then VisualKeys(Get(visual, a)).value else []
  }

  /** Some region of the area holds a dict with at least one token, so the
      scan reads `visual[area].keys()`. */
  predicate HasTokens(regions: Dict<RegionValue>) {
    exists i :: 0 <= i < |regions| && regions[i].1.Tokens? && |regions[i].1.amounts| > 0
  }

  /** The scan walks into the area's regions. */
  predicate Scanned(cfg: Config, st: GameState, a: string) {
    a in cfg.managed && HasKey(st.areas, a) && a !in cfg.pointAreas
  }

  /** The scan of an area does not raise: the area holds regions and, if it
      has any token, its drawing has keys. */
  predicate Scannable(st: GameState, a: string)
    requires HasKey(st.areas, a)
  {
    Get(st.areas, a).Regions?
    && (HasTokens(Get(st.areas, a).regions) && HasKey(st.visual, a) ==> VisualKeys(Get(st.visual, a)).Success?)
  }

  /** Token `t` of region `r` of area `a` is pending: the area is managed,
      present and not a point area, `areas[a][r]` is a dict holding `t`, and
      `t` is not a key of the area's drawing. */
  predicate Queued(cfg: Config, st: GameState, a: string, r: string, t: string) {
    Scanned(cfg, st, a) && TokenIn(st.areas, a, r, t) && t !in Seen(st.visual, a)
  }

  /** `visual[a]` once the scan has passed area `a`: a spice point area's
      value copied, else the old drawing, else a fresh `{}`. */
  function Refreshed(cfg: Config, st: GameState, a: string): VisualValue
    requires HasKey(st.areas, a)
  {
    if a in cfg.pointAreas && a in cfg.spiceAreas then Copied(Get(st.areas, a))
    else if HasKey(st.visual, a) then Get(st.visual, a)
    else Placed([])
  }

  /** No level of a region table repeats a key. */
  predicate WellKeyedRegions(regions: Dict<Dict<int>>) {
    DistinctKeys(regions) && forall j :: 0 <= j < |regions| ==> DistinctKeys(regions[j].1)
  }

  /** No level of `to_place` repeats a key, as for any Python dict. */
  predicate WellKeyed(tp: ToPlace) {
    DistinctKeys(tp) && forall i :: 0 <= i < |tp| ==> WellKeyedRegions(tp[i].1)
  }

  /** Storing a duplicate-free token table keeps a region table well keyed. */
  lemma PutRegionKeepsKeys(regions: Dict<Dict<int>>, r: string, tokens: Dict<int>)
    requires WellKeyedRegions(regions) && DistinctKeys(tokens)
    ensures WellKeyedRegions(Put(regions, r, tokens))
  {
    var res := Put(regions, r, tokens);
    forall j | 0 <= j < |res|
      ensures DistinctKeys(res[j].1)
    {
      assert res[j] in regions || res[j] == (r, tokens);
    }
  }

  /** Storing a well-keyed region table keeps `to_place` well keyed. */
  lemma PutAreaKeepsKeys(tp: ToPlace, a: string, regions: Dict<Dict<int>>)
    requires WellKeyed(tp) && WellKeyedRegions(regions)
    ensures WellKeyed(Put(tp, a, regions))
  {
    var res := Put(tp, a, regions);
    forall i | 0 <= i < |res|
      ensures WellKeyedRegions(res[i].1)
    {
      assert res[i] in tp || res[i] == (a, regions);
    }
  }

  /** `to_place.setdefault(a, {}).setdefault(r, {})[t] = amount`. */
  function Enqueue(tp: ToPlace, a: string, r: string, t: string, amount: int): (res: ToPlace)
    ensures forall a', r', t' :: Holds(res, a', r', t') <==> Holds(tp, a', r', t') || (a' == a && r' == r && t' == t)
    ensures forall a', r', t' :: Holds(res, a', r', t') ==>
      Amount(res, a', r', t') == if a' == a && r' == r && t' == t then amount else Amount(tp, a', r', t')
    ensures WellKeyed(tp) ==> WellKeyed(res)
  {
    var regions := GetOr(tp, a, []);
    var tokens := GetOr(regions, r, []);
    var inner := Put(regions, r, Put(tokens, t, amount));
    assert WellKeyed(tp) ==> WellKeyed(Put(tp, a, inner)) by {
      if WellKeyed(tp) {
        if HasKey(tp, a) {
          assert tp[IndexOf(tp, a)].1 == regions;
        }
        if HasKey(regions, r) {
          assert regions[IndexOf(regions, r)].1 == tokens;
        }
        PutRegionKeepsKeys(regions, r, Put(tokens, t, amount));
        PutAreaKeepsKeys(tp, a, inner);
      }
    }
    Put(tp, a, inner)
  }

  /** The innermost loop: every token of one region not among `seen`. */
  method ScanTokens(tp: ToPlace, a: string, r: string, tokens: Dict<int>, seen: seq<string>) returns (res: ToPlace)
    requires DistinctKeys(tokens)
    ensures forall a', r', t' :: Holds(res, a', r', t') <==>
      Holds(tp, a', r', t') || (a' == a && r' == r && HasKey(tokens, t') && t' !in seen)
    ensures forall a', r', t' :: Holds(res, a', r', t') ==>
      Amount(res, a', r', t')
      == if a' == a && r' == r && HasKey(tokens, t') && t' !in seen then Get(tokens, t') else Amount(tp, a', r', t')
    ensures WellKeyed(tp) ==> WellKeyed(res)
  {
    var keys := Keys(tokens);
    res := tp;
    var i := 0;
    while i < |tokens|
      invariant 0 <= i <= |tokens|
      invariant forall a', r', t' :: Holds(res, a', r', t') <==>
        Holds(tp, a', r', t') || (a' == a && r' == r && t' in keys[..i] && t' !in seen)
      invariant forall a', r', t' :: Holds(res, a', r', t') ==>
        Amount(res, a', r', t')
        == if a' == a && r' == r && t' in keys[..i] && t' !in seen then Get(tokens, t') else Amount(tp, a', r', t')
      invariant WellKeyed(tp) ==> WellKeyed(res)
    {
      var t := tokens[i].0;
      assert keys[..i + 1] == keys[..i] + [t];
      FirstIndexUnique(tokens, t, i);
      if t !in seen {
        res := Enqueue(res, a, r, t, tokens[i].1);
      }
      i := i + 1;
    }
    assert keys[..i] == keys;
  }

  /** The region loop of one area: the tokens of every region holding a dict. */
  method ScanRegions(tp: ToPlace, a: string, regions: Dict<RegionValue>, seen: seq<string>) returns (res: ToPlace)
    requires WellFormedRegions(regions)
    ensures forall a', r', t' :: Holds(res, a', r', t') <==>
      Holds(tp, a', r', t') || (a' == a && InRegion(regions, r', t') && t' !in seen)
    ensures forall a', r', t' :: Holds(res, a', r', t') ==>
      Amount(res, a', r', t')
      == if a' == a && InRegion(regions, r', t') && t' !in seen then Get(Get(regions, r').amounts, t') else Amount(tp, a', r', t')
    ensures WellKeyed(tp) ==> WellKeyed(res)
  {
    var keys := Keys(regions);
    res := tp;
    var i := 0;
    while i < |regions|
      invariant 0 <= i <= |regions|
      invariant forall a', r', t' :: Holds(res, a', r', t') <==>
        Holds(tp, a', r', t') || (a' == a && r' in keys[..i] && InRegion(regions, r', t') && t' !in seen)
      invariant forall a', r', t' :: Holds(res, a', r', t') ==>
        Amount(res, a', r', t')
        == if a' == a && r' in keys[..i] && InRegion(regions, r', t') && t' !in seen
           then Get(Get(regions, r').amounts, t') else Amount(tp, a', r', t')
      invariant WellKeyed(tp) ==> WellKeyed(res)
    {
      var r := regions[i].0;
      assert keys[..i + 1] == keys[..i] + [r];
      FirstIndexUnique(regions, r, i);
      if regions[i].1.Tokens? {
        res := ScanTokens(res, a, r, regions[i].1.amounts, seen);
      }
      i := i + 1;
    }
    assert keys[..i] == keys;
  }

  /** A region holding a token means the area has tokens. */
  lemma InRegionHasTokens(regions: Dict<RegionValue>, r: string, t: string)
    requires InRegion(regions, r, t)
    ensures HasTokens(regions)
  {
    var i := IndexOf(regions, r);
    assert regions[i].1.Tokens? && |regions[i].1.amounts| > 0;
  }

  /** One pass of the area loop, for a managed area present in `areas` whose
      drawing is still the one the scan started from. */
  method ScanArea(cfg: Config, st: GameState, vis: Dict<VisualValue>, tp: ToPlace, a: string)
    returns (r: Result<(Dict<VisualValue>, ToPlace)>)
    requires WellFormedAreas(st.areas)
    requires a in cfg.managed && HasKey(st.areas, a)
    requires HasKey(vis, a) <==> HasKey(st.visual, a)
    requires HasKey(vis, a) ==> Get(vis, a) == Get(st.visual, a)
    ensures r.Success? <==> (a !in cfg.pointAreas ==> Scannable(st, a))
    ensures r.Failure? ==> r.error.AttributeError?
    ensures r.Success? ==> forall k :: HasKey(r.value.0, k) <==> HasKey(vis, k) || k == a
    ensures r.Success? ==> forall k :: k != a && HasKey(vis, k) ==> Get(r.value.0, k) == Get(vis, k)
    ensures r.Success? ==> HasKey(r.value.0, a) && Get(r.value.0, a) == Refreshed(cfg, st, a)
    ensures r.Success? ==> forall a', r', t' :: Holds(r.value.1, a', r', t') <==>
      Holds(tp, a', r', t') || (a' == a && Queued(cfg, st, a, r', t'))
    ensures r.Success? ==> forall a', r', t' :: Holds(r.value.1, a', r', t') ==>
      Amount(r.value.1, a', r', t')
      == if a' == a && Queued(cfg, st, a, r', t') then TokenAmount(st.areas, a, r', t') else Amount(tp, a', r', t')
    ensures r.Success? && WellKeyed(tp) ==> WellKeyed(r.value.1)
  {
    var v := vis;
    if !HasKey(v, a) {
      v := Put(v, a, Placed([]));
    }
    if a in cfg.pointAreas {
      if a in cfg.spiceAreas {
        v := Put(v, a, Copied(Get(st.areas, a)));
      }
      return Success((v, tp));
    }
    var value := Get(st.areas, a);
    if !value.Regions? {
      return Failure(AttributeError("keys"));
    }
    var keys := VisualKeys(Get(v, a));
    if keys.Failure? && HasTokens(value.regions) {
      return Failure(keys.error);
    }
    var seen := if keys.Success? then keys.value else [];
    assert seen == Seen(st.visual, a);
    assert WellFormedRegions(value.regions) by {
      assert st.areas[IndexOf(st.areas, a)].1 == value;
    }
    var res := ScanRegions(tp, a, value.regions, seen);
    forall r', t' | InRegion(value.regions, r', t')
      ensures keys.Success?
    {
      InRegionHasTokens(value.regions, r', t');
    }
    return Success((v, res));
  }

  /** After the area loop has passed the areas `done`: which areas have a
      drawing and what it is. */
  ghost predicate VisualAfter(cfg: Config, st: GameState, done: seq<string>, vis: Dict<VisualValue>) {
    && (forall a :: HasKey(vis, a) <==> HasKey(st.visual, a) || (a in done && HasKey(st.areas, a)))
    && (forall a :: HasKey(vis, a) ==>
         Get(vis, a) == if a in done && HasKey(st.areas, a) then Refreshed(cfg, st, a) else Get(st.visual, a))
  }

  /** After the area loop has passed the areas `done`: the tokens queued so
      far, each with its amount in `areas`. */
  ghost predicate QueueAfter(cfg: Config, st: GameState, done: seq<string>, tp: ToPlace) {
    && WellKeyed(tp)
    && (forall a, rg, t :: Holds(tp, a, rg, t) <==> a in done && Queued(cfg, st, a, rg, t))
    && (forall a, rg, t :: Holds(tp, a, rg, t) ==>
         TokenIn(st.areas, a, rg, t) && Amount(tp, a, rg, t) == TokenAmount(st.areas, a, rg, t))
  }

  /** An area missing from `areas` is passed over. */
  lemma SkipStep(cfg: Config, st: GameState, done: seq<string>, a: string, vis: Dict<VisualValue>, tp: ToPlace)
    requires !HasKey(st.areas, a)
    requires VisualAfter(cfg, st, done, vis) && QueueAfter(cfg, st, done, tp)
    ensures VisualAfter(cfg, st, done + [a], vis) && QueueAfter(cfg, st, done + [a], tp)
  {
  }

  /** The drawings after one pass of `ScanArea`. */
  lemma VisualStep(cfg: Config, st: GameState, done: seq<string>, a: string, vis: Dict<VisualValue>, vis': Dict<VisualValue>)
    requires HasKey(st.areas, a) && a !in done
    requires VisualAfter(cfg, st, done, vis)
    requires forall k :: HasKey(vis', k) <==> HasKey(vis, k) || k == a
    requires forall k :: k != a && HasKey(vis, k) ==> Get(vis', k) == Get(vis, k)
    requires HasKey(vis', a) && Get(vis', a) == Refreshed(cfg, st, a)
    ensures VisualAfter(cfg, st, done + [a], vis')
  {
  }

  /** The queue after one pass of `ScanArea`. */
  lemma QueueStep(cfg: Config, st: GameState, done: seq<string>, a: string, tp: ToPlace, tp': ToPlace)
    requires HasKey(st.areas, a) && a !in done
    requires QueueAfter(cfg, st, done, tp)
    requires forall a', r', t' :: Holds(tp', a', r', t') <==> Holds(tp, a', r', t') || (a' == a && Queued(cfg, st, a, r', t'))
    requires forall a', r', t' :: Holds(tp', a', r', t') ==>
      Amount(tp', a', r', t')
      == if a' == a && Queued(cfg, st, a, r', t') then TokenAmount(st.areas, a, r', t') else Amount(tp, a', r', t')
    requires WellKeyed(tp')
    ensures QueueAfter(cfg, st, done + [a], tp')
  {
  }

  /** The area loop of `process`: the drawings it adds or copies, and the
      pending tokens with their amounts. Reading the regions of an area that
      holds none, or the keys of a drawing that has none, raises
      AttributeError. `managed` comes from `list(set(...))` and so has no
      repeats. */
  method ScanPending(cfg: Config, st: GameState) returns (r: Result<(Dict<VisualValue>, ToPlace)>)
    requires forall i, j :: 0 <= i < j < |cfg.managed| ==> cfg.managed[i] != cfg.managed[j]
    requires WellFormedAreas(st.areas)
    ensures r.Success? <==> forall a :: Scanned(cfg, st, a) ==> Scannable(st, a)
    ensures r.Failure? ==> r.error.AttributeError?
    ensures r.Success? ==> VisualAfter(cfg, st, cfg.managed, r.value.0)
    ensures r.Success? ==> QueueAfter(cfg, st, cfg.managed, r.value.1)
  {
    var vis, tp := st.visual, [];
    var i := 0;
    while i < |cfg.managed|
      invariant 0 <= i <= |cfg.managed|
      invariant forall a :: a in cfg.managed[..i] && Scanned(cfg, st, a) ==> Scannable(st, a)
      invariant VisualAfter(cfg, st, cfg.managed[..i], vis)
      invariant QueueAfter(cfg, st, cfg.managed[..i], tp)
    {
      var a := cfg.managed[i];
      assert cfg.managed[..i + 1] == cfg.managed[..i] + [a];
      if HasKey(st.areas, a) {
        assert a !in cfg.managed[..i];
        var step := ScanArea(cfg, st, vis, tp, a);
        if step.Failure? {
          assert Scanned(cfg, st, a) && !Scannable(st, a);
          return Failure(step.error);
        }
        VisualStep(cfg, st, cfg.managed[..i], a, vis, step.value.0);
        QueueStep(cfg, st, cfg.managed[..i], a, tp, step.value.1);
        vis, tp := step.value.0, step.value.1;
      } else {
        SkipStep(cfg, st, cfg.managed[..i], a, vis, tp);
      }
      i := i + 1;
    }
    assert cfg.managed[..i] == cfg.managed;
    return Success((vis, tp));
  }
}

=== FILE: placement.dfy ===
/** `prepareInstance`, `placeSingleToken` and `placeMultipleTokens` of
  truthsayer/processor.py: how a solver call is set up from the
  configuration and the drawings, and how its answer is written back.

  The search itself (`genetic`) is an oracle, `Solvers`: the model states
  what problem it is given and where its answer goes, never what the answer
  is.
 */
module Placement {
  import opened Wrappers
  import opened Dicts
  import opened Geometry
  import opened Processor
  import opened Dispatch
  import Pending
  import Opti
  import MultiOpti

  /** The final state `genetic` returns for a single-token and for a
      multi-token problem. */
  datatype Solvers = Solvers(single: Opti.SingleProblem -> Point, multi: MultiOpti.MultiProblem -> seq<real>)

  /** The shape to cover: the area's polygon, intersected with the region's
      polygon unless the region is `'whole'`. A missing polygon raises
      KeyError. */
  function Target(cfg: Config, a: string, r: string): (res: Result<Shape>)
    ensures res.Success? <==> a in cfg.polygons && (r != "whole" ==> r in cfg.polygons)
    ensures res.Success? && r == "whole" ==> res.value == PolygonOf(cfg.polygons[a])
    ensures res.Success? && r != "whole" ==>
      res.value == Intersection(PolygonOf(cfg.polygons[a]), PolygonOf(cfg.polygons[r]))
    ensures res.Failure? ==> res.error.KeyError?
  {
    var area :- Lookup(cfg.polygons, a);
    if r == "whole" then Success(PolygonOf(area))
    else
      var region :- Lookup(cfg.polygons, r);
      Success(Intersection(PolygonOf(area), PolygonOf(region)))
  }

  /** The zones to avoid: a disk of the token's radius around every token
      already drawn in the region. */
  function AvoidZones(cfg: Config, table: Dict<TokenRecord>): (res: Result<seq<Shape>>)
    ensures res.Success? <==> forall i :: 0 <= i < |table| ==> Radius(cfg, table[i].0).Success?
    ensures res.Success? ==> |res.value| == |table|
    ensures res.Success? ==> forall i :: 0 <= i < |table| ==>
      res.value[i] == Disk(Point(table[i].1.x, table[i].1.y), Radius(cfg, table[i].0).value)
  {
    if table == [] then Success([])
    else
      var radius :- Radius(cfg, table[0].0);
      var rest :- AvoidZones(cfg, table[1..]);
      Success([Disk(Point(table[0].1.x, table[0].1.y), radius)] + rest)
  }

  /** Whether `prepareInstance` reads a token table for region `r` from
      drawing `v`: a token table always yields one; the storm marker and a
      copied region dict yield `{}` when `r` is not among their keys, and the
      copied dict also when `r` holds no amounts. */
  predicate HoldsTable(v: VisualValue, r: string) {
    match v
    case Placed(_) => true
    case StormMark(_) => r !in StormFields
    case Copied(Regions(regions)) => !HasKey(regions, r) || Get(regions, r) == Tokens([])
    case _ => false
  }

  /** `visual[a][r]` as `prepareInstance` reaches it, a missing area or
      region starting as `{}`. A drawing that is a string or a number, or a
      region entry that is one (a storm marker field, a copied value that is
      not an amount dict), has no `keys()`: AttributeError. A copied amount
      dict in the region's place holds numbers, and reading `['x']` of the
      first raises TypeError. */
  function RegionTable(vis: Dict<VisualValue>, a: string, r: string): (res: Result<Dict<TokenRecord>>)
    ensures res.Success? <==> !HasKey(vis, a) || HoldsTable(Get(vis, a), r)
    ensures res.Failure? ==> res.error == AttributeError("keys") || res.error.TypeError?
    ensures res.Failure? && !Get(vis, a).Copied? ==> res.error == AttributeError("keys")
    ensures res.Success? && HasKey(RegionsOf(vis, a), r) ==> res.value == Get(RegionsOf(vis, a), r)
    ensures res.Success? && !HasKey(RegionsOf(vis, a), r) ==> res.value == []
  {
    if !HasKey(vis, a) then Success([])
    else
      var v := Get(vis, a);
      var keys :- Pending.VisualKeys(v);
      if r !in keys then Success([])
      else
        match v
        case Placed(regions) => Success(Get(regions, r))
        case Copied(Regions(regions)) =>
          (match Get(regions, r)
           case Tokens(amounts) =>
             if amounts == [] then Success([]) else Failure(TypeError("an amount is not subscriptable"))
           case NotTokens => Failure(AttributeError("keys")))
        case _ => Failure(AttributeError("keys"))
  }

  /** The regions drawn for area `a`, none when there is no token table. */
  function RegionsOf(vis: Dict<VisualValue>, a: string): Dict<Dict<TokenRecord>> {
    if HasKey(vis, a) && Get(vis, a).Placed? then Get(vis, a).regions else []
  }

  /** Token `t` has a drawing in region `r` of area `a`. */
  predicate HasRecord(vis: Dict<VisualValue>, a: string, r: string, t: string) {
    HasKey(RegionsOf(vis, a), r) && HasKey(Get(RegionsOf(vis, a), r), t)
  }

  function RecordAt(vis: Dict<VisualValue>, a: string, r: string, t: string): TokenRecord
    requires HasRecord(vis, a, r, t)
  {
    Get(Get(RegionsOf(vis, a), r), t)
  }

  /** `visual[a][r] = table`; every other area and region is left alone. */
  function StoreTable(vis: Dict<VisualValue>, a: string, r: string, table: Dict<TokenRecord>): (res: Dict<VisualValue>)
    ensures AgreeOutside(vis, res, {a})
    ensures HasKey(res, a) && Get(res, a).Placed?
    ensures HasKey(RegionsOf(res, a), r) && Get(RegionsOf(res, a), r) == table
    ensures forall r' :: r' != r ==> (HasKey(RegionsOf(res, a), r') <==> HasKey(RegionsOf(vis, a), r'))
    ensures forall r' :: r' != r && HasKey(RegionsOf(vis, a), r') ==> Get(RegionsOf(res, a), r') == Get(RegionsOf(vis, a), r')
  {
    var regions := Put(RegionsOf(vis, a), r, table);
    var res := Put(vis, a, Placed(regions));
    assert RegionsOf(res, a) == regions;
    res
  }

  /** Once drawn, a token stays drawn. */
  ghost predicate Grows(vis: Dict<VisualValue>, vis': Dict<VisualValue>) {
    forall a, r, t :: HasRecord(vis, a, r, t) ==> HasRecord(vis', a, r, t)
  }

  /** Storing a table that keeps every token of the region's old table only
      adds drawings. */
  lemma StoreTableGrows(vis: Dict<VisualValue>, a: string, r: string, table: Dict<TokenRecord>)
    requires RegionTable(vis, a, r).Success?
    requires forall t :: HasKey(RegionTable(vis, a, r).value, t) ==> HasKey(table, t)
    ensures Grows(vis, StoreTable(vis, a, r, table))
  {
    var res := StoreTable(vis, a, r, table);
    forall a', r', t | HasRecord(vis, a', r', t)
      ensures HasRecord(res, a', r', t)
    {
      if a' != a {
        assert RegionsOf(res, a') == RegionsOf(vis, a');
      } else if r' == r {
        assert HasKey(RegionTable(vis, a, r).value, t);
      }
    }
  }

  /** The problem `placeSingleToken` hands to the solver: the token's radius,
      the target of `Target`, the avoid zones of the region's drawn tokens,
      and tolerance 0.01 whatever the caller asked for. */
  function SingleInstance(cfg: Config, vis: Dict<VisualValue>, a: string, r: string, t: string)
    : (res: Result<Opti.SingleProblem>)
    ensures res.Success? <==>
      Radius(cfg, t).Success? && Target(cfg, a, r).Success? && RegionTable(vis, a, r).Success?
      && AvoidZones(cfg, RegionTable(vis, a, r).value).Success?
    ensures res.Success? ==>
      && res.value.tolerance == 0.01
      && res.value.radius == Radius(cfg, t).value
      && res.value.target == Target(cfg, a, r).value
      && res.value.avoid == AvoidZones(cfg, RegionTable(vis, a, r).value).value
  {
    var radius :- Radius(cfg, t);
    var target :- Target(cfg, a, r);
    var table :- RegionTable(vis, a, r);
    var avoid :- AvoidZones(cfg, table);
    Success(Opti.SingleProblem(target, avoid, radius, 0.01))
  }

  /** `placeSingleToken`: the solver's point is drawn for the token with its
      amount and the single-path label. */
  function PlaceSingle(solvers: Solvers, cfg: Config, vis: Dict<VisualValue>, a: string, r: string, t: string, c: int)
    : (res: Result<Dict<VisualValue>>)
    ensures res.Success? <==> SingleInstance(cfg, vis, a, r, t).Success?
    ensures res.Success? ==>
      var p := solvers.single(SingleInstance(cfg, vis, a, r, t).value);
      HasRecord(res.value, a, r, t) && RecordAt(res.value, a, r, t) == TokenRecord(t, SingleKind(cfg, t), p.x, p.y, c)
    ensures res.Success? ==> AgreeOutside(vis, res.value, {a}) && Grows(vis, res.value)
  {
    var prob :- SingleInstance(cfg, vis, a, r, t);
    var p := solvers.single(prob);
    var table := RegionTable(vis, a, r).value;
    var table' := Put(table, t, TokenRecord(t, SingleKind(cfg, t), p.x, p.y, c));
    StoreTableGrows(vis, a, r, table');
    Success(StoreTable(vis, a, r, table'))
  }

  /** The radii of the names, `[getRadius(name) for name in names]`. */
  function Radii(cfg: Config, names: seq<string>): (res: Result<seq<real>>)
    ensures res.Success? <==> forall i :: 0 <= i < |names| ==> Radius(cfg, names[i]).Success?
    ensures res.Success? ==> |res.value| == |names|
    ensures res.Success? ==> forall i :: 0 <= i < |names| ==> res.value[i] == Radius(cfg, names[i]).value
  {
    if names == [] then Success([])
    else
      var radius :- Radius(cfg, names[0]);
      var rest :- Radii(cfg, names[1..]);
      Success([radius] + rest)
  }

  /** The problem `placeMultipleTokens` hands to the solver. */
  function MultiInstance(cfg: Config, vis: Dict<VisualValue>, a: string, r: string, names: seq<string>)
    : (res: Result<MultiOpti.MultiProblem>)
    ensures res.Success? <==>
      Radii(cfg, names).Success? && Target(cfg, a, r).Success? && RegionTable(vis, a, r).Success?
      && AvoidZones(cfg, RegionTable(vis, a, r).value).Success?
    ensures res.Success? ==>
      && res.value.tolerance == 0.01
      && res.value.radii == Radii(cfg, names).value
      && res.value.target == Target(cfg, a, r).value
      && res.value.avoid == AvoidZones(cfg, RegionTable(vis, a, r).value).value
  {
    var radii :- Radii(cfg, names);
    var target :- Target(cfg, a, r);
    var table :- RegionTable(vis, a, r);
    var avoid :- AvoidZones(cfg, table);
    Success(MultiOpti.MultiProblem(target, avoid, radii, 0.01))
  }

  /** The record the multi path draws for name `i`. */
  function MultiRecord(cfg: Config, names: seq<string>, amounts: seq<int>, state: seq<real>, i: nat): TokenRecord
    requires i < |names| && i < |amounts| && 2 * i + 1 < |state|
  {
    TokenRecord(names[i], MultiKind(cfg, names[i]), state[2 * i], state[2 * i + 1], amounts[i])
  }

  /** The write-back loop has drawn the first `i` names. */
  ghost predicate Written(cfg: Config, table: Dict<TokenRecord>, t: Dict<TokenRecord>,
                          names: seq<string>, amounts: seq<int>, state: seq<real>, i: nat)
    requires i <= |names| == |amounts| && 2 * i <= |state|
  {
    && (forall j :: 0 <= j < i ==> HasKey(t, names[j]) && Get(t, names[j]) == MultiRecord(cfg, names, amounts, state, j))
    && AgreeOutside(table, t, set j | 0 <= j < i :: names[j])
  }

  lemma WriteStep(cfg: Config, table: Dict<TokenRecord>, t: Dict<TokenRecord>,
                  names: seq<string>, amounts: seq<int>, state: seq<real>, i: nat)
    requires i < |names| == |amounts| && 2 * i + 1 < |state|
    requires forall j, k :: 0 <= j < k < |names| ==> names[j] != names[k]
    requires Written(cfg, table, t, names, amounts, state, i)
    ensures Written(cfg, table, Put(t, names[i], MultiRecord(cfg, names, amounts, state, i)), names, amounts, state, i + 1)
  {
    var t' := Put(t, names[i], MultiRecord(cfg, names, amounts, state, i));
    assert forall j :: 0 <= j < i ==> names[j] != names[i];
    AgreeOutsideChain(table, t, t', set j | 0 <= j < i :: names[j], {names[i]}, set j | 0 <= j < i + 1 :: names[j]);
  }

  /** The write-back loop of `placeMultipleTokens`: name `i` is drawn at
      `(state[2i], state[2i+1])`, the solver's block for token `i`, with
      amount `amounts[i]` and the multi-path label. A state too short for
      the names raises IndexError. */
  method WriteBack(cfg: Config, table: Dict<TokenRecord>, names: seq<string>, amounts: seq<int>, state: seq<real>)
    returns (res: Result<Dict<TokenRecord>>)
    requires |names| == |amounts|
    requires forall i, j :: 0 <= i < j < |names| ==> names[i] != names[j]
    ensures res.Success? <==> 2 * |names| <= |state|
    ensures res.Failure? ==> res.error == IndexError
    ensures res.Success? ==> forall i :: 0 <= i < |names| ==>
      HasKey(res.value, names[i])
      && Get(res.value, names[i]) == TokenRecord(names[i], MultiKind(cfg, names[i]), state[2 * i], state[2 * i + 1], amounts[i])
    ensures res.Success? ==> forall i :: 0 <= i < |names| ==>
      Point(Get(res.value, names[i]).x, Get(res.value, names[i]).y) == MultiOpti.TokenAt(state, i)
    ensures res.Success? ==> AgreeOutside(table, res.value, set i | 0 <= i < |names| :: names[i])
  {
    var t := table;
    var i := 0;
    while i < |names|
      invariant 0 <= i <= |names|
      invariant 2 * i <= |state|
      invariant Written(cfg, table, t, names, amounts, state, i)
    {
      if 2 * i + 1 >= |state| {
        return Failure(IndexError);
      }
      WriteStep(cfg, table, t, names, amounts, state, i);
      t, i := Put(t, names[i], MultiRecord(cfg, names, amounts, state, i)), i + 1;
    }
    return Success(t);
  }

  /** `placeMultipleTokens`: every name is drawn from its block of the
      solver's state. */
  method PlaceMultiple(solvers: Solvers, cfg: Config, vis: Dict<VisualValue>, a: string, r: string,
                       names: seq<string>, amounts: seq<int>)
    returns (res: Result<Dict<VisualValue>>)
    requires |names| == |amounts|
    requires forall i, j :: 0 <= i < j < |names| ==> names[i] != names[j]
    ensures res.Success? <==>
      MultiInstance(cfg, vis, a, r, names).Success?
      && 2 * |names| <= |solvers.multi(MultiInstance(cfg, vis, a, r, names).value)|
    ensures res.Success? ==>
      var state := solvers.multi(MultiInstance(cfg, vis, a, r, names).value);
      forall i :: 0 <= i < |names| ==>
        HasRecord(res.value, a, r, names[i])
        && RecordAt(res.value, a, r, names[i])
           == TokenRecord(names[i], MultiKind(cfg, names[i]), state[2 * i], state[2 * i + 1], amounts[i])
    ensures res.Success? ==> AgreeOutside(vis, res.value, {a}) && Grows(vis, res.value)
  {
    var prob := MultiInstance(cfg, vis, a, r, names);
    if prob.Failure? {
      return Failure(prob.error);
    }
    var state := solvers.multi(prob.value);
    var table := RegionTable(vis, a, r).value;
    var table' :- WriteBack(cfg, table, names, amounts, state);
    StoreTableGrows(vis, a, r, table');
    return Success(StoreTable(vis, a, r, table'));
  }

  /** One solver call of the dispatch. */
  method PlaceJob(solvers: Solvers, cfg: Config, vis: Dict<VisualValue>, job: Job) returns (res: Result<Dict<VisualValue>>)
    requires WellFormedJob(job)
    ensures res.Success? ==> forall x :: x in JobEntries(job) ==>
      HasRecord(res.value, x.0, x.1, x.2) && RecordAt(res.value, x.0, x.1, x.2).c == x.3
    ensures res.Success? ==> AgreeOutside(vis, res.value, {job.area}) && Grows(vis, res.value)
  {
    match job
    case Single(a, r, t, c) =>
      res := PlaceSingle(solvers, cfg, vis, a, r, t, c);
    case Multiple(a, r, names, amounts) =>
      res := PlaceMultiple(solvers, cfg, vis, a, r, names, amounts);
      if res.Success? {
        forall x | x in JobEntries(job)
          ensures HasRecord(res.value, x.0, x.1, x.2) && RecordAt(res.value, x.0, x.1, x.2).c == x.3
        {
          var i :| 0 <= i < |names| && x == (a, r, names[i], amounts[i]);
        }
      }
  }

  lemma GrowsChain(v1: Dict<VisualValue>, v2: Dict<VisualValue>, v3: Dict<VisualValue>)
    requires Grows(v1, v2) && Grows(v2, v3)
    ensures Grows(v1, v3)
  {
  }

  /** What the dispatch loop keeps after `k` calls: their tokens are
      drawn, drawings only accumulate, and only their areas change. */
  ghost predicate Dispatched(vis: Dict<VisualValue>, v: Dict<VisualValue>, jobs: seq<Job>, k: nat)
    requires k <= |jobs|
  {
    && (forall x :: x in JobsEntries(jobs[..k]) ==> HasRecord(v, x.0, x.1, x.2))
    && Grows(vis, v)
    && AgreeOutside(vis, v, set j | 0 <= j < k :: jobs[j].area)
  }

  /** One solver call extends what the loop keeps by one call. */
  lemma PlaceStep(vis: Dict<VisualValue>, v: Dict<VisualValue>, v': Dict<VisualValue>, jobs: seq<Job>, k: nat)
    requires k < |jobs|
    requires Dispatched(vis, v, jobs, k)
    requires forall x :: x in JobEntries(jobs[k]) ==> HasRecord(v', x.0, x.1, x.2)
    requires AgreeOutside(v, v', {jobs[k].area}) && Grows(v, v')
    ensures Dispatched(vis, v', jobs, k + 1)
  {
    assert jobs[..k + 1] == jobs[..k] + [jobs[k]];
    JobsEntriesAppend(jobs[..k], [jobs[k]]);
    assert JobsEntries([jobs[k]]) == JobEntries(jobs[k]) + JobsEntries([]);
    GrowsChain(vis, v, v');
    AgreeOutsideChain(vis, v, v', set j | 0 <= j < k :: jobs[j].area, {jobs[k].area},
                      set j | 0 <= j < k + 1 :: jobs[j].area);
  }

  /** The dispatch loop: the calls in order. Every token handed to a call
      ends up drawn, drawings only accumulate, and only the jobs' areas
      change. */
  method PlaceAll(solvers: Solvers, cfg: Config, vis: Dict<VisualValue>, jobs: seq<Job>) returns (res: Result<Dict<VisualValue>>)
    requires forall j :: 0 <= j < |jobs| ==> WellFormedJob(jobs[j])
    ensures res.Success? ==> forall x :: x in JobsEntries(jobs) ==> HasRecord(res.value, x.0, x.1, x.2)
    ensures res.Success? ==> Grows(vis, res.value)
    ensures res.Success? ==> AgreeOutside(vis, res.value, set j | 0 <= j < |jobs| :: jobs[j].area)
  {
    var v := vis;
    var k := 0;
    assert AgreeOutside(vis, v, {});
    while k < |jobs|
      invariant 0 <= k <= |jobs|
      invariant Dispatched(vis, v, jobs, k)
    {
      var step := PlaceJob(solvers, cfg, v, jobs[k]);
      if step.Failure? {
        return Failure(step.error);
      }
      PlaceStep(vis, v, step.value, jobs, k);
      v, k := step.value, k + 1;
    }
    assert jobs[..k] == jobs;
    return Success(v);
  }
}

=== FILE: poly.dfy ===
/** The map-precompute helpers of truthsayer/poly.py: pairing the map's flat
  coordinate lists into polygons, the location/sector intersection table,
  the neighbour list, location centres, the storm circle through the six
  player seats, and the rejection sampler used to seed the solver.
 */
module Poly {
  import opened Wrappers
  import opened Dicts
  import opened Geometry
  import opened Flat
  import opened IndexPairs

  /** One `<area>` element of the map description, already parsed:
      its title, its shape attribute and its integer coordinates. */
  datatype RawArea = RawArea(title: string, shape: string, coords: seq<int>)

  /** The result of `extract()`: circle centres and polygon vertex lists by name. */
  datatype Areas = Areas(circles: Dict<(int, int)>, polygons: Dict<seq<(int, int)>>)

  /** Adds one `<area>` element: a "poly" is paired into vertices, a "circle"
      keeps its first two coordinates as centre (fewer than two raise
      IndexError), any other shape is ignored. Only the entry under the
      element's title changes. */
  function ExtractArea(areas: Areas, raw: RawArea): (r: Result<Areas>)
    ensures raw.shape == "poly" ==> (
      && r.Success?
      && r.value.circles == areas.circles
      && HasKey(r.value.polygons, raw.title)
      && Get(r.value.polygons, raw.title) == Unflatten(raw.coords)
      && Flatten(Get(r.value.polygons, raw.title)) == raw.coords[..2 * (|raw.coords| / 2)]
      && AgreeOutside(areas.polygons, r.value.polygons, {raw.title}))
    ensures raw.shape == "circle" ==> (r.Success? <==> |raw.coords| >= 2)
    ensures raw.shape == "circle" && r.Failure? ==> r.error == IndexError
    ensures raw.shape == "circle" && r.Success? ==> (
      && r.value.polygons == areas.polygons
      && HasKey(r.value.circles, raw.title)
      && Get(r.value.circles, raw.title) == (raw.coords[0], raw.coords[1])
      && AgreeOutside(areas.circles, r.value.circles, {raw.title}))
    ensures raw.shape != "poly" && raw.shape != "circle" ==> r == Success(areas)
  {
    if raw.shape == "poly" then
      FlattenUnflatten(raw.coords);
      Success(areas.(polygons := Put(areas.polygons, raw.title, Unflatten(raw.coords))))
    else if raw.shape == "circle" then
      if |raw.coords| < 2 then Failure(IndexError)
      else Success(areas.(circles := Put(areas.circles, raw.title, (raw.coords[0], raw.coords[1]))))
    else
      Success(areas)
  }

  /** Some element of shape `shape` carries the title `k`. */
  predicate Titled(raws: seq<RawArea>, shape: string, k: string) {
    exists i :: 0 <= i < |raws| && raws[i].shape == shape && raws[i].title == k
  }

  /** Element `i` has shape `shape` and no later element of that shape has
      its title: its value is the one left in the dictionary. */
  predicate LastTitled(raws: seq<RawArea>, i: nat, shape: string)
    requires i < |raws|
  {
    raws[i].shape == shape
    && forall j :: i < j < |raws| && raws[j].shape == shape ==> raws[j].title != raws[i].title
  }

  /** Every "circle" element has at least the two coordinates of a centre. */
  predicate CirclesHaveCentres(raws: seq<RawArea>) {
    forall i :: 0 <= i < |raws| && raws[i].shape == "circle" ==> |raws[i].coords| >= 2
  }

  /** `extract()` over the parsed `<area>` elements, in document order. It
      fails with IndexError exactly when a circle has fewer than two
      coordinates; otherwise the polygon names are the titles of the "poly"
      elements and each holds the vertices of the last element with that
      title, and likewise for the circle centres. */
  function Extract(raws: seq<RawArea>): (r: Result<Areas>)
    ensures r.Success? <==> CirclesHaveCentres(raws)
    ensures r.Failure? ==> r.error == IndexError
    ensures r.Success? ==> forall k :: HasKey(r.value.polygons, k) <==> Titled(raws, "poly", k)
    ensures r.Success? ==> forall i :: 0 <= i < |raws| && LastTitled(raws, i, "poly") ==>
      HasKey(r.value.polygons, raws[i].title) && Get(r.value.polygons, raws[i].title) == Unflatten(raws[i].coords)
    ensures r.Success? ==> forall k :: HasKey(r.value.circles, k) <==> Titled(raws, "circle", k)
    ensures r.Success? ==> forall i :: 0 <= i < |raws| && LastTitled(raws, i, "circle") ==>
      |raws[i].coords| >= 2 && HasKey(r.value.circles, raws[i].title)
      && Get(r.value.circles, raws[i].title) == (raws[i].coords[0], raws[i].coords[1])
  {
    var empty := Areas([], []);
    ExtractSucceeds(empty, raws);
    var r := ExtractFrom(empty, raws);
    if r.Success? then
      ExtractPolygons(empty, raws);
      ExtractCircles(empty, raws);
      r
    else r
  }

  /** The loop of `extract()` continued from `areas`. */
  function ExtractFrom(areas: Areas, raws: seq<RawArea>): (r: Result<Areas>)
    ensures r.Failure? ==> r.error == IndexError
    decreases |raws|
  {
    if raws == [] then Success(areas)
    else
      var next :- ExtractArea(areas, raws[0]);
      ExtractFrom(next, raws[1..])
  }

  /** The title and shape facts about a sequence, split into its head and the rest. */
  lemma TitledCons(raws: seq<RawArea>, shape: string)
    requires |raws| > 0
    ensures forall k :: Titled(raws, shape, k) <==>
      (raws[0].shape == shape && raws[0].title == k) || Titled(raws[1..], shape, k)
    ensures forall i :: 1 <= i < |raws| && LastTitled(raws, i, shape) ==> LastTitled(raws[1..], i - 1, shape)
    ensures LastTitled(raws, 0, shape) ==> !Titled(raws[1..], shape, raws[0].title)
    ensures CirclesHaveCentres(raws) <==>
      (raws[0].shape == "circle" ==> |raws[0].coords| >= 2) && CirclesHaveCentres(raws[1..])
  {
    forall k | Titled(raws, shape, k) && !(raws[0].shape == shape && raws[0].title == k)
      ensures Titled(raws[1..], shape, k)
    {
      var i :| 0 <= i < |raws| && raws[i].shape == shape && raws[i].title == k;
      assert raws[1..][i - 1] == raws[i];
    }
    forall k | Titled(raws[1..], shape, k)
      ensures Titled(raws, shape, k)
    {
      var i :| 0 <= i < |raws[1..]| && raws[1..][i].shape == shape && raws[1..][i].title == k;
      assert raws[i + 1] == raws[1..][i];
    }
    forall i | 1 <= i < |raws| && LastTitled(raws, i, shape)
      ensures LastTitled(raws[1..], i - 1, shape)
    {
      assert forall j :: i - 1 < j < |raws[1..]| ==> raws[1..][j] == raws[j + 1];
    }
    if LastTitled(raws, 0, shape) {
      forall i | 0 <= i < |raws[1..]| && raws[1..][i].shape == shape
        ensures raws[1..][i].title != raws[0].title
      {
        assert raws[1..][i] == raws[i + 1];
      }
    }
    if (raws[0].shape == "circle" ==> |raws[0].coords| >= 2) && CirclesHaveCentres(raws[1..]) {
      forall i | 0 < i < |raws| && raws[i].shape == "circle"
        ensures |raws[i].coords| >= 2
      {
        assert raws[1..][i - 1] == raws[i];
      }
    }
  }

  /** The loop fails exactly when some circle lacks a centre. */
  lemma {:induction false} ExtractSucceeds(areas: Areas, raws: seq<RawArea>)
    ensures ExtractFrom(areas, raws).Success? <==> CirclesHaveCentres(raws)
    decreases |raws|
  {
    if raws != [] {
      TitledCons(raws, "circle");
      var next := ExtractArea(areas, raws[0]);
      if next.Success? {
        ExtractSucceeds(next.value, raws[1..]);
      }
    }
  }

  /** The polygons after the loop: the names of `areas` and the "poly"
      titles; each title holds its last element's vertices, and every other
      name keeps its polygon from `areas`. */
  lemma {:induction false} ExtractPolygons(areas: Areas, raws: seq<RawArea>)
    requires ExtractFrom(areas, raws).Success?
    ensures var p := ExtractFrom(areas, raws).value.polygons;
      forall k :: HasKey(p, k) <==> HasKey(areas.polygons, k) || Titled(raws, "poly", k)
    ensures var p := ExtractFrom(areas, raws).value.polygons;
      forall k :: HasKey(areas.polygons, k) && !Titled(raws, "poly", k) ==> HasKey(p, k) && Get(p, k) == Get(areas.polygons, k)
    ensures var p := ExtractFrom(areas, raws).value.polygons;
      forall i :: 0 <= i < |raws| && LastTitled(raws, i, "poly") ==>
        HasKey(p, raws[i].title) && Get(p, raws[i].title) == Unflatten(raws[i].coords)
    decreases |raws|
  {
    if raws != [] {
      TitledCons(raws, "poly");
      var next := ExtractArea(areas, raws[0]).value;
      ExtractPolygons(next, raws[1..]);
      if raws[0].shape != "poly" {
        assert next.polygons == areas.polygons;
      }
    }
  }

  /** The circles after the loop, in the same terms as `ExtractPolygons`. */
  lemma {:induction false} ExtractCircles(areas: Areas, raws: seq<RawArea>)
    requires ExtractFrom(areas, raws).Success?
    ensures var c := ExtractFrom(areas, raws).value.circles;
      forall k :: HasKey(c, k) <==> HasKey(areas.circles, k) || Titled(raws, "circle", k)
    ensures var c := ExtractFrom(areas, raws).value.circles;
      forall k :: HasKey(areas.circles, k) && !Titled(raws, "circle", k) ==> HasKey(c, k) && Get(c, k) == Get(areas.circles, k)
    ensures var c := ExtractFrom(areas, raws).value.circles;
      forall i :: 0 <= i < |raws| && LastTitled(raws, i, "circle") ==>
        |raws[i].coords| >= 2 && HasKey(c, raws[i].title) && Get(c, raws[i].title) == (raws[i].coords[0], raws[i].coords[1])
    decreases |raws|
  {
    if raws != [] {
      TitledCons(raws, "circle");
      ExtractSucceeds(areas, raws);
      var next := ExtractArea(areas, raws[0]).value;
      ExtractCircles(next, raws[1..]);
      if raws[0].shape != "circle" {
        assert next.circles == areas.circles;
      }
    }
  }

  /** Every name of `names` outside `skip` has a polygon in the map. */
  predicate Drawn(polygons: Dict<seq<(int, int)>>, names: seq<string>, skip: set<string>) {
    forall n :: n in names && n !in skip ==> HasKey(polygons, n)
  }

  /** The first name outside `skip` without a polygon: looking the names up
      in order, `areas['polygons'][name]` raises KeyError on it. */
  function FirstMissing(polygons: Dict<seq<(int, int)>>, names: seq<string>, skip: set<string>): (r: Option<string>)
    ensures r.None? <==> Drawn(polygons, names, skip)
    ensures r.Some? ==> exists i :: (0 <= i < |names| && names[i] == r.value && names[i] !in skip
                                     && !HasKey(polygons, names[i]) && Drawn(polygons, names[..i], skip))
    decreases |names|
  {
    if names == [] then None
    else if names[0] !in skip && !HasKey(polygons, names[0]) then
      assert names[..0] == [];
      Some(names[0])
    else
      var r := FirstMissing(polygons, names[1..], skip);
      assert forall n :: n in names <==> n == names[0] || n in names[1..];
      if r.Some? then
        var i :| 0 <= i < |names[1..]| && names[1..][i] == r.value && names[1..][i] !in skip
          && !HasKey(polygons, names[1..][i]) && Drawn(polygons, names[1..][..i], skip);
        assert names[..i + 1] == [names[0]] + names[1..][..i];
        r
      else r
  }

  function ShapeOf(polygons: Dict<seq<(int, int)>>, name: string): Shape
    requires HasKey(polygons, name)
  {
    PolygonOf(Get(polygons, name))
  }

  predicate NoDup(s: seq<string>) {
    forall i, j :: 0 <= i < j < |s| ==> s[i] != s[j]
  }

  /** `list(set(xs + [x]))`, keeping first occurrences (the order of a
      Python set is not fixed; no property here depends on it). */
  function AddOnce(xs: seq<string>, x: string): (r: seq<string>)
    ensures NoDup(xs) ==> NoDup(r)
    ensures forall y :: y in r <==> y in xs || y == x
  {
    if x in xs then xs else xs + [x]
  }

  /** The test of truthsayer's `findIntersections`: the sector and the location
      share more than `threshold` of area. */
  predicate Overlaps(g: Shapely, polygons: Dict<seq<(int, int)>>, threshold: real, s: string, l: string) {
    HasKey(polygons, s) && HasKey(polygons, l)
    && g.area(Intersection(ShapeOf(polygons, s), ShapeOf(polygons, l))) > threshold
  }

  /** The test of arrakis' `findIntersections`: the two polygons intersect at all. */
  predicate Touches(g: Shapely, polygons: Dict<seq<(int, int)>>, s: string, l: string) {
    HasKey(polygons, s) && HasKey(polygons, l)
    && g.intersects(ShapeOf(polygons, s), ShapeOf(polygons, l))
  }

  /** `locs` lists, under each location of `locations`, exactly the sectors of
      `done` that hit it, each once, and has no key with an empty list. */
  ghost predicate HitTable(hit: (string, string) -> bool, done: seq<string>, locations: seq<string>,
                           locs: map<string, seq<string>>)
  {
    && (forall l :: l in locs ==> l in locations && NoDup(locs[l]) && |locs[l]| > 0)
    && (forall l, s :: l in locs && s in locs[l] ==> s in done && hit(s, l))
    && (forall l, s :: l in locations && s in done && hit(s, l) ==> l in locs && s in locs[l])
  }

  /** The inner loop after `j` locations: the table still holds what it
      held for `done`, may list `sector` only where it hits, and lists it
      under every hit location among the first `j`. */
  ghost predicate Recorded(hit: (string, string) -> bool, done: seq<string>, sector: string, locations: seq<string>,
                           j: nat, locs: map<string, seq<string>>)
    requires j <= |locations|
  {
    && (forall l :: l in locs ==> l in locations && NoDup(locs[l]) && |locs[l]| > 0)
    && (forall l, s :: l in locs && s in locs[l] ==> (s in done || s == sector) && hit(s, l))
    && (forall l, s :: l in locations && s in done && hit(s, l) ==> l in locs && s in locs[l])
    && (forall l :: l in locations[..j] && hit(sector, l) ==> l in locs && sector in locs[l])
  }

  /** One step of the inner loop: list `sector` under `location` if it hits;
      nothing listed before is lost. */
  function RecordHit(hit: (string, string) -> bool, sector: string, location: string,
                     locs: map<string, seq<string>>): (r: map<string, seq<string>>)
    ensures hit(sector, location) ==> location in r && sector in r[location]
    ensures forall l, s :: l in locs && s in locs[l] ==> l in r && s in r[l]
  {
    if hit(sector, location) then
      var current := if location in locs then locs[location] else [];
      locs[location := AddOnce(current, sector)]
    else locs
  }

  lemma RecordStep(hit: (string, string) -> bool, done: seq<string>, sector: string, locations: seq<string>,
                   j: nat, locs: map<string, seq<string>>)
    requires j < |locations|
    requires Recorded(hit, done, sector, locations, j, locs)
    ensures Recorded(hit, done, sector, locations, j + 1, RecordHit(hit, sector, locations[j], locs))
  {
    var location := locations[j];
    RecordLists(hit, done, sector, locations, location, locs);
    assert locations[..j + 1] == locations[..j] + [location];
  }

  /** Recording keeps the lists duplicate-free, non-empty and made of
      sectors that hit. */
  lemma RecordLists(hit: (string, string) -> bool, done: seq<string>, sector: string, locations: seq<string>,
                    location: string, locs: map<string, seq<string>>)
    requires location in locations
    requires forall l :: l in locs ==> l in locations && NoDup(locs[l]) && |locs[l]| > 0
    requires forall l, s :: l in locs && s in locs[l] ==> (s in done || s == sector) && hit(s, l)
    ensures var r := RecordHit(hit, sector, location, locs);
      forall l :: l in r ==> l in locations && NoDup(r[l]) && |r[l]| > 0
    ensures var r := RecordHit(hit, sector, location, locs);
      forall l, s :: l in r && s in r[l] ==> (s in done || s == sector) && hit(s, l)
  {
    if hit(sector, location) {
      var current := if location in locs then locs[location] else [];
      assert NoDup(current);
      assert forall s :: s in current ==> (s in done || s == sector) && hit(s, location);
    }
  }

  /** The inner loop: one sector against every location. */
  method RecordSector(done: seq<string>, sector: string, locations: seq<string>,
                      hit: (string, string) -> bool, locs: map<string, seq<string>>)
    returns (locs': map<string, seq<string>>)
    requires HitTable(hit, done, locations, locs)
    ensures HitTable(hit, done + [sector], locations, locs')
  {
    locs' := locs;
    var j := 0;
    while j < |locations|
      invariant 0 <= j <= |locations|
      invariant Recorded(hit, done, sector, locations, j, locs')
    {
      RecordStep(hit, done, sector, locations, j, locs');
      locs' := RecordHit(hit, sector, locations[j], locs');
      j := j + 1;
    }
    assert locations[..j] == locations;
    assert forall s :: s in done + [sector] <==> s in done || s == sector;
  }

  /** The nested loops shared by both `findIntersections`: for every sector and
      every location, record the sector under the location when `hit` holds.
      The table lists exactly the hitting sectors of each location, each once,
      and a location is a key exactly when some sector hits it. */
  method CollectHits(sectors: seq<string>, locations: seq<string>, hit: (string, string) -> bool)
    returns (locs: map<string, seq<string>>)
    ensures forall l :: l in locs ==> l in locations && NoDup(locs[l]) && |locs[l]| > 0
    ensures forall l, s :: l in locs && s in locs[l] ==> s in sectors && hit(s, l)
    ensures forall l, s :: l in locations && s in sectors && hit(s, l) ==> l in locs && s in locs[l]
    ensures forall l :: l in locations ==> (l in locs <==> exists s :: s in sectors && hit(s, l))
  {
    locs := map[];
    var i := 0;
    while i < |sectors|
      invariant 0 <= i <= |sectors|
      invariant HitTable(hit, sectors[..i], locations, locs)
    {
      assert sectors[..i + 1] == sectors[..i] + [sectors[i]];
      locs := RecordSector(sectors[..i], sectors[i], locations, hit, locs);
      i := i + 1;
    }
    assert sectors[..i] == sectors;
    forall l | l in locs
      ensures exists s :: s in sectors && hit(s, l)
    {
      var s := locs[l][0];
      assert s in locs[l];
      assert s in sectors && hit(s, l);
    }
  }

  /** A name outside `skip` without a polygon, after names that all have
      one, is the first missing name. */
  lemma {:induction false} FirstMissingAt(polygons: Dict<seq<(int, int)>>, names: seq<string>, skip: set<string>, i: nat)
    requires i < |names| && names[i] !in skip && !HasKey(polygons, names[i])
    requires Drawn(polygons, names[..i], skip)
    ensures FirstMissing(polygons, names, skip) == Some(names[i])
    decreases i
  {
    if i > 0 {
      assert names[0] in names[..i];
      assert names[1..][..i - 1] == names[..i][1..];
      assert forall n :: n in names[..i][1..] ==> n in names[..i];
      FirstMissingAt(polygons, names[1..], skip, i - 1);
    }
  }

  /** `findIntersections`: for each location, exactly the sectors whose
      common area with it exceeds `threshold` (400 by default). The first
      sector's polygon is looked up first, then every location's, then the
      remaining sectors'; a missing one raises KeyError. With no sectors
      nothing is looked up. */
  method FindIntersections(g: Shapely, areas: Areas, sectors: seq<string>, locations: seq<string>, threshold: real)
    returns (r: Result<map<string, seq<string>>>)
    ensures r.Success? <==>
      |sectors| == 0 || (Drawn(areas.polygons, sectors, {}) && Drawn(areas.polygons, locations, {}))
    ensures r.Failure? ==> (r.error.KeyError? && !HasKey(areas.polygons, r.error.key)
                            && (r.error.key in sectors || r.error.key in locations))
    ensures r.Failure? && HasKey(areas.polygons, sectors[0]) && !Drawn(areas.polygons, locations, {}) ==>
      r.error.key in locations
    ensures r.Success? ==> forall l :: l in r.value ==> l in locations && NoDup(r.value[l])
    ensures r.Success? ==> forall l, s :: l in r.value && s in r.value[l] ==>
      s in sectors && Overlaps(g, areas.polygons, threshold, s, l)
    ensures r.Success? ==> forall l, s :: l in locations && s in sectors && Overlaps(g, areas.polygons, threshold, s, l) ==>
      l in r.value && s in r.value[l]
    ensures r.Success? ==> forall l :: l in locations ==>
      (l in r.value <==> exists s :: s in sectors && Overlaps(g, areas.polygons, threshold, s, l))
  {
    if |sectors| > 0 {
      if !HasKey(areas.polygons, sectors[0]) {
        return Failure(KeyError(sectors[0]));
      }
      var missing := FirstMissing(areas.polygons, locations, {});
      if missing.Some? {
        return Failure(KeyError(missing.value));
      }
      missing := FirstMissing(areas.polygons, sectors, {});
      if missing.Some? {
        return Failure(KeyError(missing.value));
      }
    }
    var hit := (s, l) => Overlaps(g, areas.polygons, threshold, s, l);
    assert forall s, l :: hit(s, l) == Overlaps(g, areas.polygons, threshold, s, l);
    var locs := CollectHits(sectors, locations, hit);
    return Success(locs);
  }

  /** Whether the ordered index pair `p` of `locations` is reported as neighbours. */
  predicate Neighbours(g: Shapely, polygons: Dict<seq<(int, int)>>, locations: seq<string>, skip: set<string>, p: (nat, nat))
    requires p.0 < |locations| && p.1 < |locations|
    requires Drawn(polygons, locations, skip)
  {
    && locations[p.0] !in skip
    && locations[p.1] !in skip
    && g.intersects(ShapeOf(polygons, locations[p.0]), ShapeOf(polygons, locations[p.1]))
  }

  /** The index pairs the nested loops of `findNeighboring` append, in loop order. */
  function KeepNeighbours(g: Shapely, polygons: Dict<seq<(int, int)>>, locations: seq<string>, skip: set<string>,
                          ps: seq<(nat, nat)>): (r: seq<(nat, nat)>)
    requires forall p :: p in ps ==> p.0 < |locations| && p.1 < |locations|
    requires Drawn(polygons, locations, skip)
    ensures forall p :: p in r <==> p in ps && Neighbours(g, polygons, locations, skip, p)
    ensures (forall a, b :: 0 <= a < b < |ps| ==> LexLess(ps[a], ps[b])) ==>
      forall a, b :: 0 <= a < b < |r| ==> LexLess(r[a], r[b])
    decreases |ps|
  {
    if ps == [] then []
    else
      var rest := KeepNeighbours(g, polygons, locations, skip, ps[1..]);
      assert forall p :: p in ps[1..] ==> p in ps;
      assert forall a :: 0 <= a < |ps[1..]| ==> ps[1..][a] == ps[a + 1];
      assert forall a :: 0 <= a < |rest| ==> rest[a] in ps[1..];
      if Neighbours(g, polygons, locations, skip, ps[0]) then [ps[0]] + rest else rest
  }

  /** The index pairs behind `findNeighboring`: exactly the pairs i < j of
      non-skipped, intersecting locations, strictly increasing in (i, j). */
  function NeighbourIndices(g: Shapely, polygons: Dict<seq<(int, int)>>, locations: seq<string>, skip: set<string>)
    : (r: seq<(nat, nat)>)
    requires Drawn(polygons, locations, skip)
    ensures forall i: nat, j: nat :: (i, j) in r <==> i < j < |locations| && Neighbours(g, polygons, locations, skip, (i, j))
    ensures forall a, b :: 0 <= a < b < |r| ==> LexLess(r[a], r[b])
  {
    var n := |locations|;
    PairsFromExact(0, n);
    KeepNeighbours(g, polygons, locations, skip, Pairs(n))
  }

  /** The name pairs of `NeighbourIndices`, in the same order. */
  function NeighbourPairs(g: Shapely, areas: Areas, locations: seq<string>, skip: set<string>)
    : (r: seq<(string, string)>)
    requires Drawn(areas.polygons, locations, skip)
    ensures var idx := NeighbourIndices(g, areas.polygons, locations, skip);
      |r| == |idx| && forall a :: 0 <= a < |r| ==>
        idx[a].0 < idx[a].1 < |locations| && r[a] == (locations[idx[a].0], locations[idx[a].1])
        && r[a].0 !in skip && r[a].1 !in skip
        && g.intersects(ShapeOf(areas.polygons, r[a].0), ShapeOf(areas.polygons, r[a].1))
  {
    var idx := NeighbourIndices(g, areas.polygons, locations, skip);
    assert forall a :: 0 <= a < |idx| ==> idx[a] in idx;
    seq(|idx|, a requires 0 <= a < |idx| => (locations[idx[a].0], locations[idx[a].1]))
  }

  /** `findNeighboring`: the pairs of `NeighbourPairs`. The polygons are
      looked up in index order, so the first location outside `skip` without
      a polygon raises KeyError. */
  function FindNeighboring(g: Shapely, areas: Areas, locations: seq<string>, skip: set<string>)
    : (r: Result<seq<(string, string)>>)
    ensures r.Success? <==> Drawn(areas.polygons, locations, skip)
    ensures r.Failure? ==> r.error == KeyError(FirstMissing(areas.polygons, locations, skip).value)
    ensures r.Success? ==> var idx := NeighbourIndices(g, areas.polygons, locations, skip);
      |r.value| == |idx| && forall a :: 0 <= a < |r.value| ==>
        idx[a].0 < idx[a].1 < |locations| && r.value[a] == (locations[idx[a].0], locations[idx[a].1])
        && r.value[a].0 !in skip && r.value[a].1 !in skip
        && g.intersects(ShapeOf(areas.polygons, r.value[a].0), ShapeOf(areas.polygons, r.value[a].1))
  {
    match FirstMissing(areas.polygons, locations, skip)
    case Some(name) => Failure(KeyError(name))
    case None => Success(NeighbourPairs(g, areas, locations, skip))
  }

  /** `findCenters`: the centroid of every location not skipped; the first
      location outside `skip` without a polygon raises KeyError. */
  method FindCenters(g: Shapely, areas: Areas, locations: seq<string>, skip: set<string>)
    returns (r: Result<map<string, Point>>)
    ensures r.Success? <==> Drawn(areas.polygons, locations, skip)
    ensures r.Failure? ==> r.error == KeyError(FirstMissing(areas.polygons, locations, skip).value)
    ensures r.Success? ==> forall l :: l in r.value <==> l in locations && l !in skip
    ensures r.Success? ==> forall l :: l in r.value ==> r.value[l] == g.centroid(ShapeOf(areas.polygons, l))
  {
    var centers := map[];
    var i := 0;
    while i < |locations|
      invariant 0 <= i <= |locations|
      invariant Drawn(areas.polygons, locations[..i], skip)
      invariant forall l :: l in centers <==> l in locations[..i] && l !in skip
      invariant forall l :: l in centers ==> HasKey(areas.polygons, l) && centers[l] == g.centroid(ShapeOf(areas.polygons, l))
    {
      var location := locations[i];
      assert locations[..i + 1] == locations[..i] + [location];
      if location !in skip {
        if !HasKey(areas.polygons, location) {
          FirstMissingAt(areas.polygons, locations, skip, i);
          return Failure(KeyError(location));
        }
        centers := centers[location := g.centroid(ShapeOf(areas.polygons, location))];
      }
      i := i + 1;
    }
    assert locations[..i] == locations;
    return Success(centers);
  }

  /** The six player-seat circles `player_1` .. `player_6`. */
  const PlayerKeys: seq<string> := ["player_1", "player_2", "player_3", "player_4", "player_5", "player_6"]

  /** Looks up the seats in order; a missing seat raises KeyError. */
  function Seats(circles: Dict<(int, int)>, keys: seq<string>): (r: Result<seq<Point>>)
    ensures r.Success? <==> forall i :: 0 <= i < |keys| ==> HasKey(circles, keys[i])
    ensures r.Success? ==> |r.value| == |keys|
    ensures r.Success? ==> forall i :: 0 <= i < |keys| ==> r.value[i] == FromPixels(Get(circles, keys[i]))
    decreases |keys|
  {
    if keys == [] then Success([])
    else
      var first :- Find(circles, keys[0]);
      var rest :- Seats(circles, keys[1..]);
      Success([FromPixels(first)] + rest)
  }

  function SumX(ps: seq<Point>): real {
    if ps == [] then 0.0 else ps[0].x + SumX(ps[1..])
  }

  function SumY(ps: seq<Point>): real {
    if ps == [] then 0.0 else ps[0].y + SumY(ps[1..])
  }

  /** Sum of the signed offsets of the points from `c`. */
  function Offsets(ps: seq<Point>, c: Point): Point {
    if ps == [] then Point(0.0, 0.0) else Plus(Point(ps[0].x - c.x, ps[0].y - c.y), Offsets(ps[1..], c))
  }

  /** Sum of the distances of the points from `c`. */
  function SumDistances(m: Maths, c: Point, ps: seq<Point>): (r: real)
    ensures ValidSqrt(m) ==> r >= 0.0
  {
    if ps == [] then 0.0 else Distance(m, c, ps[0]) + SumDistances(m, c, ps[1..])
  }

  lemma {:induction false} OffsetsFromSums(ps: seq<Point>, c: Point)
    ensures Offsets(ps, c) == Point(SumX(ps) - |ps| as real * c.x, SumY(ps) - |ps| as real * c.y)
  {
    if ps != [] {
      OffsetsFromSums(ps[1..], c);
    }
  }

  /** The storm circle: centre and radius. */
  datatype StormCircle = StormCircle(center: Point, radius: real)

  /** The circle through the seats: the mean centre (the seats' offsets from
      it cancel) and the mean distance from it. */
  function StormOf(m: Maths, seats: seq<Point>): (r: StormCircle)
    requires |seats| == 6
    ensures Offsets(seats, r.center) == Point(0.0, 0.0)
    ensures 6.0 * r.radius == SumDistances(m, r.center, seats)
    ensures ValidSqrt(m) ==> r.radius >= 0.0
  {
    var c := Point(SumX(seats) / 6.0, SumY(seats) / 6.0);
    OffsetsFromSums(seats, c);
    StormCircle(c, SumDistances(m, c, seats) / 6.0)
  }

  /** `findStorm`: fails with KeyError unless all six seats are circles of the map. */
  function FindStorm(m: Maths, areas: Areas): (r: Result<StormCircle>)
    ensures r.Success? <==> forall i :: 0 <= i < |PlayerKeys| ==> HasKey(areas.circles, PlayerKeys[i])
    ensures r.Success? ==> r.value == StormOf(m, Seats(areas.circles, PlayerKeys).value)
  {
    var seats :- Seats(areas.circles, PlayerKeys);
    Success(StormOf(m, seats))
  }

  // ---------------------------------------------------------------------
  // The rejection sampler
  // ---------------------------------------------------------------------

  /** `Point(random.uniform(minx, maxx), random.uniform(miny, maxy))` for the
      two `random.random()` draws `u`. */
  function UniformPoint(b: Bounds, u: (real, real)): Point {
    Point(b.minX + (b.maxX - b.minX) * u.0, b.minY + (b.maxY - b.minY) * u.1)
  }

  predicate InBounds(b: Bounds, p: Point) {
    b.minX <= p.x <= b.maxX && b.minY <= p.y <= b.maxY
  }

  /** Draws of `random.random()`, which lie in [0, 1). */
  predicate UnitDraws(draws: seq<(real, real)>) {
    forall i :: 0 <= i < |draws| ==> 0.0 <= draws[i].0 < 1.0 && 0.0 <= draws[i].1 < 1.0
  }

  /** Scaling a non-negative length by a unit draw stays within [0, length]. */
  lemma ScaleWithin(w: real, u: real)
    ensures w >= 0.0 && 0.0 <= u <= 1.0 ==> 0.0 <= w * u <= w
  {
    if w >= 0.0 && 0.0 <= u <= 1.0 {
      assert w * (1.0 - u) >= 0.0;
    }
  }

  /** A candidate drawn from unit draws lies in the (ordered) box. */
  lemma UniformInBounds(b: Bounds, u: (real, real))
    ensures b.minX <= b.maxX && b.minY <= b.maxY && 0.0 <= u.0 < 1.0 && 0.0 <= u.1 < 1.0 ==>
      InBounds(b, UniformPoint(b, u))
  {
    var w, h := b.maxX - b.minX, b.maxY - b.minY;
    ScaleWithin(w, u.0);
    ScaleWithin(h, u.1);
    assert UniformPoint(b, u) == Point(b.minX + w * u.0, b.minY + h * u.1);
  }

  /** Reference definition: the candidate points that pass the containment test, in draw order. */
  function Accepted(g: Shapely, polygon: Shape, draws: seq<(real, real)>): (r: seq<Point>)
    ensures forall i :: 0 <= i < |r| ==> g.contains(polygon, r[i])
    ensures Valid(g) && UnitDraws(draws) ==> forall i :: 0 <= i < |r| ==> InBounds(g.bounds(polygon), r[i])
  {
    if draws == [] then []
    else
      var p := UniformPoint(g.bounds(polygon), draws[0]);
      var rest := Accepted(g, polygon, draws[1..]);
      UniformInBounds(g.bounds(polygon), draws[0]);
      if g.contains(polygon, p) then [p] + rest else rest
  }

  /** The `while len(points) < number` loop over a finite stream of draws;
      None when the stream ends before the loop does. */
  function Collect(g: Shapely, number: int, polygon: Shape, draws: seq<(real, real)>, points: seq<Point>)
    : Option<seq<Point>>
    decreases |draws|
  {
    if |points| >= number then Some(points)
    else if draws == [] then None
    else
      var p := UniformPoint(g.bounds(polygon), draws[0]);
      Collect(g, number, polygon, draws[1..], if g.contains(polygon, p) then points + [p] else points)
  }

  /** The loop keeps the first accepted draws until it holds `number` points. */
  lemma {:induction false} CollectTakesFirstAccepted(g: Shapely, number: int, polygon: Shape,
                                                     draws: seq<(real, real)>, points: seq<Point>)
    requires |points| <= number
    ensures var acc := Accepted(g, polygon, draws);
      Collect(g, number, polygon, draws, points) ==
        if |points| + |acc| >= number then Some((points + acc)[..number]) else None
    decreases |draws|
  {
    var acc := Accepted(g, polygon, draws);
    if |points| == number {
      assert (points + acc)[..number] == points;
    } else if draws != [] {
      var p := UniformPoint(g.bounds(polygon), draws[0]);
      var next := if g.contains(polygon, p) then points + [p] else points;
      CollectTakesFirstAccepted(g, number, polygon, draws[1..], next);
      assert next + Accepted(g, polygon, draws[1..]) == points + acc;
    }
  }

  /** What `generate_random` does with a finite stream of draws. */
  datatype Sample =
    | Returned(points: seq<Point>)
    | Raised(error: Error)
    | StillDrawing           // the stream ended while the loop was still looking

  /** `generate_random(number, polygon, centroid)`. The loop accepts the first
      `number` candidates inside the polygon. When `number <= 0` nothing is
      drawn and the fallback reads the misspelled `polygon.centrod`, which
      raises AttributeError. The `centroid` flag is never read. */
  function GenerateRandom(g: Shapely, number: int, polygon: Shape, centroid: bool, draws: seq<(real, real)>)
    : (r: Sample)
    ensures number <= 0 ==> r == Raised(AttributeError("centrod"))
    ensures number >= 1 ==> !r.Raised?
    ensures r.Returned? ==> number >= 1 && |r.points| == number
    ensures r.Returned? ==> |Accepted(g, polygon, draws)| >= number && r.points == Accepted(g, polygon, draws)[..number]
    ensures r.Returned? ==> forall i :: 0 <= i < |r.points| ==> g.contains(polygon, r.points[i])
    ensures r.Returned? && Valid(g) && UnitDraws(draws) ==>
      forall i :: 0 <= i < |r.points| ==> InBounds(g.bounds(polygon), r.points[i])
    ensures number >= 1 ==> (r.Returned? <==> |Accepted(g, polygon, draws)| >= number)
  {
    if number <= 0 then
      Raised(AttributeError("centrod"))
    else
      CollectTakesFirstAccepted(g, number, polygon, draws, []);
      match Collect(g, number, polygon, draws, [])
      case None => StillDrawing
      case Some(points) => if |points| == 0 then Raised(AttributeError("centrod")) else Returned(points)
  }

  /** The `centroid` argument has no effect. */
  lemma CentroidFlagIgnored(g: Shapely, number: int, polygon: Shape, draws: seq<(real, real)>)
    ensures GenerateRandom(g, number, polygon, true, draws) == GenerateRandom(g, number, polygon, false, draws)
  {
  }
}

=== FILE: process.dfy ===
/** `RenderingProcessor.process` of truthsayer/processor.py, end to end:
  the pending-token scan, the decorations, the solver calls, the removal
  scan and the player texts, each phase working on the drawings the
  previous one left.
 */
module Process {
  import opened Wrappers
  import opened Dicts
  import opened Geometry
  import opened Processor
  import opened Pending
  import opened Decorations
  import opened Dispatch
  import opened Placement
  import opened Removal

  /** A drawing kept by the removal scan is kept as it was, so the tokens
      drawn in it stay drawn. */
  lemma KeptRecords(vis: Dict<VisualValue>, vis': Dict<VisualValue>, a: string, r: string, t: string)
    requires HasKey(vis', a) && HasKey(vis, a) && Get(vis', a) == Get(vis, a)
    requires HasRecord(vis, a, r, t)
    ensures HasRecord(vis', a, r, t)
  {
  }

  /** What the removal scan leaves: the drawings not classified Drop, as
      they were. */
  ghost predicate Swept(cfg: Config, areas: Dict<AreaValue>, vis: Dict<VisualValue>, vis': Dict<VisualValue>) {
    && (forall k :: HasKey(vis', k) <==> HasKey(vis, k) && Classify(cfg, areas, Refs(areas), k) != Drop)
    && (forall k :: HasKey(vis', k) ==> Get(vis', k) == Get(vis, k))
  }

  /** Every queued token is handed to a solver call, drawn, and kept by
      the removal scan: its area is present, so it is not stale. */
  lemma QueuedDrawn(cfg: Config, st: GameState, tp: ToPlace, vis3: Dict<VisualValue>, vis4: Dict<VisualValue>)
    requires QueueAfter(cfg, st, cfg.managed, tp)
    requires forall x :: x in JobsEntries(Jobs(tp)) ==> HasRecord(vis3, x.0, x.1, x.2)
    requires Swept(cfg, st.areas, vis3, vis4)
    ensures forall a, rg, t :: Queued(cfg, st, a, rg, t) ==> HasRecord(vis4, a, rg, t)
  {
    JobsPlaceQueued(cfg, st, tp);
    forall a, rg, t | Queued(cfg, st, a, rg, t)
      ensures HasRecord(vis4, a, rg, t)
    {
      assert (a, rg, t, TokenAmount(st.areas, a, rg, t)) in JobsEntries(Jobs(tp));
      DropExactly(cfg, st.areas, a);
      KeptRecords(vis3, vis4, a, rg, t);
    }
  }

  /** The removal scan deletes every stale drawing. */
  lemma StaleGone(cfg: Config, st: GameState, vis3: Dict<VisualValue>, vis4: Dict<VisualValue>)
    requires Swept(cfg, st.areas, vis3, vis4)
    ensures forall k :: Stale(cfg, st.areas, k) ==> !HasKey(vis4, k)
  {
    forall k | Stale(cfg, st.areas, k)
      ensures !HasKey(vis4, k)
    {
      DropExactly(cfg, st.areas, k);
    }
  }

  /** A drawing no phase writes passes through the round unchanged. */
  lemma Untouched(cfg: Config, st: GameState, tp: ToPlace,
                  vis1: Dict<VisualValue>, vis2: Dict<VisualValue>, vis3: Dict<VisualValue>, vis4: Dict<VisualValue>, k: string)
    requires VisualAfter(cfg, st, cfg.managed, vis1)
    requires QueueAfter(cfg, st, cfg.managed, tp)
    requires AgreeOutside(vis1, vis2, DecoratedKeys(st))
    requires AgreeOutside(vis2, vis3, set j | 0 <= j < |Jobs(tp)| :: Jobs(tp)[j].area)
    requires Swept(cfg, st.areas, vis3, vis4)
    requires HasKey(st.visual, k) && k !in cfg.managed && k !in DecoratedKeys(st) && !Stale(cfg, st.areas, k)
    ensures HasKey(vis4, k) && Get(vis4, k) == Get(st.visual, k)
  {
    JobAreasManaged(cfg, st, tp);
    DropExactly(cfg, st.areas, k);
  }

  /** A key the phases after the decorations may rewrite or delete: a
      managed area, which the solver calls write, or a key the removal scan
      drops. */
  predicate Rewritten(cfg: Config, st: GameState, k: string) {
    k in cfg.managed || Classify(cfg, st.areas, Refs(st.areas), k) == Drop
  }

  /** What the decorations draw, at every key that no later phase rewrites:
      the storm marker, the seats' symbols, the wheel dials and leaders, and
      the wheel players' labels. */
  ghost predicate DecorationsKept(m: Maths, cfg: Config, st: GameState, v: Dict<VisualValue>) {
    && ((HasKey(st.areas, "storm") && Get(st.areas, "storm").Number? && !HasKey(st.factions, "storm")
         && !Rewritten(cfg, st, "storm") && StormPosition(m, cfg, Get(st.areas, "storm").number).Success?) ==>
        Shows(v, "storm", StormMark(StormPosition(m, cfg, Get(st.areas, "storm").number).value)))
    && (forall a :: (HasKey(st.factions, a) && a !in WheelKeys && a !in PlayerLabelKeys && !Rewritten(cfg, st, a)
                    && FactionFile(cfg, Get(st.factions, a)).Success?) ==>
        Shows(v, a, File(FactionFile(cfg, Get(st.factions, a)).value)))
    && (forall i :: 0 <= i < 2 && !Rewritten(cfg, st, WheelValues[i]) ==> ValueShown(st.areas, v, WheelValues[i]))
    && (forall i :: 0 <= i < 2 && !Rewritten(cfg, st, WheelLeaders[i]) ==> LeaderShown(cfg, st.areas, v, WheelLeaders[i]))
    && (forall i :: (0 <= i < 2 && !Rewritten(cfg, st, WheelPlayers[i] + "_faction")
                    && !Rewritten(cfg, st, WheelPlayers[i] + "_name")) ==> PlayerShown(cfg, st, v, WheelPlayers[i]))
  }

  /** The solver calls write only managed areas and the removal scan
      deletes only what it drops, so every other drawing passes from the
      decorations to the end of the round unchanged. */
  lemma LaterPhasesKeep(cfg: Config, st: GameState, tp: ToPlace,
                        vis2: Dict<VisualValue>, vis3: Dict<VisualValue>, vis4: Dict<VisualValue>)
    requires QueueAfter(cfg, st, cfg.managed, tp)
    requires AgreeOutside(vis2, vis3, set j | 0 <= j < |Jobs(tp)| :: Jobs(tp)[j].area)
    requires Swept(cfg, st.areas, vis3, vis4)
    ensures forall k :: !Rewritten(cfg, st, k) && HasKey(vis2, k) ==> HasKey(vis4, k) && Get(vis4, k) == Get(vis2, k)
  {
    JobAreasManaged(cfg, st, tp);
  }

  /** What `Decorate` shows survives at every key no later phase rewrites. */
  lemma DecorationsSurvive(m: Maths, cfg: Config, st: GameState, vis2: Dict<VisualValue>, vis4: Dict<VisualValue>)
    requires StormOk(cfg, st.areas)
    requires HasKey(st.areas, "storm") && !HasKey(st.factions, "storm") ==>
      Shows(vis2, "storm", StormMark(StormPosition(m, cfg, Get(st.areas, "storm").number).value))
    requires forall a :: HasKey(st.factions, a) ==> FactionFile(cfg, Get(st.factions, a)).Success?
    requires forall a :: HasKey(st.factions, a) && a !in WheelKeys && a !in PlayerLabelKeys ==>
      Shows(vis2, a, File(FactionFile(cfg, Get(st.factions, a)).value))
    requires WheelsShown(cfg, st.areas, vis2) && PlayersShown(cfg, st, vis2)
    requires forall k :: !Rewritten(cfg, st, k) && HasKey(vis2, k) ==> HasKey(vis4, k) && Get(vis4, k) == Get(vis2, k)
    ensures DecorationsKept(m, cfg, st, vis4)
  {
    forall a | HasKey(st.factions, a) && a !in WheelKeys && a !in PlayerLabelKeys && !Rewritten(cfg, st, a)
      ensures Shows(vis4, a, File(FactionFile(cfg, Get(st.factions, a)).value))
    {
    }
    forall i | 0 <= i < 2 && !Rewritten(cfg, st, WheelValues[i])
      ensures ValueShown(st.areas, vis4, WheelValues[i])
    {
      assert ValueShown(st.areas, vis2, WheelValues[i]);
    }
    forall i | 0 <= i < 2 && !Rewritten(cfg, st, WheelLeaders[i])
      ensures LeaderShown(cfg, st.areas, vis4, WheelLeaders[i])
    {
      assert LeaderShown(cfg, st.areas, vis2, WheelLeaders[i]);
    }
    forall i | 0 <= i < 2 && !Rewritten(cfg, st, WheelPlayers[i] + "_faction") && !Rewritten(cfg, st, WheelPlayers[i] + "_name")
      ensures PlayerShown(cfg, st, vis4, WheelPlayers[i])
    {
      assert PlayerShown(cfg, st, vis2, WheelPlayers[i]);
    }
  }

  /** One round of rendering. On success the areas, factions and user
      names are as they were; every queued token is drawn; every stale
      drawing is gone; a drawing outside the managed areas that no phase
      writes and that is not stale is untouched; and every player has its
      text. A managed area the scan cannot walk makes the round fail. */
  method Render(m: Maths, solvers: Solvers, cfg: Config, st: GameState) returns (r: Result<GameState>)
    requires forall i, j :: 0 <= i < j < |cfg.managed| ==> cfg.managed[i] != cfg.managed[j]
    requires WellFormedAreas(st.areas)
    requires DistinctKeys(st.factions)
    ensures !(forall a :: Scanned(cfg, st, a) ==> Scannable(st, a)) ==> r.Failure?
    ensures r.Success? ==> r.value.areas == st.areas && r.value.factions == st.factions && r.value.usernames == st.usernames
    ensures r.Success? ==> forall a, rg, t :: Queued(cfg, st, a, rg, t) ==> HasRecord(r.value.visual, a, rg, t)
    ensures r.Success? ==> forall k :: Stale(cfg, st.areas, k) ==> !HasKey(r.value.visual, k)
    ensures r.Success? ==> forall k :: HasKey(st.visual, k) && k !in cfg.managed && k !in DecoratedKeys(st)
                                       && !Stale(cfg, st.areas, k) ==>
      HasKey(r.value.visual, k) && Get(r.value.visual, k) == Get(st.visual, k)
    ensures r.Success? ==> forall p :: HasKey(st.factions, p) ==>
      p in st.usernames && Get(st.factions, p) in cfg.factionNames
      && HasKey(r.value.texts, p) && Get(r.value.texts, p) == PlayerText(st.usernames[p], cfg.factionNames[Get(st.factions, p)])
    ensures r.Success? ==> DecorationsKept(m, cfg, st, r.value.visual)
  {
    var scanned :- ScanPending(cfg, st);
    var (vis1, tp) := scanned;
    var decorated :- Decorate(m, cfg, st, vis1);
    var (vis2, refs) := decorated;
    var jobs := Jobs(tp);
    JobsPlaceQueued(cfg, st, tp);
    var vis3 :- PlaceAll(solvers, cfg, vis2, jobs);
    var vis4 :- Sweep(cfg, st.areas, refs, vis3);
    var texts :- WriteTexts(cfg, st);
    assert Swept(cfg, st.areas, vis3, vis4);
    QueuedDrawn(cfg, st, tp, vis3, vis4);
    StaleGone(cfg, st, vis3, vis4);
    LaterPhasesKeep(cfg, st, tp, vis2, vis3, vis4);
    DecorationsSurvive(m, cfg, st, vis2, vis4);
    forall k | HasKey(st.visual, k) && k !in cfg.managed && k !in DecoratedKeys(st) && !Stale(cfg, st.areas, k)
      ensures HasKey(vis4, k) && Get(vis4, k) == Get(st.visual, k)
    {
      Untouched(cfg, st, tp, vis1, vis2, vis3, vis4, k);
    }
    return Success(st.(visual := vis4, texts := texts));
  }
}

=== FILE: processor.dfy ===
/** The game state and configuration that truthsayer/processor.py works on,
  and its small arithmetic helpers.

  The JSON game state is a tree of dictionaries; the model types each level
  the processor reads. Dictionaries the processor iterates keep their order
  (`Dicts.Dict`); those it only looks up are maps. The configuration file is
  read once into `Config`.
 */
module Processor {
  import opened Wrappers
  import opened Dicts
  import opened Geometry

  /** `game_state['areas'][area][region]`: a dict of token amounts, or some
      other value, which the processor skips. */
  datatype RegionValue = Tokens(amounts: Dict<int>) | NotTokens

  /** `game_state['areas'][area]`: regions for a board area, a number (the
      storm position, a wheel value, a spice count) or a name (a wheel's
      leader or player). */
  datatype AreaValue = Regions(regions: Dict<RegionValue>) | Number(number: real) | Name(name: string)

  /** A placed token, `{'token', 'type', 'x', 'y', 'c'}`. */
  datatype TokenRecord = TokenRecord(token: string, kind: Option<string>, x: real, y: real, c: int)

  /** The storm marker, `{'token', 'x', 'y', 's', 'a'}`. */
  datatype StormObject = StormObject(token: string, x: real, y: real, s: real, a: real)

  /** The keys of the storm marker's dict, in insertion order. */
  const StormFields: seq<string> := ["token", "x", "y", "s", "a"]

  /** `game_state['visual'][key]`. */
  datatype VisualValue =
    | Placed(regions: Dict<Dict<TokenRecord>>)   // area -> region -> token -> record
    | Copied(value: AreaValue)                   // a spice point area's value
    | StormMark(storm: StormObject)
    | File(path: string)                         // a faction symbol or a wheel leader
    | WheelAngle(angle: real)
    | Label(text: string)                        // a wheel player's faction or name

  /** The parts of the game state the processor reads and writes. `factions`
      maps player areas to faction keys (`meta['factions']`), `texts` is
      `meta['texts']['usernames']`. */
  datatype GameState = GameState(
    areas: Dict<AreaValue>,
    visual: Dict<VisualValue>,
    factions: Dict<string>,
    usernames: map<string, string>,
    texts: Dict<string>)

  /** What `ConfigManager` reads from the game configuration. `managed` is
      `getAreas()`, the distinct circle and polygon names. */
  datatype Config = Config(
    managed: seq<string>,
    leaders: set<string>,
    troops: set<string>,
    leaderDiameter: real,
    troopDiameter: real,
    pointAreas: set<string>,
    playerAreas: set<string>,
    spiceAreas: set<string>,
    polygons: map<string, seq<(int, int)>>,
    center: Point,
    centerRadius: real,
    files: map<string, string>,
    factionSymbols: map<string, string>,
    factionNames: map<string, string>)

  /** `getRadius(element)`: half the leader diameter for a leader, else half the
      troop diameter for a troop; anything else divides `None` by 2. */
  function Radius(cfg: Config, element: string): (r: Result<real>)
    ensures r.Success? <==> element in cfg.leaders || element in cfg.troops
    ensures element in cfg.leaders ==> r == Success(cfg.leaderDiameter / 2.0)
    ensures element !in cfg.leaders && element in cfg.troops ==> r == Success(cfg.troopDiameter / 2.0)
  {
    if element in cfg.leaders then Success(cfg.leaderDiameter / 2.0)
    else if element in cfg.troops then Success(cfg.troopDiameter / 2.0)
    else Failure(TypeError("unsupported operand type(s) for /: 'NoneType' and 'int'"))
  }

  /** `getCenter()`: the map centre, with the configured radius plus 7. */
  function Center(cfg: Config): (r: (Point, real))
    ensures r.0 == cfg.center && r.1 - cfg.centerRadius == 7.0
  {
    (cfg.center, cfg.centerRadius + 7.0)
  }

  /** `calculateStormPosition(position)`: the storm marker sits on the circle
      of `Center` at the angle of the position (20 degrees per sector,
      clockwise), half-scaled and turned by that angle less 90 degrees. */
  function StormPosition(m: Maths, cfg: Config, position: real): (r: Result<StormObject>)
    ensures r.Success? <==> "storm" in cfg.files
    ensures r.Success? ==> r.value.token == cfg.files["storm"] && r.value.s == 0.5
    ensures r.Success? ==> r.value.a == (position - 6.5) * 20.0 - 90.0
    ensures r.Success? && ValidTrig(m) ==>
      SqDist(Point(r.value.x, r.value.y), cfg.center) == Square(cfg.centerRadius + 7.0)
  {
    var (c, radius) := Center(cfg);
    var angle := (position - 6.5) * 360.0 / 18.0;
    var angleRot := angle - 90.0;
    var angleRad := 2.0 * m.pi * (-angle) / 360.0;
    var x := c.x + m.cos(angleRad) * radius;
    var y := c.y + m.sin(angleRad) * radius;
    assert Square(x - c.x) + Square(y - c.y)
        == (m.cos(angleRad) * m.cos(angleRad) + m.sin(angleRad) * m.sin(angleRad)) * (radius * radius);
    if "storm" in cfg.files then Success(StormObject(cfg.files["storm"], x, y, 0.5, angleRot))
    else Failure(KeyError("storm"))
  }

  /** `calculateWheel(value)`: the dial angle of a battle wheel value. */
  function Wheel(value: real): (r: real)
    ensures r == 0.0 <==> value == -1.25
    ensures value > -1.25 ==> r > 0.0
  {
    360.0 * (value + 1.25) / 21.0
  }

  /** The dial turns strictly with the value, 360/21 degrees per unit. */
  lemma WheelStrictlyIncreasing(v: real, w: real)
    requires v < w
    ensures Wheel(v) < Wheel(w)
    ensures Wheel(w) - Wheel(v) == (w - v) * 360.0 / 21.0
  {
  }

  /** The `'type'` label `placeSingleToken` writes: the troop check runs last
      and so wins. */
  function SingleKind(cfg: Config, name: string): (r: Option<string>)
    ensures name in cfg.troops ==> r == Some("troop_token")
    ensures name !in cfg.troops && name in cfg.leaders ==> r == Some("leader")
    ensures name !in cfg.troops && name !in cfg.leaders ==> r == None
  {
    var kind := if name in cfg.leaders then Some("leader") else None;
    if name in cfg.troops then Some("troop_token") else kind
  }

  /** The `'type'` label `placeMultipleTokens` writes: leaders are checked first. */
  function MultiKind(cfg: Config, name: string): (r: Option<string>)
    ensures name in cfg.leaders ==> r == Some("leader_token")
    ensures name !in cfg.leaders && name in cfg.troops ==> r == Some("troop_token")
    ensures name !in cfg.leaders && name !in cfg.troops ==> r == None
  {
    if name in cfg.leaders then Some("leader_token")
    else if name in cfg.troops then Some("troop_token")
    else None
  }

  /** A token that is both a leader and a troop is labelled differently by the
      two placement paths. */
  lemma LabelsDisagreeOnDualTokens(cfg: Config, name: string)
    requires name in cfg.leaders && name in cfg.troops
    ensures SingleKind(cfg, name) == Some("troop_token")
    ensures MultiKind(cfg, name) == Some("leader_token")
  {
  }
}

=== FILE: removal.dfy ===
/** The last two phases of `RenderingProcessor.process` in
  truthsayer/processor.py: which drawings are deleted, and the player texts.

  The removal scan walks the keys of `visual`. Battle cards are kept; point
  areas (other than player seats), the storm and the wheel dials and leaders
  are deleted when `areas` no longer holds them; a wheel player's label is
  deleted when its wheel's player is gone. Every other drawing is walked
  token by token, but walking a dict or a string yields strings, which the
  loop skips, so no token is ever deleted.
 */
module Removal {
  import opened Wrappers
  import opened Dicts
  import opened Processor
  import opened Decorations

  const WheelCards: seq<string> := ["wheel_attacker_cards", "wheel_defender_cards"]

  /** What the scan decides for one key of `visual`. */
  datatype Verdict = Keep | Drop | Walk

  function Classify(cfg: Config, areas: Dict<AreaValue>, refs: map<string, string>, key: string): (v: Verdict)
    ensures key in WheelCards ==> v == Keep
    ensures v == Walk <==>
      key !in WheelCards && key !in cfg.pointAreas && key != "storm" && key !in WheelValues + WheelLeaders && key !in refs
    ensures key !in WheelCards && key in cfg.pointAreas ==>
      (v == Drop <==> key !in cfg.playerAreas && !HasKey(areas, key))
    ensures key !in WheelCards && key !in cfg.pointAreas && (key == "storm" || key in WheelValues + WheelLeaders) ==>
      (v == Drop <==> !HasKey(areas, key))
    ensures (key !in WheelCards && key !in cfg.pointAreas && key != "storm" && key !in WheelValues + WheelLeaders
             && key in refs) ==> (v == Drop <==> !HasKey(areas, refs[key]))
  {
    if key in WheelCards then Keep
    else if key in cfg.pointAreas then
      if key in cfg.playerAreas then Keep
      else if !HasKey(areas, key) then Drop
      else Keep
    else if key == "storm" then
      if !HasKey(areas, "storm") then Drop else Keep
    else if key in WheelValues + WheelLeaders then
      if !HasKey(areas, key) then Drop else Keep
    else if key in refs then
      if !HasKey(areas, refs[key]) then Drop else Keep
    else Walk
  }

  /** What `for token_object in visual[area]` yields: a string, or (in a
      form the game state never holds) an object naming a region and a
      token. */
  datatype Item = Text(text: string) | Object(region: string, token: string)

  /** Iterating a drawing: a dict yields its keys, a string its characters,
      and a number cannot be iterated. */
  function Iterate(v: VisualValue): (r: Result<seq<Item>>)
    ensures r.Failure? <==> v.WheelAngle? || (v.Copied? && v.value.Number?)
    ensures r.Failure? ==> r.error.TypeError?
  {
    match v
    case Placed(regions) => Success(TextsOf(Keys(regions)))
    case Copied(Regions(regions)) => Success(TextsOf(Keys(regions)))
    case Copied(Name(name)) => Success(Characters(name))
    case Copied(Number(_)) => Failure(TypeError("object is not iterable"))
    case StormMark(_) => Success(TextsOf(["token", "x", "y", "s", "a"]))
    case File(path) => Success(Characters(path))
    case WheelAngle(_) => Failure(TypeError("object is not iterable"))
    case Label(text) => Success(Characters(text))
  }

  function TextsOf(keys: seq<string>): (r: seq<Item>)
    ensures |r| == |keys|
  {
    seq(|keys|, i requires 0 <= i < |keys| => Text(keys[i]))
  }

  function Characters(s: string): (r: seq<Item>)
    ensures |r| == |s|
  {
    seq(|s|, i requires 0 <= i < |s| => Text([s[i]]))
  }

  // The body of the token loop: a string is skipped; an object is gathered
  // for deletion when its area, region or token is gone.

  /** `game_state['areas'][area].keys()` or `game_state['areas'][area][region].keys()`
      is called on a value that is not a dict, which raises AttributeError. */
  predicate KeysFail(areas: Dict<AreaValue>, area: string, region: string) {
    HasKey(areas, area)
    && (!Get(areas, area).Regions?
        || (HasKey(Get(areas, area).regions, region) && !Get(Get(areas, area).regions, region).Tokens?))
  }

  /** For dict values: the area, its region or the token is gone from `areas`. */
  predicate TokenGone(areas: Dict<AreaValue>, area: string, region: string, token: string)
    requires !KeysFail(areas, area, region)
  {
    || !HasKey(areas, area)
    || !HasKey(Get(areas, area).regions, region)
    || !HasKey(Get(Get(areas, area).regions, region).amounts, token)
  }

  /** The token loop over one drawing: it raises AttributeError exactly when
      some object meets a value that is not a dict; otherwise it gathers
      exactly the objects whose area, region or token is gone. */
  function Gather(areas: Dict<AreaValue>, area: string, items: seq<Item>): (r: Result<seq<(string, string, string)>>)
    ensures r.Failure? <==> exists i :: 0 <= i < |items| && items[i].Object? && KeysFail(areas, area, items[i].region)
    ensures r.Failure? ==> r.error == AttributeError("keys")
    ensures r.Success? ==> |r.value| <= |items|
    ensures r.Success? ==> forall k :: 0 <= k < |r.value| ==>
      r.value[k].0 == area && !KeysFail(areas, area, r.value[k].1) && TokenGone(areas, area, r.value[k].1, r.value[k].2)
    ensures r.Success? ==> forall i :: 0 <= i < |items| && items[i].Object? && TokenGone(areas, area, items[i].region, items[i].token) ==>
      (area, items[i].region, items[i].token) in r.value
  {
    if items == [] then Success([])
    else
      assert forall i :: 1 <= i < |items| ==> items[i] == items[1..][i - 1];
      match items[0]
      case Text(_) => Gather(areas, area, items[1..])
      case Object(region, token) =>
        if KeysFail(areas, area, region) then Failure(AttributeError("keys"))
        else
          var rest :- Gather(areas, area, items[1..]);
          if TokenGone(areas, area, region, token) then Success([(area, region, token)] + rest) else Success(rest)
  }

  lemma {:induction false} GatherSkipsTexts(areas: Dict<AreaValue>, area: string, items: seq<Item>)
    requires forall i :: 0 <= i < |items| ==> items[i].Text?
    ensures Gather(areas, area, items) == Success([])
    decreases |items|
  {
    if items != [] {
      GatherSkipsTexts(areas, area, items[1..]);
    }
  }

  /** Whatever the drawing, the token loop gathers nothing: the list of
      token-level deletions stays empty. */
  lemma NoTokenRemovals(areas: Dict<AreaValue>, area: string, v: VisualValue)
    requires Iterate(v).Success?
    ensures Gather(areas, area, Iterate(v).value) == Success([])
  {
    GatherSkipsTexts(areas, area, Iterate(v).value);
  }

  /** A drawing whose area has left the game state: a point area other
      than a player seat, the storm, or a wheel dial or leader, missing from
      `areas`. */
  predicate Stale(cfg: Config, areas: Dict<AreaValue>, key: string) {
    && key !in WheelCards
    && !HasKey(areas, key)
    && if key in cfg.pointAreas then key !in cfg.playerAreas else key == "storm" || key in WheelValues + WheelLeaders
  }

  /** With the label references the decorations built from the same
      `areas`, the scan deletes exactly the stale drawings: a label's wheel
      is always present. */
  lemma DropExactly(cfg: Config, areas: Dict<AreaValue>, key: string)
    ensures Classify(cfg, areas, Refs(areas), key) == Drop <==> Stale(cfg, areas, key)
  {
    RefsExact(areas);
  }

  /** A wheel player's label from an earlier round, left behind when this
      round's `areas` has no player for that wheel, is walked rather than
      checked, and so is never deleted. */
  lemma StaleLabelsStay(cfg: Config, areas: Dict<AreaValue>, wheel: string)
    requires wheel in WheelPlayers && !HasKey(areas, wheel)
    requires wheel + "_name" !in cfg.pointAreas
    ensures Classify(cfg, areas, Refs(areas), wheel + "_name") == Walk
  {
    var key := wheel + "_name";
    PlayerLabelKeysDistinct();
    LabelKeysDiffer(wheel);
    assert key[|key| - 1] == 'e';
    assert key !in WheelCards + WheelValues + WheelLeaders + ["storm"] by {
      assert key[|key| - 2] == 'm';
      assert |key| >= 2;
    }
  }

  /** The removal scan: the keys classified Drop, in order. Walking a
      number raises TypeError. */
  method StaleKeys(cfg: Config, areas: Dict<AreaValue>, refs: map<string, string>, vis: Dict<VisualValue>)
    returns (r: Result<seq<string>>)
    ensures r.Success? <==>
      forall i :: 0 <= i < |vis| && Classify(cfg, areas, refs, vis[i].0) == Walk ==> Iterate(vis[i].1).Success?
    ensures r.Failure? ==> r.error.TypeError?
    ensures r.Success? ==> forall k :: k in r.value <==> HasKey(vis, k) && Classify(cfg, areas, refs, k) == Drop
  {
    var points: seq<string> := [];
    var tokens: seq<(string, string, string)> := [];
    var i := 0;
    while i < |vis|
      invariant 0 <= i <= |vis|
      invariant forall j :: 0 <= j < i && Classify(cfg, areas, refs, vis[j].0) == Walk ==> Iterate(vis[j].1).Success?
      invariant forall k :: k in points <==> k in Keys(vis)[..i] && Classify(cfg, areas, refs, k) == Drop
      invariant tokens == []
    {
      var key := vis[i].0;
      assert Keys(vis)[..i + 1] == Keys(vis)[..i] + [key];
      var verdict := Classify(cfg, areas, refs, key);
      if verdict == Drop {
        points := points + [key];
      } else if verdict == Walk {
        var items := Iterate(vis[i].1);
        if items.Failure? {
          return Failure(items.error);
        }
        NoTokenRemovals(areas, key, vis[i].1);
        tokens := tokens + Gather(areas, key, items.value).value;
      }
      i := i + 1;
    }
    assert Keys(vis)[..i] == Keys(vis);
    return Success(points);
  }

  /** The deletions `del visual[key]`: the listed keys disappear and every
      other drawing is kept as it was. */
  method RemoveAll(vis: Dict<VisualValue>, points: seq<string>) returns (v: Dict<VisualValue>)
    ensures forall k :: HasKey(v, k) <==> HasKey(vis, k) && k !in points
    ensures forall k :: HasKey(v, k) ==> Get(v, k) == Get(vis, k)
  {
    v := vis;
    var n := 0;
    while n < |points|
      invariant 0 <= n <= |points|
      invariant forall k :: HasKey(v, k) <==> HasKey(vis, k) && k !in points[..n]
      invariant forall k :: HasKey(v, k) ==> Get(v, k) == Get(vis, k)
    {
      forall k
        ensures HasKey(Remove(v, points[n]), k) <==> HasKey(v, k) && k != points[n]
        ensures HasKey(Remove(v, points[n]), k) ==> Get(Remove(v, points[n]), k) == Get(v, k)
      {
        RemoveLookup(v, points[n], k);
      }
      assert points[..n + 1] == points[..n] + [points[n]];
      v := Remove(v, points[n]);
      n := n + 1;
    }
    assert points[..n] == points;
  }

  /** The removal scan and the deletions: exactly the keys classified Drop
      disappear, every other drawing is kept as it was. Walking a number
      raises TypeError before anything is deleted. */
  method Sweep(cfg: Config, areas: Dict<AreaValue>, refs: map<string, string>, vis: Dict<VisualValue>)
    returns (r: Result<Dict<VisualValue>>)
    ensures r.Success? <==>
      forall i :: 0 <= i < |vis| && Classify(cfg, areas, refs, vis[i].0) == Walk ==> Iterate(vis[i].1).Success?
    ensures r.Failure? ==> r.error.TypeError?
    ensures r.Success? ==> forall k :: HasKey(r.value, k) <==> HasKey(vis, k) && Classify(cfg, areas, refs, k) != Drop
    ensures r.Success? ==> forall k :: HasKey(r.value, k) ==> Get(r.value, k) == Get(vis, k)
  {
    var points :- StaleKeys(cfg, areas, refs, vis);
    var v := RemoveAll(vis, points);
    return Success(v);
  }

  /** `'{0}\n{1}'.format(player_name, faction_name)`. */
  function PlayerText(username: string, factionName: string): string {
    username + "\n" + factionName
  }

  /** A user name without a line break is the text's first line, and the
      faction name the rest. */
  lemma PlayerTextSplits(username: string, factionName: string)
    requires '\n' !in username
    ensures var text := PlayerText(username, factionName);
      && '\n' !in text[..|username|] && text[|username|] == '\n'
      && text[..|username|] == username && text[|username| + 1..] == factionName
  {
    var text := PlayerText(username, factionName);
    assert text[..|username|] == username;
    assert text[|username| + 1..] == factionName;
  }

  /** The first `i` players' texts are written, and nothing else changed. */
  ghost predicate TextsWritten(cfg: Config, st: GameState, texts: Dict<string>, i: nat)
    requires i <= |st.factions|
  {
    && (forall j :: 0 <= j < i ==> st.factions[j].0 in st.usernames && st.factions[j].1 in cfg.factionNames)
    && (forall j :: 0 <= j < i ==>
          HasKey(texts, st.factions[j].0)
          && Get(texts, st.factions[j].0) == PlayerText(st.usernames[st.factions[j].0], cfg.factionNames[st.factions[j].1]))
    && AgreeOutside(st.texts, texts, set j | 0 <= j < i :: st.factions[j].0)
  }

  lemma TextStep(cfg: Config, st: GameState, texts: Dict<string>, i: nat)
    requires DistinctKeys(st.factions)
    requires i < |st.factions| && st.factions[i].0 in st.usernames && st.factions[i].1 in cfg.factionNames
    requires TextsWritten(cfg, st, texts, i)
    ensures TextsWritten(cfg, st, Put(texts, st.factions[i].0,
                                      PlayerText(st.usernames[st.factions[i].0], cfg.factionNames[st.factions[i].1])), i + 1)
  {
    var p := st.factions[i].0;
    var texts' := Put(texts, p, PlayerText(st.usernames[p], cfg.factionNames[st.factions[i].1]));
    forall j | 0 <= j < i + 1
      ensures HasKey(texts', st.factions[j].0)
              && Get(texts', st.factions[j].0) == PlayerText(st.usernames[st.factions[j].0], cfg.factionNames[st.factions[j].1])
    {
      if j < i {
        assert st.factions[j].0 != p;
      }
    }
    assert AgreeOutside(st.texts, texts', set j | 0 <= j < i + 1 :: st.factions[j].0) by {
      AgreeOutsideChain(st.texts, texts, texts', set j | 0 <= j < i :: st.factions[j].0, {p},
                        set j | 0 <= j < i + 1 :: st.factions[j].0);
    }
  }

  /** After the loop, every player of `factions` has its text. */
  lemma TextsComplete(cfg: Config, st: GameState, texts: Dict<string>)
    requires TextsWritten(cfg, st, texts, |st.factions|)
    ensures forall p :: HasKey(st.factions, p) ==>
      p in st.usernames && Get(st.factions, p) in cfg.factionNames
      && HasKey(texts, p) && Get(texts, p) == PlayerText(st.usernames[p], cfg.factionNames[Get(st.factions, p)])
  {
    forall p | HasKey(st.factions, p)
      ensures p in st.usernames && Get(st.factions, p) in cfg.factionNames
      ensures HasKey(texts, p)
      ensures Get(texts, p) == PlayerText(st.usernames[p], cfg.factionNames[Get(st.factions, p)])
    {
      FirstIndexUnique(st.factions, p, IndexOf(st.factions, p));
    }
  }

  /** The text loop: every faction's player gets the text of its user name
      and faction name. A player without a user name, or a faction without
      a configured name, raises KeyError. */
  method WriteTexts(cfg: Config, st: GameState) returns (r: Result<Dict<string>>)
    requires DistinctKeys(st.factions)
    ensures r.Success? <==> forall i :: 0 <= i < |st.factions| ==>
      st.factions[i].0 in st.usernames && st.factions[i].1 in cfg.factionNames
    ensures r.Failure? ==> r.error.KeyError?
    ensures r.Success? ==> forall p :: HasKey(st.factions, p) ==>
      p in st.usernames && Get(st.factions, p) in cfg.factionNames
      && HasKey(r.value, p) && Get(r.value, p) == PlayerText(st.usernames[p], cfg.factionNames[Get(st.factions, p)])
    ensures r.Success? ==> AgreeOutside(st.texts, r.value, set i | 0 <= i < |st.factions| :: st.factions[i].0)
  {
    var texts := st.texts;
    var i := 0;
    while i < |st.factions|
      invariant 0 <= i <= |st.factions|
      invariant TextsWritten(cfg, st, texts, i)
    {
      var (player, faction) := st.factions[i];
      var username :- Lookup(st.usernames, player);
      var factionName :- Lookup(cfg.factionNames, faction);
      TextStep(cfg, st, texts, i);
      texts := Put(texts, player, PlayerText(username, factionName));
      i := i + 1;
    }
    TextsComplete(cfg, st, texts);
    return Success(texts);
  }
}

=== FILE: wrappers.dfy ===
/** Failure-compatible wrappers used by every module of the model.

  - Option<T> stands for a Python value that may be `None`.
  - Result<T> stands for a computation that may raise; the error says which
    Python exception the source would raise there.
 */
module Wrappers {

  datatype Option<+T> = None | Some(value: T) {
    predicate IsFailure() {
      None?
    }

    function PropagateFailure<U>(): Option<U>
      requires None?
    {
      None
    }

    function Extract(): T
      requires Some?
    {
      value
    }
  }

  /** The Python exception a modelled operation would raise. */
  datatype Error =
    | KeyError(key: string)          // a dict lookup of a missing key
    | IndexError                     // a list index past the end
    | TypeError(reason: string)      // an operation on a value of the wrong kind
    | AttributeError(name: string)   // an attribute the object does not have

  datatype Result<+T> = Success(value: T) | Failure(error: Error) {
    predicate IsFailure() {
      Failure?
    }

    function PropagateFailure<U>(): Result<U>
      requires Failure?
    {
      Failure(error)
    }

    function Extract(): T
      requires Success?
    {
      value
    }
  }

  /** A lookup in a map that raises KeyError when the key is missing. */
  function Lookup<V>(m: map<string, V>, key: string): (r: Result<V>)
    ensures r.Success? <==> key in m
    ensures r.Success? ==> r.value == m[key]
    ensures r.Failure? ==> r.error == KeyError(key)
  {
    if key in m then Success(m[key]) else Failure(KeyError(key))
  }

  /** Turns a possibly-None value into a result; None raises TypeError. */
  function NotNone<T>(o: Option<T>, what: string): (r: Result<T>)
    ensures r.Success? <==> o.Some?
    ensures o.Some? ==> r.value == o.value
  {
    match o
    case Some(v) => Success(v)
    case None => Failure(TypeError(what))
  }
}
